=== FILE: README.md ===
# ms-teams-sample in Dafny

A model of the decision logic of the ms-teams-sample Spring application: a portal that signs
users in with Microsoft Entra ID (OAuth 2.0, Teams SSO and a SAML 2.0 identity-provider
role), keeps its own account table and calls Microsoft Graph. The model covers these parts:

- **Bearer-token authorisation.** The project reads an access token as a JWS Compact Serialization (section 7.1 of RFC 7515). It models Java's `split("\\.")`, the payload claims as `org.json` sees them, and both `AuthUtil.isAdmin` variants with `hasAdminScope` (modules `JavaText`, `Json`, `ClaimAuthorizer`).
- **Teams SSO endpoint.** `AzureAuthController.teamsSSO` is modelled from the token to the session (module `TeamsSso`).
- **Authorization and token URLs.** The authorization request (section 4.1.1 of RFC 6749) and token URLs come from the three configuration classes. The project also models `getAuthorizationUrlWith` in both OAuth services, with `prompt` and `login_hint` from section 3.1.2.1 of OpenID Connect Core 1.0, and the account-type guess from `iss`. `URLEncoder` is given concretely (modules `FormEncoding`, `AuthorizationUrl`).
- **Graph error pipeline.** A Graph failure becomes an application exception through both `GraphApiErrorHandler`s and `GraphApiException`. Both `GlobalExceptionHandler` advices then map the exception to an HTTP status and a JSON body (modules `GraphErrors`, `ErrorAdvice`).
- **Account store.** `User` and `UserService` are modelled as a sequence of rows. Uniqueness constraints, register, login, OAuth lookup and linking, and the token and last-login updates are covered (module `Accounts`).
- **Graph client cache and session guards.** The project models both `GraphClientService`s and the session attributes (`HttpSession`). It also models both `checkAuthentication`s, `CommonAuthController` and the `MainController` page guards (modules `GraphClientCache`, `HttpSession`, `SessionGuards`).
- **SAML 2.0 Response.** `SamlService` builds the Response (section 3.3.3 of SAML 2.0 Core) and the Assertion with its bearer `SubjectConfirmationData` (section 2.4.1.2) and `AttributeStatement` (section 2.7.3). Signing is best-effort. PEM bodies are extracted as in section 2 of RFC 7468. The service also generates IdP metadata (modules `Pem`, `Saml`).

Foreign pieces are function-valued parameters or record fields. These are:

- Base64 and UTF-8 decoding;
- org.json parsing and rendering;
- Jackson;
- BCrypt;
- X.509 and PKCS#8 parsing;
- OpenSAML marshalling;
- the clocks and UUIDs.

Every `.dfy` file is one module, and they are verified together.

## Model

| member | source | states |
|---|---|---|
| JavaText.JavaSplit | teams/src/main/java/com/example/teams/shared/util/AuthUtil.java:150-154 | `split` on one character: no part holds the separator; without a separator the input is the only part; otherwise the parts between separators with trailing empty parts dropped |
| JavaText.JavaSplitOfJoin | teams/src/main/java/com/example/teams/shared/util/AuthUtil.java:150-154 | splitting separator-free parts joined by the separator gives the parts back when the last part is non-empty |
| JavaText.JavaSplitExamples | teams/src/main/java/com/example/teams/auth/controller/AzureAuthController.java:194-198 | `"a.b."` splits into 2 parts, `"a..b"` into 3, `""` into one empty part and `"..."` into none |
| JavaText.DropTrailingEmpty | teams/src/main/java/com/example/teams/shared/util/AuthUtil.java:150 | only trailing empty strings are removed: the result is a prefix of the parts that does not end in "" |
| JavaText.SegmentsOfJoin | teams/src/main/java/com/example/teams/shared/util/AuthUtil.java:150 | cutting a join of separator-free parts at every separator gives back exactly those parts |
| JavaText.JoinSegments | teams/src/main/java/com/example/teams/shared/util/AuthUtil.java:150 | rejoining the pieces cut at every separator gives back the string |
| JavaText.Trim | teams/src/main/java/com/example/teams/auth/service/SamlService.java:348 | `String.trim()`: the result is the slice of the input left after removing every character at or below U+0020 from both ends; it neither starts nor ends with such a character |
| JavaText.RemoveRegexSpace | teams/src/main/java/com/example/teams/auth/service/SamlService.java:362 | `replaceAll("\\s+", "")`: the result holds no `\s` character, and a character occurs in it iff it occurs in the input and is not `\s` |
| JavaText.RemoveRegexSpaceConcat | teams/src/main/java/com/example/teams/auth/service/SamlService.java:362 | the removal distributes over concatenation, so it filters the input piece by piece, keeping order |
| JavaText.RemoveRegexSpaceChar | teams/src/main/java/com/example/teams/auth/service/SamlService.java:362 | on one character it yields "" for `[ \t\n\x0B\f\r]` and the character itself otherwise |
| JavaText.ToLowerAscii | teams/src/main/java/com/example/teams/util/AuthUtil.java:131-132 | lower-casing maps each of A-Z to its lower-case letter and keeps every other character, position by position (Java's ROOT-locale behaviour on ASCII) |
| FormEncoding.DecodeFormEncode | teams/src/main/java/com/example/teams/auth/config/AzureOAuthConfig.java:41-42 | undoing `URLEncoder.encode(s, UTF-8)` yields the UTF-8 bytes of s |
| FormEncoding.FormEncode | teams/src/main/java/com/example/teams/auth/config/AzureOAuthConfig.java:41-42 | `URLEncoder.encode(s, "UTF-8")` character by character: unreserved characters kept, space as '+', anything else as %XX of its UTF-8 bytes (properties in DecodeFormEncode, FormEncodeAlphabet, FormEncodeUnreserved) |
| FormEncoding.FormEncodeAlphabet | teams/src/main/java/com/example/teams/auth/config/AzureOAuthConfig.java:41-42 | encoded text uses only unreserved characters, '%' and '+', so it never holds '&', '=', '?', '#' or '/' |
| FormEncoding.FormEncodeUnreserved | teams/src/main/java/com/example/teams/auth/config/AzureOAuthConfig.java:41-42 | text made only of unreserved characters is left unchanged |
| FormEncoding.FormEncodeExamples | teams/src/main/java/com/example/teams/auth/config/AzureOAuthConfig.java:41-42 | a space becomes '+' and '/' becomes "%2F" |
| FormEncoding.DecodePercentEscapes | teams/src/main/java/com/example/teams/auth/config/AzureOAuthConfig.java:41-42 | decoding a run of %XX escapes followed by more text yields exactly the escaped bytes and then the decoding of the rest |
| FormEncoding.HexRoundTrip | teams/src/main/java/com/example/teams/auth/config/AzureOAuthConfig.java:41-42 | the upper-case hex digit written for a nibble reads back as that nibble |
| Json.OptString | teams/src/main/java/com/example/teams/auth/controller/AzureAuthController.java:233-237 | `optString(key, default)` gives the default for a missing key or JSON null and the string itself for a string value |
| Json.GetString | teams/src/main/java/com/example/teams/util/AuthUtil.java:109 | `getString(key)` succeeds exactly for a string value and returns it |
| Json.ReadClaims | teams/src/main/java/com/example/teams/shared/util/AuthUtil.java:157-161 | claims are read only from a segment whose Base64url decoding succeeds |
| Json.DecodePayload | teams/src/main/java/com/example/teams/shared/util/AuthUtil.java:150-161 | a token is malformed exactly when it does not split into 3 parts; otherwise the claims are those read from the middle part |
| Json.DecodeCompact | teams/src/main/java/com/example/teams/shared/util/AuthUtil.java:150-161 | for a signed compact token, decoding yields the claims of the payload segment, or that segment's read error |
| Json.CompactSplit | teams/src/main/java/com/example/teams/shared/util/AuthUtil.java:150-154 | a signed compact token splits back into its header, payload and signature |
| Json.UnsecuredIsMalformed | teams/src/main/java/com/example/teams/shared/util/AuthUtil.java:150-154 | an unsecured token (empty signature) loses its last part to `split` and is rejected as malformed |
| ClaimAuthorizer.ContainsAny | teams/src/main/java/com/example/teams/shared/util/AuthUtil.java:234-238 | the loop finds a needle exactly when some needle occurs as a substring |
| ClaimAuthorizer.HasAdminScope | teams/src/main/java/com/example/teams/shared/util/AuthUtil.java:229-241 | false for null or empty input; otherwise true iff some ADMIN_SCOPES entry occurs as a substring |
| ClaimAuthorizer.HasAdminScopeEmbedded | teams/src/main/java/com/example/teams/util/AuthUtil.java:162-174 | a longer scope name that embeds an allowlisted one is accepted, because the test is on substrings |
| ClaimAuthorizer.ScanFoundIff | teams/src/main/java/com/example/teams/shared/util/AuthUtil.java:205-210 | the for-each over a `List<String>` returns true iff some element is a hit and every element before it is a string |
| ClaimAuthorizer.ScanThrewIff | teams/src/main/java/com/example/teams/shared/util/AuthUtil.java:205-210 | the for-each throws a ClassCastException iff a non-string comes before any hit |
| ClaimAuthorizer.ScanStrings | teams/src/main/java/com/example/teams/shared/util/AuthUtil.java:205-210 | the for-each with a cast to String, run to its first outcome: Found, Exhausted or Threw (characterised by ScanFoundIff and ScanThrewIff) |
| ClaimAuthorizer.AdminFromClaims | teams/src/main/java/com/example/teams/shared/util/AuthUtil.java:197-215 | grants iff `wids` is a `java.util.List` with an ADMIN_ROLE_IDS hit reached before any non-string |
| ClaimAuthorizer.IsAdmin | teams/src/main/java/com/example/teams/shared/util/AuthUtil.java:142-221 | false without a token or when the split does not give 3 parts; true exactly when the token's payload decodes and its claims pass the `wids` test; never throws |
| ClaimAuthorizer.AdminFromClaimsOnlyWids | teams/src/main/java/com/example/teams/shared/util/AuthUtil.java:163-194 | claim sets that agree on `wids` get the same answer: `scp` and `roles` are commented out |
| ClaimAuthorizer.AdminFromListedRoleId | teams/src/main/java/com/example/teams/shared/util/AuthUtil.java:199-209 | a `wids` List that starts with the Global Administrator id grants |
| ClaimAuthorizer.AdminNeverOnOrgJson | teams/src/main/java/com/example/teams/shared/util/AuthUtil.java:197-212 | on claims holding no `java.util.List` (as org.json builds them) the `wids` test never grants |
| ClaimAuthorizer.IsAdminNeverOnOrgJson | teams/src/main/java/com/example/teams/shared/util/AuthUtil.java:157-212 | with an org.json-shaped parser, `isAdmin` is false for every token |
| ClaimAuthorizer.GlobalAdministratorArrayDenied | teams/src/main/java/com/example/teams/shared/util/AuthUtil.java:199 | `{"wids": ["62e90394-…"]}` parsed as a JSONArray is denied |
| ClaimAuthorizer.AdminFromClaimsIntended | teams/src/main/java/com/example/teams/shared/util/AuthUtil.java:197-212 | corrected test: a `wids` array of either run-time class with an admin role id hit grants |
| ClaimAuthorizer.AdminIntendedGrantsArray | teams/src/main/java/com/example/teams/shared/util/AuthUtil.java:197-212 | the corrected test grants a JSONArray of strings that holds an admin role id |
| ClaimAuthorizer.AdminIntendedExtendsAsWritten | teams/src/main/java/com/example/teams/shared/util/AuthUtil.java:197-212 | the corrected test grants whatever the code as written grants and agrees with it unless `wids` is a JSONArray |
| ClaimAuthorizer.IsAdminIntended | teams/src/main/java/com/example/teams/shared/util/AuthUtil.java:142-221 | `isAdmin` with the corrected claim test: true iff the token decodes and the corrected test grants |
| ClaimAuthorizer.AdministratorRedundant | teams/src/main/java/com/example/teams/util/AuthUtil.java:131-132 | a name containing "administrator" already contains "admin" |
| ClaimAuthorizer.RolesGrant | teams/src/main/java/com/example/teams/util/AuthUtil.java:122-138 | grants iff `roles` is a `java.util.List` with an element whose lower-cased form contains "admin", reached before any non-string |
| ClaimAuthorizer.LegacyAdminFromClaims | teams/src/main/java/com/example/teams/util/AuthUtil.java:108-148 | a non-string `scp` denies; a string `scp` with an allowlisted substring grants; otherwise the `roles` test decides |
| ClaimAuthorizer.LegacyIsAdmin | teams/src/main/java/com/example/teams/util/AuthUtil.java:86-154 | false without a token or when the split does not give 3 parts; true exactly when the payload decodes and its claims pass the legacy `scp`/`roles` test; never throws |
| ClaimAuthorizer.LegacyIgnoresWids | teams/src/main/java/com/example/teams/util/AuthUtil.java:141-145 | removing `wids` never changes the legacy answer |
| ClaimAuthorizer.LegacyOnOrgJsonIsScopeOnly | teams/src/main/java/com/example/teams/util/AuthUtil.java:108-138 | on org.json claims the legacy check reduces to the `scp` test |
| ClaimAuthorizer.AdminRoleArrayDenied | teams/src/main/java/com/example/teams/util/AuthUtil.java:124 | `{"roles": ["Admin"]}` parsed as a JSONArray is denied |
| ClaimAuthorizer.LegacyAdminFromClaimsIntended | teams/src/main/java/com/example/teams/util/AuthUtil.java:108-138 | corrected legacy test: a `roles` array of either run-time class naming an admin role grants |
| ClaimAuthorizer.LegacyIntendedGrantsArray | teams/src/main/java/com/example/teams/util/AuthUtil.java:122-138 | the corrected legacy test grants a JSONArray `roles` whose one element mentions "admin" |
| ClaimAuthorizer.LegacyIntendedExtendsAsWritten | teams/src/main/java/com/example/teams/util/AuthUtil.java:108-138 | the corrected legacy test grants whatever the code as written grants |
| TeamsSso.ReplyKeys | teams/src/main/java/com/example/teams/auth/controller/AzureAuthController.java:326-349 | every reply has "success"; exactly the failures have "error" |
| TeamsSso.AudienceDiagnostics | teams/src/main/java/com/example/teams/auth/controller/AzureAuthController.java:210-224 | the audience check is skipped exactly when no App ID URI is set; a mismatch is reported only for an audience other than that URI |
| TeamsSso.NoClientIdNoMismatch | teams/src/main/java/com/example/teams/auth/controller/AzureAuthController.java:216-218 | without a client id every audience "contains" the empty string, so no mismatch is ever reported |
| TeamsSso.ScopeDiagnostics | teams/src/main/java/com/example/teams/auth/controller/AzureAuthController.java:227-230 | a warning exactly when `scp` lacks "access_as_user" |
| TeamsSso.TokenIdentity | teams/src/main/java/com/example/teams/auth/controller/AzureAuthController.java:233-237 | upn is preferred_username, else upn, else ""; name, oid and tid are their claims read with `optString(key, "")` |
| TeamsSso.Prefer | teams/src/main/java/com/example/teams/auth/controller/AzureAuthController.java:266-274 | a Graph value replaces the token's value only when non-null and non-empty |
| TeamsSso.Refine | teams/src/main/java/com/example/teams/auth/controller/AzureAuthController.java:266-274 | upn, name and id follow the Graph profile where it has them; the tenant id is the token's |
| TeamsSso.LinkAccount | teams/src/main/java/com/example/teams/auth/controller/AzureAuthController.java:242-314 | an OBO or Graph failure resets the client cache and keeps the token identity; otherwise the identity is the Graph-refined one, a found user is returned with the lookup's store and the initialised client, an unregistered user keeps the client and the store, and any other account-store error resets the client; the store stays valid |
| TeamsSso.WriteUser | teams/src/main/java/com/example/teams/auth/controller/AzureAuthController.java:292-295 | a linked user's id and email are written, and only the four named keys are added |
| TeamsSso.WriteSso | teams/src/main/java/com/example/teams/auth/controller/AzureAuthController.java:316-323 | the SSO token goes under accessToken and ssoToken with loginType "SSO"; userId and userEmail are untouched |
| TeamsSso.WriteSession | teams/src/main/java/com/example/teams/auth/controller/AzureAuthController.java:292-323 | the session carries the identity and the token; userId and userEmail are the linked user's, or as before |
| TeamsSso.TeamsSso | teams/src/main/java/com/example/teams/auth/controller/AzureAuthController.java:181-350 | missing token, wrong shape and unreadable payload fail and change nothing; success iff the payload decodes, and then the session, the Linked/Unlinked reply, the cache and the store are those of the account link on the token identity |
| TeamsSso.ChecksOnlyLog | teams/src/main/java/com/example/teams/auth/controller/AzureAuthController.java:210-230 | the audience and scope checks never change the reply, session, cache or store |
| TeamsSso.SsoLinksFoundUser | teams/src/main/java/com/example/teams/auth/controller/AzureAuthController.java:266-295 | end to end: with Graph answering and the store finding the refined identity, the reply is Linked with that account, the session holds its id, e-mail and the Graph object id, and the store and client are the lookup's |
| TeamsSso.SsoUnregisteredKeepsClient | teams/src/main/java/com/example/teams/auth/controller/AzureAuthController.java:279-313 | end to end: an Unauthorized lookup gives an Unlinked reply, keeps the store, the initialised client and the session's userId |
| TeamsSso.GraphFailureKeepsTokenIdentity | teams/src/main/java/com/example/teams/auth/controller/AzureAuthController.java:302-345 | after an OBO or Graph failure the reply still succeeds without a user; the cache is empty and the session holds the token identity |
| TeamsSso.SessionNameIsSsoName | teams/src/main/java/com/example/teams/auth/controller/AzureAuthController.java:294-320 | the session's userName is always the reply's name: the later SSO write overwrites the account name |
| AuthorizationUrl.ParseParams | teams/src/main/java/com/example/teams/auth/config/AzureOAuthConfig.java:44-48 | reading query fields is field-by-field: one parameter per field, in order |
| AuthorizationUrl.AuthorizeEndpoint | teams/src/main/java/com/example/teams/auth/config/AzureOAuthConfig.java:45 | the endpoint is on the login host and holds no '?' unless the tenant does |
| AuthorizationUrl.RequestQueryIsJoin | teams/src/main/java/com/example/teams/auth/config/AzureOAuthConfig.java:44-48 | the filled-in query template is the five `name=value` fields joined with '&' |
| AuthorizationUrl.BuildAuthorizationUrl | teams/src/main/java/com/example/teams/auth/config/AzureOAuthConfig.java:39-52 | fails exactly when redirectUri or scope is null (encoded first); otherwise the endpoint, '?' and a query ending in the response mode |
| AuthorizationUrl.AuthorizationUrlReadsBack | teams/src/main/java/com/example/teams/auth/config/AzureOAuthConfig.java:39-52 | a reader finds the tenant as the first path segment and exactly the five parameters; decoding them gives the UTF-8 bytes of redirect URI and scope |
| AuthorizationUrl.BuiltUrlShape | teams/src/main/java/com/example/teams/auth/config/AzureOAuthConfig.java:44-48 | the built URL is the endpoint, '?' and the five fields joined by '&' |
| AuthorizationUrl.QueryOfFields | teams/src/main/java/com/example/teams/auth/config/AzureOAuthConfig.java:44-48 | with a client id free of '&', reading the joined fields gives the five parameters |
| AuthorizationUrl.ParseRequestFields | teams/src/main/java/com/example/teams/auth/config/AzureOAuthConfig.java:44-48 | reading the five request fields gives client_id, response_type=code, the encoded redirect_uri and scope, and response_mode |
| AuthorizationUrl.TokenUrl | teams/src/main/java/com/example/teams/auth/config/AzureOAuthConfig.java:71-76 | the token URL is on the login host, ends in "/oauth2/v2.0/token" and has the tenant as its first path segment |
| AuthorizationUrl.AzureAuthorizationUrl | teams/src/main/java/com/example/teams/auth/config/AzureOAuthConfig.java:57-59 | top-level settings; succeeds iff their redirect URI and scope are set; ends with response_mode=form_post |
| AuthorizationUrl.AzureAuthorizationUrlForTeams | teams/src/main/java/com/example/teams/auth/config/AzureOAuthConfig.java:64-66 | top-level settings; ends with response_mode=query |
| AuthorizationUrl.AzureOAuthAuthorizationUrl | teams/src/main/java/com/example/teams/auth/config/AzureOAuthConfig.java:81-89 | nested `oauth` settings; ends with response_mode=form_post |
| AuthorizationUrl.AzureOAuthAuthorizationUrlForTeams | teams/src/main/java/com/example/teams/auth/config/AzureOAuthConfig.java:94-102 | nested `oauth` settings; ends with response_mode=query |
| AuthorizationUrl.AzureTokenUrl | teams/src/main/java/com/example/teams/auth/config/AzureOAuthConfig.java:71-76 | the top-level tenant is the first path segment |
| AuthorizationUrl.AzureOAuthTokenUrl | teams/src/main/java/com/example/teams/auth/config/AzureOAuthConfig.java:107-112 | the nested tenant is the first path segment |
| AuthorizationUrl.TeamsVariantDiffersInMode | teams/src/main/java/com/example/teams/auth/config/AzureOAuthConfig.java:57-102 | the form_post and query variants agree on everything before the response_mode value |
| AuthorizationUrl.VariantsReadTheirOwnBlock | teams/src/main/java/com/example/teams/auth/config/AzureOAuthConfig.java:81-112 | the `getOAuth*` URLs depend only on the nested block, the plain ones only on the top level |
| AuthorizationUrl.OAuthConfigAuthorizationUrl | teams/src/main/java/com/example/teams/auth/config/OAuthConfig.java:33-46 | succeeds iff redirect URI and scope are set; on the tenant's endpoint; ends with response_mode=form_post |
| AuthorizationUrl.OAuthConfigTokenUrl | teams/src/main/java/com/example/teams/auth/config/OAuthConfig.java:51-56 | the tenant is the first path segment of the token URL |
| AuthorizationUrl.AzureAdAuthorizationUrl | teams/src/main/java/com/example/teams/config/AzureAdConfig.java:23-36 | succeeds iff redirect URI and scope are set; on the tenant's endpoint; ends with response_mode=query |
| AuthorizationUrl.AzureAdTokenUrl | teams/src/main/java/com/example/teams/config/AzureAdConfig.java:38-43 | the tenant is the first path segment of the token URL |
| AuthorizationUrl.AuthorizationUrlWith | teams/src/main/java/com/example/teams/auth/service/AzureOAuthService.java:102-119 | the base URL is a prefix; nothing is added without non-blank values; otherwise exactly `prompt=…` and/or `login_hint=…` are appended, the first after '?' (or '&' when the base has a query) and login_hint after '&' when prompt precedes it |
| AuthorizationUrl.AppendParamReadsBack | teams/src/main/java/com/example/teams/auth/service/AzureOAuthService.java:109-113 | appending `&name=value` to a URL with a query adds exactly that parameter |
| AuthorizationUrl.AuthorizationUrlWithReadsBack | teams/src/main/java/com/example/teams/auth/service/OAuthService.java:111-128 | on a base with a query, the parameters read back are the base's, then exactly the non-blank prompt and login_hint |
| AuthorizationUrl.AzureServiceUrlWith | teams/src/main/java/com/example/teams/auth/service/AzureOAuthService.java:102-119 | defined iff the form_post URL is; that URL is its prefix, and `AzureServiceUrlReadsBack` pins what follows it |
| AuthorizationUrl.AzureServiceUrlReadsBack | teams/src/main/java/com/example/teams/auth/service/AzureOAuthService.java:102-119 | end to end on the top-level block: the five form_post request parameters, then exactly the non-blank prompt and login_hint |
| AuthorizationUrl.OAuthServiceUrlWith | teams/src/main/java/com/example/teams/auth/service/OAuthService.java:111-128 | defined iff `OAuthConfig.getAuthorizationUrl()` is; that URL is its prefix |
| AuthorizationUrl.OAuthServiceUrlReadsBack | teams/src/main/java/com/example/teams/auth/service/OAuthService.java:111-128 | end to end: the five request parameters, then the non-blank extras |
| AuthorizationUrl.AccountTypeOf | teams/src/main/java/com/example/teams/auth/service/AzureOAuthService.java:74 | personal iff `iss` contains "consumers"; work/school iff not that and it contains "organizations" or "common" |
| AuthorizationUrl.AccountTypeOfClaims | teams/src/main/java/com/example/teams/auth/service/OAuthService.java:81-84 | a missing `iss` (read as "unknown") classifies as unknown; a string `iss` is classified itself |
| AuthorizationUrl.IssuerTenantClassified | teams/src/main/java/com/example/teams/auth/service/OAuthService.java:84 | issuers containing the consumers, organizations or common tenant are never classified unknown |
| GraphErrors.NewGraphApiException | teams/src/main/java/com/example/teams/exception/GraphApiException.java:10-14 | the constructors without an error code keep message and status and leave the code null |
| GraphErrors.NewGraphApiExceptionWithCode | teams/src/main/java/com/example/teams/exception/GraphApiException.java:16-20 | the constructors with an error code keep message, status and code |
| GraphErrors.LegacyHandleODataError | teams/src/main/java/com/example/teams/util/GraphApiErrorHandler.java:26-97 | no error body: 500 without a code; null status: 500 with the code; 401 iff Unauthorized, 403 iff Forbidden (provisioning prefix on the message test); otherwise the status itself; each branch's message is stated (the 401/403 prefixes, "결제 필요 (402): " for 402, "<operation> 실패: " otherwise) |
| GraphErrors.ForbiddenCodeNeedsMessage | teams/src/main/java/com/example/teams/util/GraphApiErrorHandler.java:65-69 | a null message with code "Forbidden" is not read as a provisioning problem |
| GraphErrors.LegacyHandleApiException | teams/src/main/java/com/example/teams/util/GraphApiErrorHandler.java:108-138 | the status is kept; 401 iff Unauthorized, 403 iff Forbidden; exactly the fixed text for each of 401/402/403, "<operation> 실패 (상태 코드: N): " otherwise; never an error code |
| GraphErrors.HandleOther | teams/src/main/java/com/example/teams/util/GraphApiErrorHandler.java:147-154 | any other exception is a GraphApiException 500 with message "<operation> 실패: <message>" and no code |
| GraphErrors.LegacyHandle | teams/src/main/java/com/example/teams/util/GraphApiErrorHandler.java:166-174 | dispatch by kind; every path raises; generic failures are 500; Unauthorized only from Graph failures |
| GraphErrors.MsHandleODataError | teams/src/main/java/com/example/teams/ms/util/GraphApiErrorHandler.java:37-48 | returns normally iff the error object is present; otherwise a GraphApiException 500 with message "<operation> 실패: <message>" |
| GraphErrors.ResponseBody | teams/src/main/java/com/example/teams/ms/util/GraphApiErrorHandler.java:170-192 | the cause's message if it looks like JSON, else the own message if it does, else none |
| GraphErrors.JsonLookingIsNonEmpty | teams/src/main/java/com/example/teams/ms/util/GraphApiErrorHandler.java:119 | a JSON-looking body is never empty, so the emptiness test never fires |
| GraphErrors.ParseErrorResponse | teams/src/main/java/com/example/teams/ms/util/GraphApiErrorHandler.java:114-131 | no body gives no parsed response; a body is handed to the JSON reader |
| GraphErrors.MsErrorMessage | teams/src/main/java/com/example/teams/ms/util/GraphApiErrorHandler.java:71-79 | the parsed `error.message` if non-empty, else the exception message |
| GraphErrors.MsHandleApiException | teams/src/main/java/com/example/teams/ms/util/GraphApiErrorHandler.java:60-106 | the status is kept; 401 iff Unauthorized, 403 iff Forbidden; 402 and the default carry the parsed error code; each message is the kind's prefix (or "<operation> 실패: ") followed by the parsed or own message |
| GraphErrors.UnparsableBodyUsesMessage | teams/src/main/java/com/example/teams/ms/util/GraphApiErrorHandler.java:114-131 | without a JSON-looking text the exception message and no error code are used |
| GraphErrors.MsHandle | teams/src/main/java/com/example/teams/ms/util/GraphApiErrorHandler.java:221-229 | returns normally iff an ODataError carries an error object; generic failures are 500 |
| GraphErrors.HandlersAgreeOnApiExceptions | teams/src/main/java/com/example/teams/ms/util/GraphApiErrorHandler.java:84-105 | both handlers give every ApiException the same kind and status |
| GraphErrors.ODataWithErrorFallsThrough | teams/src/main/java/com/example/teams/ms/util/GraphApiErrorHandler.java:41-48 | an ODataError with an error object raises in the older handler and falls through in the newer |
| ErrorAdvice.HttpStatusFor | teams/src/main/java/com/example/teams/shared/exception/GlobalExceptionHandler.java:79-84 | 401, 402 and 403 (and 500) are kept, everything else becomes 500 |
| ErrorAdvice.ErrorBody | teams/src/main/java/com/example/teams/shared/exception/GlobalExceptionHandler.java:69-77 | the body has timestamp, status, error, message and path "/api", plus errorCode exactly when non-null |
| ErrorAdvice.Advise | teams/src/main/java/com/example/teams/exception/GlobalExceptionHandler.java:24-113 | a recognised exception keeps its status in the body and maps its HTTP status; others are 500; the "error" text is Unauthorized, Forbidden, Graph API Error or Internal Server Error accordingly; errorCode, when present, is the exception's code; a checked exception's message is the fixed text |
| ErrorAdvice.StatusMismatchIff | teams/src/main/java/com/example/teams/exception/GlobalExceptionHandler.java:64-77 | the HTTP status and the body status differ iff a recognised GraphApiException has a code other than 401/402/403/500 |
| ErrorAdvice.LegacyPipelineStatus | teams/src/main/java/com/example/teams/exception/GlobalExceptionHandler.java:58-80 | an ODataError through the older handler and advice: the HTTP status follows the Graph status, the body keeps it |
| ErrorAdvice.SharedPipelineStatus | teams/src/main/java/com/example/teams/shared/exception/GlobalExceptionHandler.java:65-87 | an ApiException through the newer handler and advice; errorCode appears iff the status is not 401/403 and a code was parsed |
| ErrorAdvice.ForeignGraphExceptionIs500 | teams/src/main/java/com/example/teams/shared/exception/GlobalExceptionHandler.java:92-104 | the other package's exceptions are generic runtime exceptions to an advice: HTTP 500 |
| ErrorAdvice.AdviceScope | teams/src/main/java/com/example/teams/shared/exception/GlobalExceptionHandler.java:23 | the newer advice applies only to `@RestController`s, the older to every controller |
| Accounts.WithOAuth | teams/src/main/java/com/example/teams/user/service/UserService.java:156-158 | APP becomes BOTH; OAUTH and BOTH stay |
| Accounts.IsOAuthLinked | teams/src/main/java/com/example/teams/user/entity/User.java:109-111 | a non-null, non-empty microsoftId (related to the other checks by LoginCapabilities) |
| Accounts.CanLoginWithApp | teams/src/main/java/com/example/teams/user/entity/User.java:116-119 | a non-null, non-empty password hash and loginType APP or BOTH (used by Login) |
| Accounts.CanLoginWithOAuth | teams/src/main/java/com/example/teams/user/entity/User.java:124-127 | linked and loginType OAUTH or BOTH (used by LinkOAuthEnablesOAuthLogin) |
| Accounts.LoginCapabilities | teams/src/main/java/com/example/teams/user/entity/User.java:109-127 | OAuth login needs a link; APP accounts cannot use OAuth and OAUTH accounts cannot use a password; adding OAuth keeps app login and, for a linked row, enables OAuth login |
| Accounts.FindFirst | teams/src/main/java/com/example/teams/user/service/UserService.java:59 | the first matching row, or none when no row matches |
| Accounts.FindByEmail | teams/src/main/java/com/example/teams/user/service/UserService.java:135-137 | a found row has that email; none means no row has it |
| Accounts.FindByMicrosoftId | teams/src/main/java/com/example/teams/user/service/UserService.java:86 | the derived query binds null as IS NULL: it fails iff two rows share the argument (null included), otherwise finds the row whose id equals the argument or none when no row does; on a valid table a non-null id never fails |
| Accounts.FindById | teams/src/main/java/com/example/teams/user/service/UserService.java:128-130 | found iff the id is a row's identity value |
| Accounts.Register | teams/src/main/java/com/example/teams/user/service/UserService.java:34-52 | fails on a taken email; otherwise appends exactly one APP user with that email, name, encoded password and the next id, keeping the table valid |
| Accounts.Matches | teams/src/main/java/com/example/teams/user/service/UserService.java:63 | a null raw password throws; a null or empty stored hash never matches |
| Accounts.Login | teams/src/main/java/com/example/teams/user/service/UserService.java:58-78 | an unknown email fails with the generic message; for a known one a BCrypt error passes through, a mismatch gives the generic message, a match without `canLoginWithApp` gives AppLoginDisabled; success iff match and `canLoginWithApp`, changing only that row's lastLoginAt |
| Accounts.LoginDoesNotRevealAccounts | teams/src/main/java/com/example/teams/user/service/UserService.java:59-65 | an unknown email and a wrong password give the same error |
| Accounts.RegisterThenLogin | teams/src/main/java/com/example/teams/user/service/UserService.java:34-78 | a fresh registration can log in straight away |
| Accounts.FindOAuthUser | teams/src/main/java/com/example/teams/user/service/UserService.java:85-123 | a lookup error passes through; a microsoftId match wins (oauthLinkedAt set only if null); else a non-empty email match is linked; else Unauthorized and nothing changes; a non-null id never hits the lookup error |
| Accounts.FindOAuthUserIgnoresName | teams/src/main/java/com/example/teams/user/service/UserService.java:85 | the name argument never matters |
| Accounts.FindOAuthUserLinkSticks | teams/src/main/java/com/example/teams/user/service/UserService.java:86-118 | after an email link, the next lookup finds the same row by Microsoft id |
| Accounts.LinkOAuth | teams/src/main/java/com/example/teams/user/service/UserService.java:143-161 | null id, unknown id, already linked, or a Microsoft id held by another row fail; otherwise sets id, upn, oauthLinkedAt and upgrades APP |
| Accounts.LinkOAuthEnablesOAuthLogin | teams/src/main/java/com/example/teams/user/entity/User.java:124-127 | linking a non-empty Microsoft id makes the account usable for OAuth login |
| Accounts.UpdateLastLoginAt | teams/src/main/java/com/example/teams/user/service/UserService.java:167-172 | fails iff the id is null or unknown; otherwise only that row's lastLoginAt changes |
| Accounts.SaveAccessToken | teams/src/main/java/com/example/teams/user/service/UserService.java:178-185 | fails iff the id is null or unknown; otherwise only that row's two tokens and lastLoginAt change |
| GraphClientCache.GetGraphClient | teams/src/main/java/com/example/teams/ms/service/GraphClientService.java:37-49 | the client iff initialised, else the fixed error |
| GraphClientCache.InitToken | teams/src/main/java/com/example/teams/ms/service/GraphClientService.java:56-87 | same token with a client: no change; null with a client: fails; with no client, or a different non-null token, exactly a plain-token client on that token with currentSsoToken kept |
| GraphClientCache.InitSso | teams/src/main/java/com/example/teams/ms/service/GraphClientService.java:96-130 | same SSO token with a client: no change; otherwise, exactly when the credential builds, an OBO client on that token with currentAccessToken cleared, else the fixed failure |
| GraphClientCache.Reset | teams/src/main/java/com/example/teams/ms/service/GraphClientService.java:135-140 | no client and no tokens |
| GraphClientCache.ConsistentPreserved | teams/src/main/java/com/example/teams/ms/service/GraphClientService.java:56-140 | every operation keeps the cache consistent: tokens match the client's credential |
| GraphClientCache.InitTokenIdempotent | teams/src/main/java/com/example/teams/ms/service/GraphClientService.java:59-62 | initialising twice with the same token is the same as once |
| GraphClientCache.InitSsoIdempotent | teams/src/main/java/com/example/teams/ms/service/GraphClientService.java:99-102 | initialising twice with the same SSO token is the same as once |
| GraphClientCache.NullTokenTwice | teams/src/main/java/com/example/teams/ms/service/GraphClientService.java:59 | a null token is accepted on an empty cache and fails the second time |
| GraphClientCache.StaleSsoTokenKeepsPlainClient | teams/src/main/java/com/example/teams/ms/service/GraphClientService.java:81-102 | after SSO then a plain token, repeating the SSO initialisation keeps the plain-token client |
| GraphClientCache.LegacyGetGraphClient | teams/src/main/java/com/example/teams/service/GraphClientService.java:27-39 | the client iff initialised |
| GraphClientCache.LegacyInitToken | teams/src/main/java/com/example/teams/service/GraphClientService.java:45-72 | same token with a client: no change; null with a client: fails; with no client, or a different non-null token, exactly the client and token replaced |
| GraphClientCache.LegacyReset | teams/src/main/java/com/example/teams/service/GraphClientService.java:77-81 | no client and no token |
| GraphClientCache.LegacyRefinesMs | teams/src/main/java/com/example/teams/service/GraphClientService.java:27-81 | on plain tokens the older cache behaves as the newer one with the SSO field dropped |
| HttpSession.GetText | teams/src/main/java/com/example/teams/shared/util/AuthUtil.java:113-115 | on a live session (getAttribute throws on an invalidated one): the string attribute, or null when absent |
| HttpSession.GetLong | teams/src/main/java/com/example/teams/shared/util/AuthUtil.java:82-84 | on a live session (getAttribute throws on an invalidated one): the Long attribute, or null when absent |
| HttpSession.SetText | teams/src/main/java/com/example/teams/shared/util/AuthUtil.java:123-125 | the key reads back the value; every other key reads as before |
| HttpSession.Set | teams/src/main/java/com/example/teams/shared/util/AuthUtil.java:123-125 | the key holds the value; other keys are unchanged |
| HttpSession.Remove | teams/src/main/java/com/example/teams/shared/util/AuthUtil.java:132-134 | the key is gone; other keys are unchanged |
| SessionGuards.OAuthLinkedAfterLogin | teams/src/main/java/com/example/teams/shared/util/AuthUtil.java:102-105 | after a login kind is written, the session is OAuth-linked iff the kind is OAUTH or BOTH |
| SessionGuards.IsOAuthLinked | teams/src/main/java/com/example/teams/shared/util/AuthUtil.java:102-105 | the session's loginType is "OAUTH" or "BOTH" (characterised by OAuthLinkedAfterLogin) |
| SessionGuards.LoginNameInjective | teams/src/main/java/com/example/teams/shared/util/AuthUtil.java:104 | distinct login kinds are written as distinct names |
| SessionGuards.CheckAuthentication | teams/src/main/java/com/example/teams/shared/util/AuthUtil.java:50-74 | passes iff a token is present or a user id without an OAuth login type; the token initialises the client when used |
| SessionGuards.SsoSessionKeepsCache | teams/src/main/java/com/example/teams/shared/util/AuthUtil.java:67-73 | an SSO session with a user id initialises nothing |
| SessionGuards.LegacyCheckAuthentication | teams/src/main/java/com/example/teams/util/AuthUtil.java:43-49 | fails iff the token is absent; otherwise the client is built from it |
| SessionGuards.SharedGuardAdmitsMore | teams/src/main/java/com/example/teams/shared/util/AuthUtil.java:50-74 | the newer guard admits every session the older admits, with the same client, and also app-only sessions |
| SessionGuards.ClearMsAuthentication | teams/src/main/java/com/example/teams/auth/controller/CommonAuthController.java:33-46 | reset only if initialised; invalidate iff asked; otherwise only accessToken is removed |
| SessionGuards.Logout | teams/src/main/java/com/example/teams/auth/controller/CommonAuthController.java:52-59 | always invalidates, leaves no client, redirects to "/" with the success flash |
| SessionGuards.CheckAuthAndReturnView | teams/src/main/java/com/example/teams/controller/MainController.java:115-141 | no user id and no token redirect to "/"; a token initialises the client; a user id alone returns the view untouched |
| SessionGuards.GuardNeverFailsToLoad | teams/src/main/java/com/example/teams/controller/MainController.java:129-137 | the load-failure redirect is never taken: a non-null token always initialises |
| SessionGuards.Home | teams/src/main/java/com/example/teams/controller/MainController.java:48-57 | isAdmin is computed iff the guard did not redirect |
| SessionGuards.Admin | teams/src/main/java/com/example/teams/controller/MainController.java:91-113 | no token: "/"; not admin: "/home"; the admin view iff token and admin, with the client initialised |
| SessionGuards.AdminPageUnreachableOnOrgJson | teams/src/main/java/com/example/teams/controller/MainController.java:100-103 | with org.json claims the admin page is never shown and home never reports an administrator |
| Pem.MarkersOf | teams/src/main/java/com/example/teams/auth/service/SamlService.java:348-353 | the scanner trims as `String.trim()` and tests BEGIN before END |
| Pem.CollectStep | teams/src/main/java/com/example/teams/auth/service/SamlService.java:347-358 | a BEGIN line opens the block; an END line stops; any other line is taken when non-empty inside the block |
| Pem.Collect | teams/src/main/java/com/example/teams/auth/service/SamlService.java:343-359 | the text the scan appends from a line on: BEGIN (re)opens the block, END stops, non-empty trimmed lines inside the block are kept (characterised by CollectStep, BodyBetweenMarkers, EndBeforeBegin) |
| Pem.ScanBody | teams/src/main/java/com/example/teams/auth/service/SamlService.java:343-359 | the scanning loop returns the text the line-by-line definition collects |
| Pem.BodyBetweenMarkers | teams/src/main/java/com/example/teams/auth/service/SamlService.java:343-359 | for `pre, BEGIN, mid, END, post` without markers in pre and mid, the body is mid's non-empty trimmed lines concatenated |
| Pem.EndBeforeBegin | teams/src/main/java/com/example/teams/auth/service/SamlService.java:353-355 | an END line before any BEGIN gives an empty body |
| Pem.EmptyAfterRemovalIff | teams/src/main/java/com/example/teams/auth/service/SamlService.java:362-365 | the body is empty after white-space removal iff nothing was collected |
| Pem.LoadPem | teams/src/main/java/com/example/teams/auth/service/SamlService.java:382-424 | an empty block gives EmptyContent, then undecodable Base64 gives InvalidBase64, empty bytes EmptyDecoded and unparsable bytes Unparsable, in that order; success is the parse of the decoded body |
| Pem.NoPkcs1Fallback | teams/src/main/java/com/example/teams/auth/service/SamlService.java:413-422 | bytes the PKCS#8 parser rejects fail with the service's own message: no PKCS#1 fallback |
| Pem.LoadCredential | teams/src/main/java/com/example/teams/auth/service/SamlService.java:307-337 | a missing file gives null; a load failure propagates; otherwise the certificate and key |
| Saml.SamlId | teams/src/main/java/com/example/teams/auth/service/SamlService.java:96 | "_" followed by the UUID |
| Saml.PlusSeconds | teams/src/main/java/com/example/teams/auth/service/SamlService.java:186 | the instant moves by 1000 ms per second, forward exactly for positive seconds |
| Saml.UserAttributes | teams/src/main/java/com/example/teams/auth/service/SamlService.java:204-234 | exactly two attributes, emailaddress then name, uri name-format, values email and name |
| Saml.CreateAssertion | teams/src/main/java/com/example/teams/auth/service/SamlService.java:168-237 | id "_"+uuid, issuer the entity id; NameID email in the configured format; one bearer confirmation to the ACS URL for the request; one authn statement; unsigned |
| Saml.AssertionConfirmedIff | teams/src/main/java/com/example/teams/auth/service/SamlService.java:183-187 | the requesting service provider accepts the assertion at `now` iff now is before base + 1000 × validity |
| Saml.AssertionBoundToRequest | teams/src/main/java/com/example/teams/auth/service/SamlService.java:185-187 | another recipient or another request id is never confirmed |
| Saml.NonPositiveValidityExpired | teams/src/main/java/com/example/teams/auth/service/SamlService.java:186 | with validity of zero seconds or less the assertion is unusable at once |
| Saml.FiveMinuteConfirmationWindow | teams/src/main/java/com/example/teams/auth/service/SamlService.java:186 | with a 300 s validity the assertion is accepted 299 999 ms after the confirmation base and not 300 000 ms after |
| Saml.AttributesReadBack | teams/src/main/java/com/example/teams/auth/service/SamlService.java:204-234 | a reader finds [email] under the emailaddress claim and [name] under the name claim |
| Saml.ClaimNamesDiffer | teams/src/main/java/com/example/teams/auth/service/SamlService.java:208-222 | the two attribute names differ |
| Saml.SignAssertion | teams/src/main/java/com/example/teams/auth/service/SamlService.java:263-302 | no error iff a credential loaded and marshalling and signing succeeded; only the signature changes; RSA-SHA256 with exclusive C14N |
| Saml.SamlResponse | teams/src/main/java/com/example/teams/auth/service/SamlService.java:92-122 | id, version 2.0, destination, InResponseTo, issuer, Success and exactly the one (possibly signed) assertion |
| Saml.ResponseConsistent | teams/src/main/java/com/example/teams/auth/service/SamlService.java:96-187 | both ids start with "_", both issuers are the entity id, InResponseTo and ACS agree between Response and confirmation |
| Saml.SigningFailureSwallowed | teams/src/main/java/com/example/teams/auth/service/SamlService.java:114-122 | a signing failure leaves Success and one assertion without a computed signature, otherwise as built |
| Saml.SignedIff | teams/src/main/java/com/example/teams/auth/service/SamlService.java:263-302 | the assertion is signed iff both PEM files loaded and marshalling and signing succeeded |
| Saml.Failure | teams/src/main/java/com/example/teams/auth/service/SamlService.java:158-162 | the wrapped message is the fixed prefix and the cause's message |
| Saml.Serialize | teams/src/main/java/com/example/teams/auth/service/SamlService.java:124-156 | succeeds iff marshalling produced non-blank XML; the result is the Base64 of its UTF-8 bytes; failures carry the prefix |
| Saml.CreateSamlResponse | teams/src/main/java/com/example/teams/auth/service/SamlService.java:92-163 | succeeds iff the built Response marshals to non-blank XML; every failure carries the prefix |
| Saml.UserIdIgnored | teams/src/main/java/com/example/teams/auth/service/SamlService.java:92-111 | the user id never changes the result |
| Saml.SerializedDecodes | teams/src/main/java/com/example/teams/auth/service/SamlService.java:151-152 | Base64-decoding the result gives the UTF-8 bytes of the XML |
| Saml.SignedNeedsBothPemFiles | teams/src/main/java/com/example/teams/auth/service/SamlService.java:307-337 | a successful signature needs both the certificate and the key file to load |
| Saml.MetadataReadsBack | teams/src/main/java/com/example/teams/auth/service/SamlService.java:430-438 | the entity id reads back iff it holds no '"'; the SSO URL reads back when neither value holds '"' |
| Saml.GenerateMetadata | teams/src/main/java/com/example/teams/auth/service/SamlService.java:430-438 | the entity id and SSO URL spliced unescaped into a fixed document, null as "null" (read back by MetadataReadsBack) |
| Saml.ReadTwoValues | teams/src/main/java/com/example/teams/auth/service/SamlService.java:430-438 | in a document with two quoted values, a quote-free first value is read back up to its closing quote, and the reader then continues after it |

## Left out

- I/O, logging and framework plumbing are not modelled. Resource loading, Scanner line splitting, `printStackTrace` and Spring MVC are all left out. A PEM file is given as its sequence of lines, and a missing resource is None (`Pem.PemFiles`).
- Foreign libraries are parameters. These are: Base64 and Base64url decoding, UTF-8 decoding, org.json parsing and `toString`, Jackson `readValue`, BCrypt, X.509 and PKCS#8 parsing, OpenSAML marshalling and XML signing, and the DOM-to-string transformer. The model records only whether signing computed a signature, not the signature bytes or the credential object.
- Clocks (`DateTime.now`, `LocalDateTime.now`) and `UUID.randomUUID` are parameters. The four SAML clock readings are independent values.
- Concurrency is left out. The singleton Graph client is shared between requests, and the model runs one request at a time.
- `SamlService.parseAuthnRequest` is left out: it is a stub that returns null.
- The SAML configuration class that `SamlService` reads is not part of this model. Its getters are the fields of `Saml.SamlConfig`, and the certificate and key paths are replaced by the loaded files.
- `AzureAuthController.teamsSSO` reads an App ID URI that `AzureOAuthConfig` does not define. It is the `appIdUri` parameter of `TeamsSso.SsoConfig`.
- The token-exchange fallback of `teamsSSO` is left out. It is taken when the Graph client port is not the `ms` implementation, which is never the case in this application.
- The `ms.exception` package (the newer GraphApiException) is not part of this model. It is assumed to have the same shape as `exception.GraphApiException`.
- The reflective probes of `getResponseBody` (methods 1 and 2) are left out. The Kiota ApiException has neither method, so only the cause and message probes are modelled.
- `GraphErrors.LegacyHandleODataError`: models `getResponseStatusCode()` as possibly null, as the code tests for it. The Kiota getter returns an int, so the null branch may be unreachable in practice.
- `JavaText.ToLowerAscii`: lower-cases ASCII letters only, as `String.toLowerCase()` does under a locale without special casing rules. Non-ASCII folding is not modelled, and neither is the default-locale dependence: under a Turkish or Azerbaijani default locale "ADMIN" lower-cases to "adm\u0131n", so the legacy `roles` test would miss it.
- `ClaimAuthorizer.ScanStrings`: a non-string element of a `List` is taken to throw ClassCastException on the cast to String. The exception is caught and counted as a denial. Other element-level failures are not distinguished.
- `Saml.PlusSeconds`: Joda's millisecond `long` could overflow for extreme validity values, and the model uses unbounded integers.
- `Accounts`: JPA's generated identity is modelled as row position plus one. Rows are never deleted, because no modelled operation deletes one.
- `Accounts.UpdateLastLoginAt` and `Accounts.SaveAccessToken`: a null id is reported as `NullId`; the source passes it to `findById`, which rejects it and Spring surfaces an `InvalidDataAccessApiUsageException`, not the service's `IllegalArgumentException`. The exception class is not modelled.
- `Accounts.Register`: a null email or name is rejected with a constraint violation at insert, not by the service. The exact JPA exception class is not modelled.
- `HttpSession`: a `ClassCastException` from reading an attribute of the wrong type is not modelled. A value of the wrong type reads as absent. Every attribute read and write needs a live session, as the servlet API throws IllegalStateException on an invalidated one; the controllers always receive a live session, so this error path is not modelled.
- `Saml.GenerateMetadata`: the values are spliced in without XML escaping, as in the source. The read-back property therefore requires values without '"'.
- `ErrorAdvice.Advise`: the timestamp is a parameter, and the body's map is unordered, as a `HashMap` is.
- `ErrorAdvice.Advise`: for a `@RestController` both advices apply and both declare `Exception`/`RuntimeException` catch-alls, so only the advice Spring orders first answers; the source leaves that order unspecified, so the advice is a parameter and `ErrorAdvice.SharedPipelineStatus` and `ErrorAdvice.LegacyPipelineStatus` each assume their own advice answers.

## Findings

| source | as written | input that shows it | evidently intended | confidence | as-written member | corrected member |
|---|---|---|---|---|---|---|
| teams/src/main/java/com/example/teams/shared/util/AuthUtil.java:197-212 | `claims.get("wids") instanceof List` on an org.json `JSONObject`, whose arrays are `JSONArray`, which does not implement `java.util.List` | a token whose payload is `{"wids": ["62e90394-69f5-4237-9190-012177145e10"]}` (Global Administrator) is denied | a `wids` array holding an administrator role id grants | not executed | ClaimAuthorizer.AdminFromClaims (ClaimAuthorizer.GlobalAdministratorArrayDenied) | ClaimAuthorizer.AdminFromClaimsIntended (ClaimAuthorizer.AdminIntendedGrantsArray) |
| teams/src/main/java/com/example/teams/util/AuthUtil.java:122-138 | `claims.get("roles") instanceof List`, the same test on an org.json array | a token whose payload is `{"roles": ["Admin"]}` is denied | a `roles` array naming an admin role grants | not executed | ClaimAuthorizer.LegacyAdminFromClaims (ClaimAuthorizer.AdminRoleArrayDenied) | ClaimAuthorizer.LegacyAdminFromClaimsIntended (ClaimAuthorizer.LegacyIntendedGrantsArray) |

=== FILE: accounts.dfy ===
/**
  The account store: the `User` entity and `UserService` (register, login, OAuth lookup and
  linking, last-login and token updates). The JPA table is a sequence of rows in insertion
  order, so the identity column is the row position plus one. Clock readings and the BCrypt
  encoder are parameters. Each failed call leaves the table as it was (the service methods
  are transactional).
*/
module Accounts {
  import opened Wrappers

  datatype LoginType = APP | OAUTH | BOTH

  /** A `LocalDateTime.now()` reading. */
  type Instant = int

  datatype User = User(
    id: int,
    email: string,
    password: Option<string>,
    name: string,
    microsoftId: Option<string>,
    userPrincipalName: Option<string>,
    loginType: LoginType,
    accessToken: Option<string>,
    refreshToken: Option<string>,
    createdAt: Instant,
    lastLoginAt: Option<Instant>,
    oauthLinkedAt: Option<Instant>)

  /** `isOAuthLinked()`: a non-null, non-empty microsoftId. */
  predicate IsOAuthLinked(u: User) {
    u.microsoftId.Some? && u.microsoftId.value != ""
  }

  /** `canLoginWithApp()`. */
  predicate CanLoginWithApp(u: User) {
    u.password.Some? && u.password.value != "" && (u.loginType == APP || u.loginType == BOTH)
  }

  /** `canLoginWithOAuth()`. */
  predicate CanLoginWithOAuth(u: User) {
    IsOAuthLinked(u) && (u.loginType == OAUTH || u.loginType == BOTH)
  }

  /** The loginType update the service applies when OAuth is added: APP becomes BOTH,
      OAUTH and BOTH stay. */
  function WithOAuth(t: LoginType): (r: LoginType)
    ensures r != APP
    ensures t != APP ==> r == t
  {
    if t == APP then BOTH else t
  }

  /** Partner of the three capability checks: OAuth login needs a link, a pure APP account
      cannot use OAuth and a pure OAUTH account cannot use its password; adding OAuth to an
      account keeps its app login. */
  lemma LoginCapabilities(u: User)
    ensures CanLoginWithOAuth(u) ==> IsOAuthLinked(u)
    ensures u.loginType == APP ==> !CanLoginWithOAuth(u)
    ensures u.loginType == OAUTH ==> !CanLoginWithApp(u)
    ensures CanLoginWithApp(u) ==> CanLoginWithApp(u.(loginType := WithOAuth(u.loginType)))
    ensures IsOAuthLinked(u) ==> CanLoginWithOAuth(u.(loginType := WithOAuth(u.loginType)))
  {
  }

  type Users = seq<User>

  /** The table's constraints: identity ids, unique email, unique non-null microsoftId. */
  predicate Valid(users: Users) {
    (forall i :: 0 <= i < |users| ==> users[i].id == i + 1)
    && (forall i, j :: 0 <= i < j < |users| ==> users[i].email != users[j].email)
    && (forall i, j :: 0 <= i < j < |users| && users[i].microsoftId.Some? ==> users[i].microsoftId != users[j].microsoftId)
  }

  /** The first row satisfying p. */
  function FindFirst(users: Users, p: User -> bool): (r: Option<nat>)
    ensures r.Some? ==> r.value < |users| && p(users[r.value])
    ensures r.Some? ==> forall k :: 0 <= k < r.value ==> !p(users[k])
    ensures r.None? ==> forall k :: 0 <= k < |users| ==> !p(users[k])
  {
    if users == [] then None
    else if p(users[0]) then Some(0)
    else
      match FindFirst(users[1..], p)
      case None => None
      case Some(k) => Some(k + 1)
  }

  /** `findByEmail`: a null email matches no row. */
  function FindByEmail(users: Users, email: Option<string>): (r: Option<nat>)
    ensures r.Some? ==> email.Some? && r.value < |users| && users[r.value].email == email.value
    ensures r.None? && email.Some? ==> forall k :: 0 <= k < |users| ==> users[k].email != email.value
  {
    match email
    case None => None
    case Some(e) => FindFirst(users, (u: User) => u.email == e)
  }

  /** Two different rows have the given microsoftId (null included). */
  predicate SharedMicrosoftId(users: Users, microsoftId: Option<string>) {
    exists i, j :: 0 <= i < j < |users| && users[i].microsoftId == microsoftId && users[j].microsoftId == microsoftId
  }

  /** `findByMicrosoftId`, a derived query returning `Optional`: a null argument is bound as
      `IS NULL`, so it looks for the unlinked rows, and more than one hit is an
      IncorrectResultSizeDataAccessException. */
  function FindByMicrosoftId(users: Users, microsoftId: Option<string>): (r: Result<Option<nat>, AccountError>)
    ensures r.Err? <==> SharedMicrosoftId(users, microsoftId)
    ensures r.Err? ==> r.error == IncorrectResultSize
    ensures r.Ok? && r.value.Some? ==> r.value.value < |users| && users[r.value.value].microsoftId == microsoftId
    ensures r == Ok(None) <==> forall k :: 0 <= k < |users| ==> users[k].microsoftId != microsoftId
    ensures Valid(users) && microsoftId.Some? ==> r.Ok?
  {
    var holds := (u: User) => u.microsoftId == microsoftId;
    match FindFirst(users, holds)
    case None => Ok(None)
    case Some(k) =>
      match FindFirst(users[k + 1..], holds)
      case None =>
        assert !SharedMicrosoftId(users, microsoftId) by {
          forall i, j | 0 <= i < j < |users| && holds(users[i])
            ensures !holds(users[j])
          {
            assert users[j] == users[k + 1..][j - k - 1];
          }
        }
        Ok(Some(k))
      case Some(j) =>
        assert users[k + 1..][j] == users[k + 1 + j];
        Err(IncorrectResultSize)
  }

  /** `findById`. */
  function FindById(users: Users, id: int): (r: Option<nat>)
    ensures r.Some? <==> 1 <= id <= |users|
    ensures r.Some? ==> r.value == id - 1
  {
    if 1 <= id <= |users| then Some(id - 1) else None
  }

  datatype AccountError =
    | IllegalArgument(message: string)
    | Unauthorized(message: string)
    | ConstraintViolation(column: string)
    | IncorrectResultSize

  const DuplicateEmail := "이미 등록된 이메일입니다."
  const BadCredentials := "이메일 또는 비밀번호가 올바르지 않습니다."
  const AppLoginDisabled := "앱 로그인이 불가능한 계정입니다."
  const NotRegistered := "등록된 사용자가 아닙니다. 먼저 회원가입을 해주세요."
  const UserNotFound := "사용자를 찾을 수 없습니다."
  const AlreadyLinked := "이미 OAuth가 연동되어 있습니다."
  const NullRawPassword := "rawPassword cannot be null"
  const NullId := "The given id must not be null"

  /** `register(request)`: the duplicate check, then BCrypt encoding of the password (which
      rejects null), then the insert (which rejects a null email or name). */
  function Register(users: Users, email: Option<string>, rawPassword: Option<string>, name: Option<string>,
                    encode: string -> string, now: Instant): (r: Result<(Users, User), AccountError>)
    requires Valid(users)
    ensures r.Ok? ==> Valid(r.value.0)
    ensures r == Err(IllegalArgument(DuplicateEmail)) <==> FindByEmail(users, email).Some?
    ensures r.Ok? <==> FindByEmail(users, email).None? && email.Some? && rawPassword.Some? && name.Some?
    ensures r.Ok? ==>
      var (after, u) := r.value;
      after == users + [u] && u.id == |users| + 1
      && u.email == email.value && u.name == name.value && u.password == Some(encode(rawPassword.value))
      && u.loginType == APP && u.microsoftId.None? && u.createdAt == now && u.lastLoginAt.None?
  {
    if FindByEmail(users, email).Some? then Err(IllegalArgument(DuplicateEmail))
    else if rawPassword.None? then Err(IllegalArgument(NullRawPassword))
    else if email.None? then Err(ConstraintViolation("email"))
    else if name.None? then Err(ConstraintViolation("name"))
    else
      var u := User(|users| + 1, email.value, Some(encode(rawPassword.value)), name.value,
                    None, None, APP, None, None, now, None, None);
      Ok((users + [u], u))
  }

  /** BCrypt `matches(raw, encoded)`: a null raw password throws, a null or empty stored
      hash never matches, anything else is the foreign comparison. */
  function Matches(rawPassword: Option<string>, stored: Option<string>, matches: (string, string) -> bool)
    : (r: Result<bool, AccountError>)
    ensures rawPassword.None? ==> r == Err(IllegalArgument(NullRawPassword))
    ensures rawPassword.Some? && (stored.None? || stored.value == "") ==> r == Ok(false)
    ensures rawPassword.Some? && stored.Some? && stored.value != "" ==> r == Ok(matches(rawPassword.value, stored.value))
  {
    if rawPassword.None? then Err(IllegalArgument(NullRawPassword))
    else if stored.None? || stored.value == "" then Ok(false)
    else Ok(matches(rawPassword.value, stored.value))
  }

  /** `login(request)`. */
  function Login(users: Users, email: Option<string>, rawPassword: Option<string>,
                 matches: (string, string) -> bool, now: Instant): (r: Result<(Users, User), AccountError>)
    requires Valid(users)
    ensures FindByEmail(users, email).None? ==> r == Err(Unauthorized(BadCredentials))
    ensures FindByEmail(users, email).Some? ==>
      var user := users[FindByEmail(users, email).value];
      var m := Matches(rawPassword, user.password, matches);
      && (r.Ok? <==> m == Ok(true) && CanLoginWithApp(user))
      && (m.Err? ==> r == Err(m.error))
      && (m == Ok(false) ==> r == Err(Unauthorized(BadCredentials)))
      && (m == Ok(true) && !CanLoginWithApp(user) ==> r == Err(Unauthorized(AppLoginDisabled)))
    ensures r.Ok? ==>
      var k := FindByEmail(users, email).value;
      var (after, u) := r.value;
      FindByEmail(users, email).Some? && CanLoginWithApp(users[k])
      && u == users[k].(lastLoginAt := Some(now)) && after == users[k := u]
    ensures r.Ok? ==> Valid(r.value.0)
  {
    match FindByEmail(users, email)
    case None => Err(Unauthorized(BadCredentials))
    case Some(k) =>
      var user := users[k];
      var ok :- Matches(rawPassword, user.password, matches);
      if !ok then Err(Unauthorized(BadCredentials))
      else if !CanLoginWithApp(user) then Err(Unauthorized(AppLoginDisabled))
      else
        var u := user.(lastLoginAt := Some(now));
        Ok((users[k := u], u))
  }

  /** An unknown email and a wrong password are reported with the same message, so the
      answer does not reveal which accounts exist. */
  lemma LoginDoesNotRevealAccounts(users: Users, known: string, unknown: string, raw: string,
                                   matches: (string, string) -> bool, now: Instant)
    requires Valid(users)
    requires FindByEmail(users, Some(unknown)).None?
    requires FindByEmail(users, Some(known)).Some?
    requires var u := users[FindByEmail(users, Some(known)).value];
             u.password.None? || u.password.value == "" || !matches(raw, u.password.value)
    ensures Login(users, Some(unknown), Some(raw), matches, now) == Err(Unauthorized(BadCredentials))
    ensures Login(users, Some(known), Some(raw), matches, now) == Err(Unauthorized(BadCredentials))
  {
  }

  /** Partner of Register and Login: with an encoder whose hashes are non-empty and that
      matches what it encoded, a fresh registration can log in straight away. */
  lemma RegisterThenLogin(users: Users, email: string, raw: string, name: string,
                          encode: string -> string, matches: (string, string) -> bool, t0: Instant, t1: Instant)
    requires Valid(users)
    requires FindByEmail(users, Some(email)).None?
    requires encode(raw) != "" && matches(raw, encode(raw))
    ensures Register(users, Some(email), Some(raw), Some(name), encode, t0).Ok?
    ensures
      var (after, u) := Register(users, Some(email), Some(raw), Some(name), encode, t0).value;
      Login(after, Some(email), Some(raw), matches, t1) == Ok((after[|users| := u.(lastLoginAt := Some(t1))], u.(lastLoginAt := Some(t1))))
  {
    var (after, u) := Register(users, Some(email), Some(raw), Some(name), encode, t0).value;
    var found := FindByEmail(after, Some(email));
    assert after[|users|].email == email;
  }

  /** `findOAuthUser(microsoftId, email, name, userPrincipalName)`. A microsoftId match wins;
      failing that a non-empty email match is linked to the Microsoft account; otherwise the
      user is not registered. `name` is not used. t1 and t2 are the two clock readings in
      source order. */
  function FindOAuthUser(users: Users, microsoftId: Option<string>, email: Option<string>, name: Option<string>,
                         userPrincipalName: Option<string>, t1: Instant, t2: Instant)
    : (r: Result<(Users, User), AccountError>)
    requires Valid(users)
    ensures FindByMicrosoftId(users, microsoftId).Err? ==> r == Err(IncorrectResultSize)
    ensures FindByMicrosoftId(users, microsoftId).Ok? && r.Err? ==> r.error == Unauthorized(NotRegistered)
    ensures r.Err? <==> FindByMicrosoftId(users, microsoftId).Err?
                        || (FindByMicrosoftId(users, microsoftId) == Ok(None)
                            && (email.None? || email.value == "" || FindByEmail(users, email).None?))
    ensures microsoftId.Some? ==> r.Err? ==> r.error == Unauthorized(NotRegistered)
    ensures FindByMicrosoftId(users, microsoftId).Ok? && FindByMicrosoftId(users, microsoftId).value.Some? ==>
      var k := FindByMicrosoftId(users, microsoftId).value.value;
      var old_ := users[k];
      r.Ok? && r.value.1 == old_.(lastLoginAt := Some(t1),
                                 oauthLinkedAt := if old_.oauthLinkedAt.None? then Some(t2) else old_.oauthLinkedAt,
                                 loginType := WithOAuth(old_.loginType))
      && r.value.0 == users[k := r.value.1]
    ensures FindByMicrosoftId(users, microsoftId) == Ok(None) && r.Ok? ==>
      var k := FindByEmail(users, email).value;
      r.value.1 == users[k].(microsoftId := microsoftId, userPrincipalName := userPrincipalName,
                             oauthLinkedAt := Some(t1), lastLoginAt := Some(t2),
                             loginType := WithOAuth(users[k].loginType))
      && r.value.0 == users[k := r.value.1]
    ensures r.Ok? ==> Valid(r.value.0)
  {
    match FindByMicrosoftId(users, microsoftId)
    case Err(e) => Err(e)
    case Ok(Some(k)) =>
      var user := users[k];
      var u := user.(lastLoginAt := Some(t1),
                     oauthLinkedAt := if user.oauthLinkedAt.None? then Some(t2) else user.oauthLinkedAt,
                     loginType := WithOAuth(user.loginType));
      Ok((users[k := u], u))
    case Ok(None) =>
      if email.Some? && email.value != "" && FindByEmail(users, email).Some? then
        var k := FindByEmail(users, email).value;
        var u := users[k].(microsoftId := microsoftId, userPrincipalName := userPrincipalName,
                           oauthLinkedAt := Some(t1), lastLoginAt := Some(t2),
                           loginType := WithOAuth(users[k].loginType));
        Ok((users[k := u], u))
      else Err(Unauthorized(NotRegistered))
  }

  /** The `name` argument never influences the outcome. */
  lemma FindOAuthUserIgnoresName(users: Users, microsoftId: Option<string>, email: Option<string>,
                                 n1: Option<string>, n2: Option<string>, upn: Option<string>, t1: Instant, t2: Instant)
    requires Valid(users)
    ensures FindOAuthUser(users, microsoftId, email, n1, upn, t1, t2) == FindOAuthUser(users, microsoftId, email, n2, upn, t1, t2)
  {
  }

  /** Once an account was found by email and linked, the next lookup with the same
      Microsoft id finds the same account by id, whatever email is offered then. */
  lemma FindOAuthUserLinkSticks(users: Users, m: string, email: string, upn: Option<string>,
                                t1: Instant, t2: Instant, email2: Option<string>, t3: Instant, t4: Instant)
    requires Valid(users)
    requires FindByMicrosoftId(users, Some(m)) == Ok(None)
    requires email != "" && FindByEmail(users, Some(email)).Some?
    ensures FindOAuthUser(users, Some(m), Some(email), None, upn, t1, t2).Ok?
    ensures
      var (after, u) := FindOAuthUser(users, Some(m), Some(email), None, upn, t1, t2).value;
      var again := FindOAuthUser(after, Some(m), email2, None, None, t3, t4);
      again.Ok? && again.value.1.id == u.id && CanLoginWithOAuth(again.value.1) == (m != "")
  {
    var (after, u) := FindOAuthUser(users, Some(m), Some(email), None, upn, t1, t2).value;
    var k := FindByEmail(users, Some(email)).value;
    var found := FindByMicrosoftId(after, Some(m));
    assert after[k].microsoftId == Some(m);
  }

  /** `linkOAuth(userId, microsoftId, userPrincipalName)`. A microsoftId already held by
      another row violates the unique constraint at save. */
  function LinkOAuth(users: Users, userId: Option<int>, microsoftId: Option<string>,
                     userPrincipalName: Option<string>, now: Instant): (r: Result<(Users, User), AccountError>)
    requires Valid(users)
    ensures userId.None? ==> r == Err(IllegalArgument(NullId))
    ensures userId.Some? && FindById(users, userId.value).None? ==> r == Err(IllegalArgument(UserNotFound))
    ensures userId.Some? && FindById(users, userId.value).Some? && IsOAuthLinked(users[userId.value - 1])
            ==> r == Err(IllegalArgument(AlreadyLinked))
    ensures r == Err(ConstraintViolation("microsoftId")) <==>
      userId.Some? && FindById(users, userId.value).Some? && !IsOAuthLinked(users[userId.value - 1])
      && exists j :: 0 <= j < |users| && j != userId.value - 1 && microsoftId.Some? && users[j].microsoftId == microsoftId
    ensures r.Ok? ==>
      var k := userId.value - 1;
      var (after, u) := r.value;
      u == users[k].(microsoftId := microsoftId, userPrincipalName := userPrincipalName,
                     oauthLinkedAt := Some(now), loginType := WithOAuth(users[k].loginType))
      && after == users[k := u] && Valid(after)
  {
    match userId
    case None => Err(IllegalArgument(NullId))
    case Some(id) =>
      match FindById(users, id)
      case None => Err(IllegalArgument(UserNotFound))
      case Some(k) =>
        var user := users[k];
        if IsOAuthLinked(user) then Err(IllegalArgument(AlreadyLinked))
        else
          var u := user.(microsoftId := microsoftId, userPrincipalName := userPrincipalName,
                         oauthLinkedAt := Some(now), loginType := WithOAuth(user.loginType));
          var clash := FindFirst(users, (v: User) => microsoftId.Some? && v.microsoftId == microsoftId && v.id != id);
          if clash.Some? then Err(ConstraintViolation("microsoftId"))
          else Ok((users[k := u], u))
  }

  /** Linking a non-empty Microsoft id makes the account usable for OAuth login. */
  lemma LinkOAuthEnablesOAuthLogin(users: Users, userId: int, m: string, upn: Option<string>, now: Instant)
    requires Valid(users)
    requires m != ""
    requires LinkOAuth(users, Some(userId), Some(m), upn, now).Ok?
    ensures CanLoginWithOAuth(LinkOAuth(users, Some(userId), Some(m), upn, now).value.1)
    ensures IsOAuthLinked(LinkOAuth(users, Some(userId), Some(m), upn, now).value.0[userId - 1])
  {
  }

  /** `updateLastLoginAt(userId)`. */
  function UpdateLastLoginAt(users: Users, userId: Option<int>, now: Instant): (r: Result<Users, AccountError>)
    requires Valid(users)
    ensures r.Err? <==> userId.None? || FindById(users, userId.value).None?
    ensures userId.None? ==> r == Err(IllegalArgument(NullId))
    ensures userId.Some? && FindById(users, userId.value).None? ==> r == Err(IllegalArgument(UserNotFound))
    ensures r.Ok? ==> |r.value| == |users| && Valid(r.value)
    ensures r.Ok? ==> forall j :: 0 <= j < |users| ==>
      r.value[j] == if j == userId.value - 1 then users[j].(lastLoginAt := Some(now)) else users[j]
  {
    match userId
    case None => Err(IllegalArgument(NullId))
    case Some(id) =>
      match FindById(users, id)
      case None => Err(IllegalArgument(UserNotFound))
      case Some(k) => Ok(users[k := users[k].(lastLoginAt := Some(now))])
  }

  /** `saveAccessToken(userId, accessToken, refreshToken)`: only the two tokens and
      lastLoginAt of that one row change. */
  function SaveAccessToken(users: Users, userId: Option<int>, accessToken: Option<string>,
                           refreshToken: Option<string>, now: Instant): (r: Result<Users, AccountError>)
    requires Valid(users)
    ensures r.Err? <==> userId.None? || FindById(users, userId.value).None?
    ensures userId.None? ==> r == Err(IllegalArgument(NullId))
    ensures userId.Some? && FindById(users, userId.value).None? ==> r == Err(IllegalArgument(UserNotFound))
    ensures r.Ok? ==> |r.value| == |users| && Valid(r.value)
    ensures r.Ok? ==> forall j :: 0 <= j < |users| ==>
      r.value[j] == if j == userId.value - 1
                    then users[j].(accessToken := accessToken, refreshToken := refreshToken, lastLoginAt := Some(now))
                    else users[j]
  {
    match userId
    case None => Err(IllegalArgument(NullId))
    case Some(id) =>
      match FindById(users, id)
      case None => Err(IllegalArgument(UserNotFound))
      case Some(k) =>
        Ok(users[k := users[k].(accessToken := accessToken, refreshToken := refreshToken, lastLoginAt := Some(now))])
  }
}

=== FILE: authorization_url.dfy ===
/**
  The Microsoft identity platform URLs the application builds: the authorization request
  of section 4.1.1 of RFC 6749 (`AzureOAuthConfig`, `OAuthConfig`, `AzureAdConfig`), the
  token endpoint, the optional `prompt` and `login_hint` parameters of section 3.1.2.1 of
  OpenID Connect Core 1.0 (`getAuthorizationUrlWith` in both OAuth services), and the
  account-type guess both services log from the token's `iss` claim.
*/
module AuthorizationUrl {
  import opened Wrappers
  import opened JavaText
  import opened FormEncoding
  import opened Json

  const LoginHost := "https://login.microsoftonline.com/"
  const AuthorizePath := "/oauth2/v2.0/authorize"
  const TokenPath := "/oauth2/v2.0/token"

  datatype ResponseMode = FormPost | Query

  function ModeName(mode: ResponseMode): string {
    match mode
    case FormPost => "form_post"
    case Query => "query"
  }

  /** `URLEncoder.encode(null, ...)` throws a NullPointerException; the field says which
      value was missing (redirectUri is encoded first). */
  datatype UrlError = NullToEncode(field: string)

  // ---------------------------------------------------------------------
  // Reading a URL back: the partner of every builder below

  datatype Param = Param(name: string, value: string)

  /** `name=value`, split at the first '='. */
  function ParseParam(field: string): Param {
    Param(TakeUntil(field, '='), AfterFirst(field, '='))
  }

  function ParseParams(fields: seq<string>): (r: seq<Param>)
    ensures |r| == |fields|
    ensures forall i :: 0 <= i < |fields| ==> r[i] == ParseParam(fields[i])
  {
    seq(|fields|, i requires 0 <= i < |fields| => ParseParam(fields[i]))
  }

  /** The parameters after the first '?', split at every '&'. */
  function QueryParams(url: string): seq<Param> {
    ParseParams(Segments(AfterFirst(url, '?'), '&'))
  }

  /** The first path segment after the login host, if the URL is on that host. */
  function TenantSegment(url: string): Option<string> {
    if StartsWith(url, LoginHost) then Some(TakeUntil(url[|LoginHost|..], '/')) else None
  }

  lemma ParseParamsConcat(a: seq<string>, b: seq<string>)
    ensures ParseParams(a + b) == ParseParams(a) + ParseParams(b)
  {
  }

  /** A field whose name holds no '=' reads back as its name and value. */
  lemma ParseField(name: string, value: string)
    requires '=' !in name
    ensures ParseParam(name + "=" + value) == Param(name, value)
  {
    assert name + "=" + value == name + ['='] + value;
    TakeUntilOfPrefix(name, value, '=');
  }

  // ---------------------------------------------------------------------
  // Authorization and token endpoints

  /** `https://login.microsoftonline.com/<tenant>/oauth2/v2.0/authorize`. */
  function AuthorizeEndpoint(tenant: string): (r: string)
    ensures '?' !in tenant ==> '?' !in r
    ensures StartsWith(r, LoginHost)
  {
    EndpointShape(LoginHost, tenant, AuthorizePath);
    LiteralShape();
    LoginHost + tenant + AuthorizePath
  }

  /** The fixed parts hold no '?', and the paths start with '/'. */
  lemma LiteralShape()
    ensures '?' !in LoginHost && '?' !in AuthorizePath
    ensures |AuthorizePath| >= 1 && AuthorizePath[0] == '/'
    ensures |TokenPath| >= 1 && TokenPath[0] == '/'
  {
  }

  lemma EndpointShape(host: string, tenant: string, path: string)
    ensures StartsWith(host + tenant + path, host)
    ensures (host + tenant + path)[|host|..] == tenant + path
    ensures '?' !in host && '?' !in tenant && '?' !in path ==> '?' !in host + tenant + path
  {
    assert (host + tenant + path)[..|host|] == host;
  }

  /** One `name=value` query field. */
  function Field(name: string, value: string): string {
    name + "=" + value
  }

  /** The request's parameter names hold no '='. */
  lemma RequestNamesUnsplit()
    ensures '=' !in "client_id" && '=' !in "response_type" && '=' !in "redirect_uri"
    ensures '=' !in "scope" && '=' !in "response_mode"
  {
  }

  /** The request's parameter names and fixed values hold no '&'. */
  lemma RequestLiteralsUnjoined()
    ensures '&' !in "client_id" && '&' !in "response_type" && '&' !in "redirect_uri"
    ensures '&' !in "scope" && '&' !in "response_mode"
    ensures '&' !in "code" && '&' !in ModeName(FormPost) && '&' !in ModeName(Query)
  {
  }

  /** The optional parameter names hold no delimiter. */
  lemma ExtraNamesPlain()
    ensures '=' !in "prompt" && '=' !in "login_hint" && '&' !in "prompt" && '&' !in "login_hint"
  {
  }

  lemma FieldFree(name: string, value: string, c: char)
    requires c != '=' && c !in name && c !in value
    ensures c !in Field(name, value)
  {
  }

  /** The five request fields in the order they are written: client id and the two encoded
      values, between the fixed response_type and the response_mode. */
  function RequestFields(clientId: string, redirectUri: string, scope: string, mode: ResponseMode): (r: seq<string>)
    ensures |r| == 5
  {
    [Field("client_id", clientId), Field("response_type", "code"), Field("redirect_uri", FormEncode(redirectUri)),
     Field("scope", FormEncode(scope)), Field("response_mode", ModeName(mode))]
  }

  /** No field holds a '&' unless the raw client id does. */
  lemma RequestFieldsFree(clientId: string, redirectUri: string, scope: string, mode: ResponseMode)
    requires '&' !in clientId
    ensures NoSeparator(RequestFields(clientId, redirectUri, scope, mode), '&')
  {
    FormEncodeAlphabet(redirectUri);
    FormEncodeAlphabet(scope);
    RequestLiteralsUnjoined();
    FieldFree("client_id", clientId, '&');
    FieldFree("response_type", "code", '&');
    FieldFree("redirect_uri", FormEncode(redirectUri), '&');
    FieldFree("scope", FormEncode(scope), '&');
    FieldFree("response_mode", ModeName(mode), '&');
  }

  /** The query of the `String.format` template, filled in: the fields separated by '&'. */
  function RequestQuery(clientId: string, redirectUri: string, scope: string, mode: ResponseMode): (r: string)
    ensures EndsWith(r, "&" + Field("response_mode", ModeName(mode)))
  {
    var tail := "&" + Field("response_mode", ModeName(mode));
    var head := Field("client_id", clientId) + "&" + Field("response_type", "code") + "&"
                + Field("redirect_uri", FormEncode(redirectUri)) + "&" + Field("scope", FormEncode(scope));
    assert (head + tail)[|head + tail| - |tail|..] == tail;
    head + tail
  }

  /** Five blocks written with '&' between them, grouped as the template groups them, are
      their join. */
  lemma JoinFive(f0: string, f1: string, f2: string, f3: string, f4: string)
    ensures (f0 + "&" + f1 + "&" + f2 + "&" + f3) + ("&" + f4) == Join([f0, f1, f2, f3, f4], '&')
  {
    assert Join([f4], '&') == f4;
    assert [f3, f4][1..] == [f4];
    assert Join([f3, f4], '&') == f3 + "&" + f4;
    assert [f2, f3, f4][1..] == [f3, f4];
    assert Join([f2, f3, f4], '&') == f2 + "&" + f3 + "&" + f4;
    assert [f1, f2, f3, f4][1..] == [f2, f3, f4];
    assert Join([f1, f2, f3, f4], '&') == f1 + "&" + f2 + "&" + f3 + "&" + f4;
    assert [f0, f1, f2, f3, f4][1..] == [f1, f2, f3, f4];
    assert Join([f0, f1, f2, f3, f4], '&') == f0 + "&" + f1 + "&" + f2 + "&" + f3 + "&" + f4;
  }

  /** The filled-in template is the fields joined with '&'. */
  lemma RequestQueryIsJoin(clientId: string, redirectUri: string, scope: string, mode: ResponseMode)
    ensures RequestQuery(clientId, redirectUri, scope, mode) == Join(RequestFields(clientId, redirectUri, scope, mode), '&')
  {
    var fields := RequestFields(clientId, redirectUri, scope, mode);
    JoinFive(fields[0], fields[1], fields[2], fields[3], fields[4]);
    assert fields == [fields[0], fields[1], fields[2], fields[3], fields[4]];
  }

  /** `buildAuthorizationUrl(tenantId, clientId, redirectUri, scope, responseMode)`:
      redirect_uri and scope are form-encoded, tenant and client id are inserted raw
      (`String.format` renders null as "null"). */
  function BuildAuthorizationUrl(tenantId: Option<string>, clientId: Option<string>, redirectUri: Option<string>,
                                 scope: Option<string>, mode: ResponseMode): (r: Result<string, UrlError>)
    ensures r.Ok? <==> redirectUri.Some? && scope.Some?
    ensures redirectUri.None? ==> r == Err(NullToEncode("redirectUri"))
    ensures redirectUri.Some? && scope.None? ==> r == Err(NullToEncode("scope"))
    ensures r.Ok? ==> StartsWith(r.value, AuthorizeEndpoint(Show(tenantId)) + "?")
    ensures r.Ok? ==> EndsWith(r.value, "&" + Field("response_mode", ModeName(mode)))
  {
    if redirectUri.None? then Err(NullToEncode("redirectUri"))
    else if scope.None? then Err(NullToEncode("scope"))
    else
      var head := AuthorizeEndpoint(Show(tenantId)) + "?";
      var query := RequestQuery(Show(clientId), redirectUri.value, scope.value, mode);
      ConcatEnds(head, query);
      Ok(head + query)
  }

  /** The five parameters of an authorization request, as a reader finds them. */
  function AuthorizationParams(clientId: Option<string>, redirectUri: string, scope: string, mode: ResponseMode)
    : seq<Param>
  {
    [Param("client_id", Show(clientId)), Param("response_type", "code"),
     Param("redirect_uri", FormEncode(redirectUri)), Param("scope", FormEncode(scope)),
     Param("response_mode", ModeName(mode))]
  }

  lemma ParseRequestFields(clientId: string, redirectUri: string, scope: string, mode: ResponseMode)
    ensures ParseParams(RequestFields(clientId, redirectUri, scope, mode))
            == AuthorizationParams(Some(clientId), redirectUri, scope, mode)
  {
    RequestNamesUnsplit();
    ParseField("client_id", clientId);
    ParseField("response_type", "code");
    ParseField("redirect_uri", FormEncode(redirectUri));
    ParseField("scope", FormEncode(scope));
    ParseField("response_mode", ModeName(mode));
  }

  /** Partner of BuildAuthorizationUrl: when the raw values hold no delimiter, a reader of
      the URL finds the tenant as the first path segment and exactly the five parameters,
      and undoing the form encoding yields the UTF-8 bytes of the redirect URI and scope. */
  lemma AuthorizationUrlReadsBack(tenantId: Option<string>, clientId: Option<string>,
                                  redirectUri: string, scope: string, mode: ResponseMode)
    requires '?' !in Show(tenantId) && '/' !in Show(tenantId) && '&' !in Show(clientId)
    ensures BuildAuthorizationUrl(tenantId, clientId, Some(redirectUri), Some(scope), mode).Ok?
    ensures var url := BuildAuthorizationUrl(tenantId, clientId, Some(redirectUri), Some(scope), mode).value;
            TenantSegment(url) == Some(Show(tenantId))
            && QueryParams(url) == AuthorizationParams(clientId, redirectUri, scope, mode)
    ensures DecodeBytes(AuthorizationParams(clientId, redirectUri, scope, mode)[2].value) == Utf8Encode(redirectUri)
    ensures DecodeBytes(AuthorizationParams(clientId, redirectUri, scope, mode)[3].value) == Utf8Encode(scope)
  {
    BuiltUrlShape(tenantId, clientId, redirectUri, scope, mode);
    JoinedUrlReadsBack(Show(tenantId), Show(clientId), redirectUri, scope, mode);
    DecodeFormEncode(redirectUri);
    DecodeFormEncode(scope);
  }

  /** The endpoint, '?' and the joined fields read back as the tenant and the parameters. */
  lemma JoinedUrlReadsBack(tenant: string, client: string, redirectUri: string, scope: string, mode: ResponseMode)
    requires '?' !in tenant && '/' !in tenant && '&' !in client
    ensures var url := LoginHost + tenant + AuthorizePath + "?" + Join(RequestFields(client, redirectUri, scope, mode), '&');
            TenantSegment(url) == Some(tenant)
            && QueryParams(url) == AuthorizationParams(Some(client), redirectUri, scope, mode)
  {
    LiteralShape();
    SplitUrl(LoginHost, tenant, AuthorizePath, Join(RequestFields(client, redirectUri, scope, mode), '&'));
    QueryOfFields(client, redirectUri, scope, mode);
  }

  /** The built URL is the endpoint, '?', and the request fields joined with '&'. */
  lemma BuiltUrlShape(tenantId: Option<string>, clientId: Option<string>,
                      redirectUri: string, scope: string, mode: ResponseMode)
    ensures BuildAuthorizationUrl(tenantId, clientId, Some(redirectUri), Some(scope), mode)
            == Ok(LoginHost + Show(tenantId) + AuthorizePath + "?"
                  + Join(RequestFields(Show(clientId), redirectUri, scope, mode), '&'))
  {
    RequestQueryIsJoin(Show(clientId), redirectUri, scope, mode);
  }

  /** Reading the joined request fields back gives the five parameters. */
  lemma QueryOfFields(client: string, redirectUri: string, scope: string, mode: ResponseMode)
    requires '&' !in client
    ensures ParseParams(Segments(Join(RequestFields(client, redirectUri, scope, mode), '&'), '&'))
            == AuthorizationParams(Some(client), redirectUri, scope, mode)
  {
    var fields := RequestFields(client, redirectUri, scope, mode);
    RequestFieldsFree(client, redirectUri, scope, mode);
    SegmentsOfJoin(fields, '&');
    ParseRequestFields(client, redirectUri, scope, mode);
  }

  /** A host, a '/'-free tenant and a path starting with '/', then '?' and a query: the
      tenant is the first path segment and the query is everything after the '?'. */
  lemma SplitUrl(host: string, tenant: string, path: string, query: string)
    requires '?' !in host && '?' !in tenant && '?' !in path && '/' !in tenant
    requires |path| >= 1 && path[0] == '/'
    ensures var url := host + tenant + path + "?" + query;
            StartsWith(url, host) && TakeUntil(url[|host|..], '/') == tenant && AfterFirst(url, '?') == query
  {
    var url := host + tenant + path + "?" + query;
    assert url == (host + tenant + path) + ['?'] + query;
    assert '?' !in host + tenant + path;
    TakeUntilOfPrefix(host + tenant + path, query, '?');
    assert url[..|host|] == host;
    assert url[|host|..] == tenant + ['/'] + (path[1..] + ['?'] + query);
    TakeUntilOfPrefix(tenant, path[1..] + ['?'] + query, '/');
  }

  /** `getTokenUrl()`: the token endpoint of the tenant. */
  function TokenUrl(tenantId: Option<string>): (r: string)
    ensures StartsWith(r, LoginHost) && EndsWith(r, TokenPath)
    ensures '/' !in Show(tenantId) ==> TenantSegment(r) == Some(Show(tenantId))
  {
    var tenant := Show(tenantId);
    var url := LoginHost + tenant + TokenPath;
    assert url[..|LoginHost|] == LoginHost;
    assert url[|url| - |TokenPath|..] == TokenPath;
    assert url[|LoginHost|..] == tenant + ['/'] + TokenPath[1..];
    if '/' !in tenant then
      TakeUntilOfPrefix(tenant, TokenPath[1..], '/');
      url
    else url
  }

  // ---------------------------------------------------------------------
  // The three configuration classes

  /** One app registration's settings (the client secret plays no part in the URLs). */
  datatype Registration = Registration(clientId: Option<string>, tenantId: Option<string>,
                                       redirectUri: Option<string>, scope: Option<string>)

  /** `AzureOAuthConfig`: top-level settings (`azure.*`) and a nested `oauth` block. */
  datatype AzureOAuthConfig = AzureOAuthConfig(top: Registration, oauth: Registration)

  function RegistrationUrl(reg: Registration, mode: ResponseMode): Result<string, UrlError> {
    BuildAuthorizationUrl(reg.tenantId, reg.clientId, reg.redirectUri, reg.scope, mode)
  }

  /** `AzureOAuthConfig.getAuthorizationUrl()`: top-level settings, form_post. */
  function AzureAuthorizationUrl(cfg: AzureOAuthConfig): (r: Result<string, UrlError>)
    ensures r.Ok? <==> cfg.top.redirectUri.Some? && cfg.top.scope.Some?
    ensures r.Ok? ==> EndsWith(r.value, "&" + Field("response_mode", ModeName(FormPost)))
  {
    RegistrationUrl(cfg.top, FormPost)
  }

  /** `AzureOAuthConfig.getAuthorizationUrlForTeams()`: top-level settings, query. */
  function AzureAuthorizationUrlForTeams(cfg: AzureOAuthConfig): (r: Result<string, UrlError>)
    ensures r.Ok? <==> cfg.top.redirectUri.Some? && cfg.top.scope.Some?
    ensures r.Ok? ==> EndsWith(r.value, "&" + Field("response_mode", ModeName(Query)))
  {
    RegistrationUrl(cfg.top, Query)
  }

  /** `AzureOAuthConfig.getOAuthAuthorizationUrl()`: nested settings, form_post. */
  function AzureOAuthAuthorizationUrl(cfg: AzureOAuthConfig): (r: Result<string, UrlError>)
    ensures r.Ok? <==> cfg.oauth.redirectUri.Some? && cfg.oauth.scope.Some?
    ensures r.Ok? ==> EndsWith(r.value, "&" + Field("response_mode", ModeName(FormPost)))
  {
    RegistrationUrl(cfg.oauth, FormPost)
  }

  /** `AzureOAuthConfig.getOAuthAuthorizationUrlForTeams()`: nested settings, query. */
  function AzureOAuthAuthorizationUrlForTeams(cfg: AzureOAuthConfig): (r: Result<string, UrlError>)
    ensures r.Ok? <==> cfg.oauth.redirectUri.Some? && cfg.oauth.scope.Some?
    ensures r.Ok? ==> EndsWith(r.value, "&" + Field("response_mode", ModeName(Query)))
  {
    RegistrationUrl(cfg.oauth, Query)
  }

  /** `AzureOAuthConfig.getTokenUrl()` and `getOAuthTokenUrl()`. */
  function AzureTokenUrl(cfg: AzureOAuthConfig): (r: string)
    ensures '/' !in Show(cfg.top.tenantId) ==> TenantSegment(r) == Some(Show(cfg.top.tenantId))
  {
    TokenUrl(cfg.top.tenantId)
  }

  function AzureOAuthTokenUrl(cfg: AzureOAuthConfig): (r: string)
    ensures '/' !in Show(cfg.oauth.tenantId) ==> TenantSegment(r) == Some(Show(cfg.oauth.tenantId))
  {
    TokenUrl(cfg.oauth.tenantId)
  }

  /** The form_post and query variants differ only in the response_mode value. */
  lemma TeamsVariantDiffersInMode(cfg: AzureOAuthConfig)
    requires cfg.top.redirectUri.Some? && cfg.top.scope.Some?
    requires cfg.oauth.redirectUri.Some? && cfg.oauth.scope.Some?
    ensures var a := AzureAuthorizationUrl(cfg).value;
            var b := AzureAuthorizationUrlForTeams(cfg).value;
            |a| >= 9 && |b| >= 5 && a[..|a| - 9] == b[..|b| - 5]
    ensures var a := AzureOAuthAuthorizationUrl(cfg).value;
            var b := AzureOAuthAuthorizationUrlForTeams(cfg).value;
            |a| >= 9 && |b| >= 5 && a[..|a| - 9] == b[..|b| - 5]
  {
    var t, o := UrlStem(cfg.top), UrlStem(cfg.oauth);
    RegistrationUrlStem(cfg.top, FormPost);
    RegistrationUrlStem(cfg.top, Query);
    assert (t + "form_post")[..|t|] == t && (t + "query")[..|t|] == t;
    RegistrationUrlStem(cfg.oauth, FormPost);
    RegistrationUrlStem(cfg.oauth, Query);
    assert (o + "form_post")[..|o|] == o && (o + "query")[..|o|] == o;
  }

  /** Everything of a registration's authorization URL before the response_mode value,
      grouped as the builder groups it. */
  function UrlStem(reg: Registration): string
    requires reg.redirectUri.Some? && reg.scope.Some?
  {
    var head := Field("client_id", Show(reg.clientId)) + "&" + Field("response_type", "code") + "&"
                + Field("redirect_uri", FormEncode(reg.redirectUri.value)) + "&"
                + Field("scope", FormEncode(reg.scope.value));
    (AuthorizeEndpoint(Show(reg.tenantId)) + "?") + (head + ("&" + ("response_mode" + "=")))
  }

  lemma RegistrationUrlStem(reg: Registration, mode: ResponseMode)
    requires reg.redirectUri.Some? && reg.scope.Some?
    ensures RegistrationUrl(reg, mode) == Ok(UrlStem(reg) + ModeName(mode))
  {
    var head := Field("client_id", Show(reg.clientId)) + "&" + Field("response_type", "code") + "&"
                + Field("redirect_uri", FormEncode(reg.redirectUri.value)) + "&"
                + Field("scope", FormEncode(reg.scope.value));
    var pre := AuthorizeEndpoint(Show(reg.tenantId)) + "?";
    var key, m := "response_mode" + "=", ModeName(mode);
    AppendAssoc("&", key, m);
    AppendAssoc(head, "&" + key, m);
    AppendAssoc(pre, head + ("&" + key), m);
  }

  lemma AppendAssoc(a: string, b: string, c: string)
    ensures a + (b + c) == (a + b) + c
  {
  }

  /** The `getOAuth*` URLs read only the nested block, the plain ones only the top level. */
  lemma VariantsReadTheirOwnBlock(top1: Registration, top2: Registration, oauth1: Registration, oauth2: Registration)
    ensures AzureOAuthAuthorizationUrl(AzureOAuthConfig(top1, oauth1)) == AzureOAuthAuthorizationUrl(AzureOAuthConfig(top2, oauth1))
    ensures AzureOAuthTokenUrl(AzureOAuthConfig(top1, oauth1)) == AzureOAuthTokenUrl(AzureOAuthConfig(top2, oauth1))
    ensures AzureAuthorizationUrl(AzureOAuthConfig(top1, oauth1)) == AzureAuthorizationUrl(AzureOAuthConfig(top1, oauth2))
    ensures AzureTokenUrl(AzureOAuthConfig(top1, oauth1)) == AzureTokenUrl(AzureOAuthConfig(top1, oauth2))
  {
  }

  /** `OAuthConfig.getAuthorizationUrl()` (`azure.oauth.*`): always form_post. */
  function OAuthConfigAuthorizationUrl(reg: Registration): (r: Result<string, UrlError>)
    ensures r.Ok? <==> reg.redirectUri.Some? && reg.scope.Some?
    ensures r.Ok? ==> StartsWith(r.value, AuthorizeEndpoint(Show(reg.tenantId)) + "?")
    ensures r.Ok? ==> EndsWith(r.value, "&" + Field("response_mode", ModeName(FormPost)))
  {
    RegistrationUrl(reg, FormPost)
  }

  function OAuthConfigTokenUrl(reg: Registration): (r: string)
    ensures '/' !in Show(reg.tenantId) ==> TenantSegment(r) == Some(Show(reg.tenantId))
  {
    TokenUrl(reg.tenantId)
  }

  /** `AzureAdConfig.getAuthorizationUrl()` (`azure.*`): always query. */
  function AzureAdAuthorizationUrl(reg: Registration): (r: Result<string, UrlError>)
    ensures r.Ok? <==> reg.redirectUri.Some? && reg.scope.Some?
    ensures r.Ok? ==> StartsWith(r.value, AuthorizeEndpoint(Show(reg.tenantId)) + "?")
    ensures r.Ok? ==> EndsWith(r.value, "&" + Field("response_mode", ModeName(Query)))
  {
    RegistrationUrl(reg, Query)
  }

  function AzureAdTokenUrl(reg: Registration): (r: string)
    ensures '/' !in Show(reg.tenantId) ==> TenantSegment(r) == Some(Show(reg.tenantId))
  {
    TokenUrl(reg.tenantId)
  }

  // ---------------------------------------------------------------------
  // getAuthorizationUrlWith(prompt, loginHint)

  /** The optional parameters actually appended. */
  function ExtraParams(prompt: Option<string>, loginHint: Option<string>): seq<Param> {
    (if NonBlank(prompt) then [Param("prompt", FormEncode(prompt.value))] else [])
    + (if NonBlank(loginHint) then [Param("login_hint", FormEncode(loginHint.value))] else [])
  }

  /** Appending `prompt` and `login_hint` to a base URL: the first separator is '?' unless
      the base already holds one, the second is '&'; blank or null values are skipped. */
  function AuthorizationUrlWith(base: string, prompt: Option<string>, loginHint: Option<string>): (r: string)
    ensures StartsWith(r, base)
    ensures !NonBlank(prompt) && !NonBlank(loginHint) ==> r == base
    ensures NonBlank(prompt) && !NonBlank(loginHint) ==>
              r == base + (if '?' in base then "&" else "?") + Field("prompt", FormEncode(prompt.value))
    ensures !NonBlank(prompt) && NonBlank(loginHint) ==>
              r == base + (if '?' in base then "&" else "?") + Field("login_hint", FormEncode(loginHint.value))
    ensures NonBlank(prompt) && NonBlank(loginHint) ==>
              r == base + (if '?' in base then "&" else "?") + Field("prompt", FormEncode(prompt.value))
                   + "&" + Field("login_hint", FormEncode(loginHint.value))
  {
    ContainsChar(base, '?');
    var sep := if Contains(base, "?") then "&" else "?";
    var withPrompt := if NonBlank(prompt) then base + sep + Field("prompt", FormEncode(prompt.value)) else base;
    var sep' := if NonBlank(prompt) then "&" else sep;
    var tail := Field("login_hint", FormEncode(loginHint.GetOr("")));
    var r := if NonBlank(loginHint) then withPrompt + sep' + tail else withPrompt;
    assert r[..|withPrompt|] == withPrompt;
    assert withPrompt[..|base|] == base;
    r
  }

  /** Appending `&name=value` to a URL that has a query adds exactly that parameter. */
  lemma {:induction false} AppendParamReadsBack(url: string, name: string, value: string)
    requires '?' in url && '=' !in name && '&' !in name && '&' !in value
    ensures '?' in url + "&" + Field(name, value)
    ensures QueryParams(url + "&" + Field(name, value)) == QueryParams(url) + [Param(name, value)]
  {
    var field := Field(name, value);
    FieldFree(name, value, '&');
    AfterFirstAppend(url, "&" + field, '?');
    assert url + "&" + field == url + ("&" + field);
    assert AfterFirst(url, '?') + ("&" + field) == AfterFirst(url, '?') + ['&'] + field;
    SegmentsConcat(AfterFirst(url, '?'), field, '&');
    SegmentsOfPlain(field, '&');
    ParseParamsConcat(Segments(AfterFirst(url, '?'), '&'), [field]);
    ParseField(name, value);
  }

  /** Partner of AuthorizationUrlWith: on a base that already has a query, the parameters
      read back are the base's followed by exactly the non-blank extras. */
  lemma AuthorizationUrlWithReadsBack(base: string, prompt: Option<string>, loginHint: Option<string>)
    requires '?' in base
    ensures QueryParams(AuthorizationUrlWith(base, prompt, loginHint)) == QueryParams(base) + ExtraParams(prompt, loginHint)
  {
    ExtraNamesPlain();
    var r := AuthorizationUrlWith(base, prompt, loginHint);
    var withPrompt := base;
    if NonBlank(prompt) {
      FormEncodeAlphabet(prompt.value);
      AppendParamReadsBack(base, "prompt", FormEncode(prompt.value));
      withPrompt := base + "&" + Field("prompt", FormEncode(prompt.value));
    }
    if NonBlank(loginHint) {
      FormEncodeAlphabet(loginHint.value);
      AppendParamReadsBack(withPrompt, "login_hint", FormEncode(loginHint.value));
      assert r == withPrompt + "&" + Field("login_hint", FormEncode(loginHint.value));
    } else {
      assert r == withPrompt;
    }
  }

  /** `AzureOAuthService.getAuthorizationUrlWith(prompt, loginHint)`, on `getAuthorizationUrl()`. */
  function AzureServiceUrlWith(cfg: AzureOAuthConfig, prompt: Option<string>, loginHint: Option<string>)
    : (r: Result<string, UrlError>)
    ensures r.Ok? <==> AzureAuthorizationUrl(cfg).Ok?
    ensures r.Ok? ==> StartsWith(r.value, AzureAuthorizationUrl(cfg).value)
  {
    var base :- AzureAuthorizationUrl(cfg);
    Ok(AuthorizationUrlWith(base, prompt, loginHint))
  }

  /** `OAuthService.getAuthorizationUrlWith(prompt, loginHint)`, on `OAuthConfig.getAuthorizationUrl()`. */
  function OAuthServiceUrlWith(reg: Registration, prompt: Option<string>, loginHint: Option<string>)
    : (r: Result<string, UrlError>)
    ensures r.Ok? <==> OAuthConfigAuthorizationUrl(reg).Ok?
    ensures r.Ok? ==> StartsWith(r.value, OAuthConfigAuthorizationUrl(reg).value)
  {
    var base :- OAuthConfigAuthorizationUrl(reg);
    Ok(AuthorizationUrlWith(base, prompt, loginHint))
  }

  /** End to end: the service URL carries the five request parameters, then the extras. */
  lemma OAuthServiceUrlReadsBack(reg: Registration, prompt: Option<string>, loginHint: Option<string>)
    requires reg.redirectUri.Some? && reg.scope.Some?
    requires '?' !in Show(reg.tenantId) && '/' !in Show(reg.tenantId) && '&' !in Show(reg.clientId)
    ensures OAuthServiceUrlWith(reg, prompt, loginHint).Ok?
    ensures QueryParams(OAuthServiceUrlWith(reg, prompt, loginHint).value)
            == AuthorizationParams(reg.clientId, reg.redirectUri.value, reg.scope.value, FormPost)
               + ExtraParams(prompt, loginHint)
  {
    var base := OAuthConfigAuthorizationUrl(reg).value;
    AuthorizationUrlReadsBack(reg.tenantId, reg.clientId, reg.redirectUri.value, reg.scope.value, FormPost);
    MarkedPrefix(base, AuthorizeEndpoint(Show(reg.tenantId)), '?');
    AuthorizationUrlWithReadsBack(base, prompt, loginHint);
  }

  /** End to end: the Azure service URL carries the top-level block's five request
      parameters (form_post), then the extras. */
  lemma AzureServiceUrlReadsBack(cfg: AzureOAuthConfig, prompt: Option<string>, loginHint: Option<string>)
    requires cfg.top.redirectUri.Some? && cfg.top.scope.Some?
    requires '?' !in Show(cfg.top.tenantId) && '/' !in Show(cfg.top.tenantId) && '&' !in Show(cfg.top.clientId)
    ensures AzureServiceUrlWith(cfg, prompt, loginHint).Ok?
    ensures QueryParams(AzureServiceUrlWith(cfg, prompt, loginHint).value)
            == AuthorizationParams(cfg.top.clientId, cfg.top.redirectUri.value, cfg.top.scope.value, FormPost)
               + ExtraParams(prompt, loginHint)
  {
    var t := cfg.top;
    var base := AzureAuthorizationUrl(cfg).value;
    AuthorizationUrlReadsBack(t.tenantId, t.clientId, t.redirectUri.value, t.scope.value, FormPost);
    MarkedPrefix(base, AuthorizeEndpoint(Show(t.tenantId)), '?');
    AuthorizationUrlWithReadsBack(base, prompt, loginHint);
  }

  lemma MarkedPrefix(s: string, a: string, c: char)
    requires StartsWith(s, a + [c])
    ensures c in s
  {
    assert s[|a|] == (a + [c])[|a|];
  }

  // ---------------------------------------------------------------------
  // Account type, from the `iss` claim

  datatype AccountType = Personal | WorkOrSchool | UnknownAccount

  function AccountTypeLabel(t: AccountType): string {
    match t
    case Personal => "personal (MSA)"
    case WorkOrSchool => "work/school (Org)"
    case UnknownAccount => "unknown"
  }

  /** "consumers" wins; then "organizations" or "common"; otherwise unknown. */
  function AccountTypeOf(iss: string): (r: AccountType)
    ensures r == Personal <==> Contains(iss, "consumers")
    ensures r == WorkOrSchool <==> !Contains(iss, "consumers") && (Contains(iss, "organizations") || Contains(iss, "common"))
  {
    if Contains(iss, "consumers") then Personal
    else if Contains(iss, "organizations") || Contains(iss, "common") then WorkOrSchool
    else UnknownAccount
  }

  /** The value logged: the `iss` claim read with `optString("iss", "unknown")`. */
  function AccountTypeOfClaims(claims: Claims, codec: Codec): (r: AccountType)
    ensures "iss" !in claims ==> r == UnknownAccount
    ensures "iss" in claims && claims["iss"].JString? ==> r == AccountTypeOf(claims["iss"].s)
  {
    var iss := OptString(claims, "iss", "unknown", codec);
    if "iss" !in claims then
      NotContainsMissingChar("unknown", "consumers");
      NotContainsMissingChar("unknown", "common");
      AccountTypeOf(iss)
    else AccountTypeOf(iss)
  }

  /** The tenant paths of the v2.0 issuers classify as intended, wherever they appear. */
  lemma IssuerTenantClassified(a: string, b: string)
    ensures AccountTypeOf(a + "consumers" + b) == Personal
    ensures AccountTypeOf(a + "organizations" + b) != UnknownAccount
    ensures AccountTypeOf(a + "common" + b) != UnknownAccount
  {
    ContainsMiddle(a, "consumers", b);
    ContainsMiddle(a, "organizations", b);
    ContainsMiddle(a, "common", b);
  }
}

=== FILE: claim_authorizer.dfy ===
/**
  Administrator checks on a bearer token (`AuthUtil.isAdmin` in the shared and the legacy
  package) and the scope allowlist test `hasAdminScope`, which both packages define alike.
*/
module ClaimAuthorizer {
  import opened Wrappers
  import opened JavaText
  import opened Json

  /** Graph permission scopes that count as administrative. */
  const AdminScopes: seq<string> := [
    "Directory.ReadWrite.All",
    "Directory.Read.All",
    "User.ReadWrite.All",
    "Group.ReadWrite.All",
    "Team.ReadWrite.All",
    "TeamMember.ReadWrite.All",
    "Application.ReadWrite.All"
  ]

  /** Entra ID directory-role template ids: Global Administrator, User Administrator. */
  const AdminRoleIds: seq<string> := [
    "62e90394-69f5-4237-9190-012177145e10",
    "f2ef992c-3afb-46b9-b7cf-a126ee74c451"
  ]

  /** Some needle occurs in s, tried in order. */
  function ContainsAny(s: string, needles: seq<string>): (r: bool)
    ensures r <==> exists i :: 0 <= i < |needles| && Contains(s, needles[i])
  {
    if needles == [] then false
    else Contains(s, needles[0]) || ContainsAny(s, needles[1..])
  }

  /** `hasAdminScope(scopeString)`: false for null or empty, otherwise whether an allowlisted
      scope occurs as a substring. */
  function HasAdminScope(scope: Option<string>): (r: bool)
    ensures r <==> scope.Some? && scope.value != ""
                   && exists i :: 0 <= i < |AdminScopes| && Contains(scope.value, AdminScopes[i])
  {
    scope.Some? && scope.value != "" && ContainsAny(scope.value, AdminScopes)
  }

  /** The substring test is not a token test: a longer scope name that embeds an allowlisted one
      is accepted too. */
  lemma HasAdminScopeEmbedded(prefix: string, suffix: string)
    ensures HasAdminScope(Some(prefix + "Directory.Read.All" + suffix))
  {
    ContainsMiddle(prefix, "Directory.Read.All", suffix);
    assert Contains(prefix + "Directory.Read.All" + suffix, AdminScopes[1]);
  }

  /** How a for-each over a `List<String>` ends: a hit, the end of the list, or a
      ClassCastException on the first element that is not a string. */
  datatype Scan = Found | Exhausted | Threw

  predicate AllStrings(items: seq<JsonValue>) {
    forall j :: 0 <= j < |items| ==> items[j].JString?
  }

  /** `for (String x : items) if (hit(x)) return true;` run to its first outcome. */
  function ScanStrings(items: seq<JsonValue>, hit: string -> bool): Scan {
    if items == [] then Exhausted
    else if !items[0].JString? then Threw
    else if hit(items[0].s) then Found
    else ScanStrings(items[1..], hit)
  }

  /** Element i is a hit and every element before it is a string. */
  predicate HitAt(items: seq<JsonValue>, hit: string -> bool, i: int) {
    0 <= i < |items| && items[i].JString? && hit(items[i].s) && AllStrings(items[..i])
  }

  /** Element i is the first non-string and no string before it is a hit. */
  predicate ThrowsAt(items: seq<JsonValue>, hit: string -> bool, i: int) {
    0 <= i < |items| && !items[i].JString? && AllStrings(items[..i])
    && forall j :: 0 <= j < i ==> !hit(items[j].s)
  }

  lemma PrefixOfTail(items: seq<JsonValue>, i: int)
    requires 0 < i <= |items|
    ensures items[..i] == [items[0]] + items[1..][..i - 1]
  {
  }

  /** The loop returns true exactly when some element is a hit and every element before it
      is a string. */
  lemma {:induction false} ScanFoundIff(items: seq<JsonValue>, hit: string -> bool)
    ensures ScanStrings(items, hit) == Found <==> exists i :: HitAt(items, hit, i)
    decreases |items|
  {
    if items != [] && items[0].JString? && !hit(items[0].s) {
      var tail := items[1..];
      ScanFoundIff(tail, hit);
      if ScanStrings(tail, hit) == Found {
        var i :| HitAt(tail, hit, i);
        PrefixOfTail(items, i + 1);
        assert HitAt(items, hit, i + 1);
      }
      if exists i :: HitAt(items, hit, i) {
        var i :| HitAt(items, hit, i);
        assert i != 0;
        PrefixOfTail(items, i);
        assert tail[i - 1] == items[i];
        assert forall j :: 0 <= j < i - 1 ==> tail[j] == items[j + 1];
        assert HitAt(tail, hit, i - 1);
      }
    } else if items != [] && items[0].JString? {
      assert items[..0] == [];
      assert HitAt(items, hit, 0);
    } else if items != [] {
      forall i | 0 <= i < |items|
        ensures !HitAt(items, hit, i)
      {
        if 0 < i {
          assert items[..i][0] == items[0];
        }
      }
    }
  }

  /** The loop throws exactly when a non-string is reached before any hit. */
  lemma {:induction false} ScanThrewIff(items: seq<JsonValue>, hit: string -> bool)
    ensures ScanStrings(items, hit) == Threw <==> exists i :: ThrowsAt(items, hit, i)
    decreases |items|
  {
    if items != [] && items[0].JString? && !hit(items[0].s) {
      var tail := items[1..];
      ScanThrewIff(tail, hit);
      if ScanStrings(tail, hit) == Threw {
        var i :| ThrowsAt(tail, hit, i);
        PrefixOfTail(items, i + 1);
        assert ThrowsAt(items, hit, i + 1);
      }
      if exists i :: ThrowsAt(items, hit, i) {
        var i :| ThrowsAt(items, hit, i);
        assert i != 0;
        PrefixOfTail(items, i);
        assert tail[i - 1] == items[i];
        assert forall j :: 0 <= j < i - 1 ==> tail[j] == items[j + 1];
        assert ThrowsAt(tail, hit, i - 1);
      }
    } else if items != [] && items[0].JString? {
      forall i | 0 <= i < |items|
        ensures !ThrowsAt(items, hit, i)
      {
      }
    } else if items != [] {
      assert items[..0] == [];
      assert ThrowsAt(items, hit, 0);
    }
  }

  predicate IsAdminRoleId(s: string) {
    s in AdminRoleIds
  }

  /** The `wids` loop of the shared `isAdmin`. */
  function ScanRoleIds(items: seq<JsonValue>): Scan {
    ScanStrings(items, IsAdminRoleId)
  }

  /** The claim test of the shared `isAdmin` after the payload is parsed. Only `wids`
      is consulted; the `scp` and `roles` tests are commented out in the source. */
  function AdminFromClaims(claims: Claims): (r: bool)
    ensures r <==> "wids" in claims && claims["wids"].JList?
                   && exists i :: HitAt(claims["wids"].items, IsAdminRoleId, i)
  {
    if "wids" in claims && claims["wids"].JList? then
      ScanFoundIff(claims["wids"].items, IsAdminRoleId);
      ScanRoleIds(claims["wids"].items) == Found
    else false
  }

  /** The shared `isAdmin(session)`, given the session's `accessToken`. Every exception is
      caught, so the answer is always a boolean. */
  function IsAdmin(accessToken: Option<string>, codec: Codec): (r: bool)
    ensures accessToken.None? ==> !r
    ensures accessToken.Some? && |JavaSplit(accessToken.value, '.')| != 3 ==> !r
    ensures r <==> accessToken.Some? && DecodePayload(accessToken.value, codec).Ok?
                   && AdminFromClaims(DecodePayload(accessToken.value, codec).value)
  {
    match accessToken
    case None => false
    case Some(token) =>
      match DecodePayload(token, codec)
      case Ok(claims) => AdminFromClaims(claims)
      case Err(_) => false
  }

  /** Only the `wids` claim matters: claim sets that agree on it get the same answer. */
  lemma AdminFromClaimsOnlyWids(a: Claims, b: Claims)
    requires ("wids" in a <==> "wids" in b)
    requires "wids" in a ==> a["wids"] == b["wids"]
    ensures AdminFromClaims(a) == AdminFromClaims(b)
  {
  }

  /** A `wids` list that starts with an administrator id grants, as the source intends, when
      the value is a `java.util.List`. */
  lemma AdminFromListedRoleId(claims: Claims, rest: seq<JsonValue>)
    requires "wids" in claims && claims["wids"] == JList([JString(AdminRoleIds[0])] + rest)
    ensures AdminFromClaims(claims)
  {
    var items := [JString(AdminRoleIds[0])] + rest;
    assert HitAt(items, IsAdminRoleId, 0);
    ScanFoundIff(items, IsAdminRoleId);
  }

  /** As written, the shared check can never grant on claims parsed by org.json: the
      `instanceof List` test fails on every `JSONArray`. */
  lemma AdminNeverOnOrgJson(claims: Claims)
    requires ClaimsNoList(claims)
    ensures !AdminFromClaims(claims)
  {
    if "wids" in claims {
      assert NoList(claims["wids"]);
    }
  }

  lemma IsAdminNeverOnOrgJson(accessToken: Option<string>, codec: Codec)
    requires OrgJsonShaped(codec)
    ensures !IsAdmin(accessToken, codec)
  {
    if accessToken.Some? && DecodePayload(accessToken.value, codec).Ok? {
      var claims := DecodePayload(accessToken.value, codec).value;
      var segment := JavaSplit(accessToken.value, '.')[1];
      var bytes := codec.base64UrlDecode(segment).value;
      assert codec.parseObject(codec.utf8Decode(bytes)) == Ok(claims);
      AdminNeverOnOrgJson(claims);
    }
  }

  /** The concrete counterexample: `{"wids": ["62e90394-…"]}` as org.json parses it. */
  lemma GlobalAdministratorArrayDenied()
    ensures !AdminFromClaims(map["wids" := JArray([JString(AdminRoleIds[0])])])
  {
  }

  /** An array of role ids, whichever run-time class represents it. */
  function RoleArray(v: JsonValue): Option<seq<JsonValue>> {
    match v
    case JArray(items) => Some(items)
    case JList(items) => Some(items)
    case _ => None
  }

  /** The shared claim test as evidently intended: a `wids` array holding an administrator
      role id grants, whether parsed as `JSONArray` or as a `List`. */
  function AdminFromClaimsIntended(claims: Claims): (r: bool)
    ensures r <==> "wids" in claims && RoleArray(claims["wids"]).Some?
                   && exists i :: HitAt(RoleArray(claims["wids"]).value, IsAdminRoleId, i)
  {
    if "wids" in claims && RoleArray(claims["wids"]).Some? then
      ScanFoundIff(RoleArray(claims["wids"]).value, IsAdminRoleId);
      ScanRoleIds(RoleArray(claims["wids"]).value) == Found
    else false
  }

  /** The corrected check grants for an org.json `wids` array containing either
      administrator id, and it agrees with the code as written wherever that sees a List. */
  lemma AdminIntendedGrantsArray(claims: Claims, items: seq<JsonValue>, k: nat)
    requires "wids" in claims && claims["wids"] == JArray(items)
    requires AllStrings(items) && k < |items| && IsAdminRoleId(items[k].s)
    ensures AdminFromClaimsIntended(claims)
  {
    assert HitAt(items, IsAdminRoleId, k);
    ScanFoundIff(items, IsAdminRoleId);
  }

  lemma AdminIntendedExtendsAsWritten(claims: Claims)
    ensures AdminFromClaims(claims) ==> AdminFromClaimsIntended(claims)
    ensures ("wids" in claims && !claims["wids"].JArray?) ==> AdminFromClaims(claims) == AdminFromClaimsIntended(claims)
  {
  }

  /** The shared `isAdmin` with the corrected claim test. */
  function IsAdminIntended(accessToken: Option<string>, codec: Codec): (r: bool)
    ensures accessToken.None? ==> !r
    ensures accessToken.Some? && |JavaSplit(accessToken.value, '.')| != 3 ==> !r
    ensures r <==> accessToken.Some? && DecodePayload(accessToken.value, codec).Ok?
                   && AdminFromClaimsIntended(DecodePayload(accessToken.value, codec).value)
  {
    match accessToken
    case None => false
    case Some(token) =>
      match DecodePayload(token, codec)
      case Ok(claims) => AdminFromClaimsIntended(claims)
      case Err(_) => false
  }

  // ---------------------------------------------------------------- legacy package

  /** A role name that mentions "admin" in lower case. */
  predicate IsAdminRoleName(s: string) {
    Contains(ToLowerAscii(s), "admin") || Contains(ToLowerAscii(s), "administrator")
  }

  /** The `roles` loop of the legacy `isAdmin`. */
  function ScanRoleNames(items: seq<JsonValue>): Scan {
    ScanStrings(items, IsAdminRoleName)
  }

  /** "administrator" contains "admin", so the second disjunct never changes the answer. */
  lemma AdministratorRedundant(s: string)
    ensures Contains(s, "administrator") ==> Contains(s, "admin")
  {
    if Contains(s, "administrator") {
      ContainsMiddle("", "admin", "istrator");
      assert "" + "admin" + "istrator" == "administrator";
      ContainsTransitive(s, "administrator", "admin");
    }
  }

  /** The `roles` test of the legacy check, run when no admin scope was found. */
  function RolesGrant(claims: Claims): (r: bool)
    ensures r <==> "roles" in claims && claims["roles"].JList?
                   && exists i :: HitAt(claims["roles"].items, IsAdminRoleName, i)
  {
    if "roles" in claims && claims["roles"].JList? then
      ScanFoundIff(claims["roles"].items, IsAdminRoleName);
      ScanRoleNames(claims["roles"].items) == Found
    else false
  }

  /** The claim test of the legacy `isAdmin`: an `scp` that is not a string makes `getString`
      throw (caught: false) before `roles` is looked at; a string `scp` with an allowlisted
      scope grants; otherwise a `roles` List with an admin-sounding name grants. The presence
      of `wids` is only logged. */
  function LegacyAdminFromClaims(claims: Claims): (r: bool)
    ensures "scp" in claims && !claims["scp"].JString? ==> !r
    ensures "scp" in claims && claims["scp"].JString? && HasAdminScope(Some(claims["scp"].s)) ==> r
    ensures r <==> (("scp" in claims && claims["scp"].JString? && HasAdminScope(Some(claims["scp"].s)))
                    || (("scp" !in claims || claims["scp"].JString?) && RolesGrant(claims)))
  {
    NonEmptyScopeWhenMatched(claims);
    match GetString(claims, "scp")
    case Ok(scope) => ContainsAny(scope, AdminScopes) || RolesGrant(claims)
    case Err(_) => "scp" !in claims && RolesGrant(claims)
  }

  /** A scope string that contains an allowlisted scope is not empty, so the loop over
      ADMIN_SCOPES and `hasAdminScope` agree on it. */
  lemma NonEmptyScopeWhenMatched(claims: Claims)
    ensures "scp" in claims && claims["scp"].JString? ==>
            (ContainsAny(claims["scp"].s, AdminScopes) <==> HasAdminScope(Some(claims["scp"].s)))
  {
    if "scp" in claims && claims["scp"].JString? && ContainsAny(claims["scp"].s, AdminScopes) {
      var i :| 0 <= i < |AdminScopes| && Contains(claims["scp"].s, AdminScopes[i]);
      assert |AdminScopes[i]| > 0;
    }
  }

  /** The legacy `isAdmin(session)`. */
  function LegacyIsAdmin(accessToken: Option<string>, codec: Codec): (r: bool)
    ensures accessToken.None? ==> !r
    ensures accessToken.Some? && |JavaSplit(accessToken.value, '.')| != 3 ==> !r
    ensures r <==> accessToken.Some? && DecodePayload(accessToken.value, codec).Ok?
                   && LegacyAdminFromClaims(DecodePayload(accessToken.value, codec).value)
  {
    match accessToken
    case None => false
    case Some(token) =>
      match DecodePayload(token, codec)
      case Ok(claims) => LegacyAdminFromClaims(claims)
      case Err(_) => false
  }

  /** `wids` never grants in the legacy check: removing it changes nothing. */
  lemma LegacyIgnoresWids(claims: Claims)
    ensures LegacyAdminFromClaims(claims) == LegacyAdminFromClaims(claims - {"wids"})
  {
    var c := claims - {"wids"};
    assert ("scp" in c <==> "scp" in claims) && ("scp" in c ==> c["scp"] == claims["scp"]);
    assert ("roles" in c <==> "roles" in claims) && ("roles" in c ==> c["roles"] == claims["roles"]);
  }

  /** As written, on org.json claims the legacy check reduces to the scope test: `roles`
      arrays are `JSONArray`s and fail `instanceof List`. */
  lemma LegacyOnOrgJsonIsScopeOnly(claims: Claims)
    requires ClaimsNoList(claims)
    ensures LegacyAdminFromClaims(claims) <==>
            "scp" in claims && claims["scp"].JString? && HasAdminScope(Some(claims["scp"].s))
  {
    if "roles" in claims {
      assert NoList(claims["roles"]);
    }
  }

  /** The concrete counterexample: `{"roles": ["Admin"]}` as org.json parses it. */
  lemma AdminRoleArrayDenied()
    ensures !LegacyAdminFromClaims(map["roles" := JArray([JString("Admin")])])
  {
  }

  /** The legacy claim test as evidently intended: a `roles` array, of either run-time class. */
  function LegacyAdminFromClaimsIntended(claims: Claims): (r: bool)
    ensures "scp" in claims && !claims["scp"].JString? ==> !r
    ensures r <==> (("scp" in claims && claims["scp"].JString? && HasAdminScope(Some(claims["scp"].s)))
                    || (("scp" !in claims || claims["scp"].JString?)
                        && "roles" in claims && RoleArray(claims["roles"]).Some?
                        && exists i :: HitAt(RoleArray(claims["roles"]).value, IsAdminRoleName, i)))
  {
    NonEmptyScopeWhenMatched(claims);
    var roles :=
      if "roles" in claims && RoleArray(claims["roles"]).Some? then
        ScanFoundIff(RoleArray(claims["roles"]).value, IsAdminRoleName);
        ScanRoleNames(RoleArray(claims["roles"]).value) == Found
      else false;
    match GetString(claims, "scp")
    case Ok(scope) => ContainsAny(scope, AdminScopes) || roles
    case Err(_) => "scp" !in claims && roles
  }

  /** The corrected legacy check grants an org.json `roles` array naming an admin role. */
  lemma LegacyIntendedGrantsArray(claims: Claims, role: string)
    requires "scp" !in claims
    requires "roles" in claims && claims["roles"] == JArray([JString(role)])
    requires Contains(ToLowerAscii(role), "admin")
    ensures LegacyAdminFromClaimsIntended(claims)
  {
    var items := [JString(role)];
    assert HitAt(items, IsAdminRoleName, 0);
    ScanFoundIff(items, IsAdminRoleName);
  }

  lemma LegacyIntendedExtendsAsWritten(claims: Claims)
    ensures LegacyAdminFromClaims(claims) ==> LegacyAdminFromClaimsIntended(claims)
  {
  }
}

=== FILE: exception_advice.dfy ===
/**
  The two `GlobalExceptionHandler` advices: how a thrown exception becomes an HTTP status
  and a JSON error body. The older advice (package `exception`) applies to every controller;
  the newer one (package `shared.exception`) only to `@RestController` classes. Each
  recognises only its own package's exception classes; any other RuntimeException, including
  the other package's, takes the generic 500 path.
*/
module ErrorAdvice {
  import opened Wrappers
  import opened GraphErrors

  /** The two packages that declare Unauthorized/Forbidden/GraphApi exceptions. */
  datatype Package = LegacyPackage | SharedPackage

  /** What reaches the advice: one of the Graph exceptions of a package, some other
      RuntimeException, or a checked exception. */
  datatype Thrown =
    | Graph(pkg: Package, e: Raised)
    | Runtime(message: Option<string>)
    | Checked(message: Option<string>)

  datatype Advice = LegacyAdvice | SharedAdvice

  /** A value of the `Map<String, Object>` body; `LocalDateTime.now()` is passed in. */
  datatype BodyValue = Num(n: int) | Text(s: Option<string>) | Time(t: int)

  datatype Response = Response(httpStatus: int, body: map<string, BodyValue>)

  const UnknownError := "알 수 없는 오류가 발생했습니다."
  const ApiPath := "/api"

  function PackageOf(a: Advice): Package {
    if a == LegacyAdvice then LegacyPackage else SharedPackage
  }

  /** Whether the advice is consulted for a handler of the given controller. Both apply to a
      `@RestController`; which one answers there depends on Spring's advice order. */
  predicate Applies(a: Advice, restController: bool) {
    a == LegacyAdvice || restController
  }

  /** Whether one of the three dedicated handlers of the advice catches the exception. */
  predicate Recognized(a: Advice, t: Thrown) {
    t.Graph? && t.pkg == PackageOf(a)
  }

  /** The switch on the status code: 401, 403 and 402 are kept, everything else is 500. */
  function HttpStatusFor(code: int): (r: int)
    ensures r == code <==> Dedicated(code) || code == 500
    ensures Dedicated(code) ==> r == code
    ensures !Dedicated(code) ==> r == 500
  {
    if code == 401 then 401 else if code == 403 then 403 else if code == 402 then 402 else 500
  }

  /** The error body every handler builds; "errorCode" only when the code is non-null. */
  function ErrorBody(status: int, error: string, message: Option<string>, errorCode: Option<string>, now: int)
    : (r: map<string, BodyValue>)
    ensures r.Keys == {"timestamp", "status", "error", "message", "path"} + (if errorCode.Some? then {"errorCode"} else {})
    ensures r["timestamp"] == Time(now) && r["status"] == Num(status) && r["error"] == Text(Some(error))
    ensures r["message"] == Text(message) && r["path"] == Text(Some(ApiPath))
    ensures errorCode.Some? ==> r["errorCode"] == Text(errorCode)
  {
    var base := map["timestamp" := Time(now), "status" := Num(status), "error" := Text(Some(error)),
                    "message" := Text(message)];
    var withCode := if errorCode.Some? then base["errorCode" := Text(errorCode)] else base;
    withCode["path" := Text(Some(ApiPath))]
  }

  /** The handler Spring picks: the most specific exception type the advice declares. */
  function Advise(a: Advice, t: Thrown, now: int): (r: Response)
    ensures r.httpStatus in {401, 402, 403, 500}
    ensures {"timestamp", "status", "error", "message", "path"} <= r.body.Keys
    ensures r.body["path"] == Text(Some(ApiPath)) && r.body["timestamp"] == Time(now)
    ensures Recognized(a, t) ==>
              r.httpStatus == HttpStatusFor(StatusOf(t.e)) && r.body["status"] == Num(StatusOf(t.e))
              && r.body["message"] == Text(Some(t.e.message))
    ensures !Recognized(a, t) ==> r.httpStatus == 500 && r.body["status"] == Num(500)
    ensures "errorCode" in r.body <==> Recognized(a, t) && t.e.GraphApi? && t.e.errorCode.Some?
    ensures t.Checked? ==> r.body["message"] == Text(Some(UnknownError))
    ensures t.Runtime? ==> r.body["message"] == Text(t.message)
    ensures t.Graph? && !Recognized(a, t) ==> r.body["message"] == Text(Some(t.e.message))
    ensures Recognized(a, t) && t.e.Unauthorized? ==> r.body["error"] == Text(Some("Unauthorized"))
    ensures Recognized(a, t) && t.e.Forbidden? ==> r.body["error"] == Text(Some("Forbidden"))
    ensures Recognized(a, t) && t.e.GraphApi? ==> r.body["error"] == Text(Some("Graph API Error"))
    ensures !Recognized(a, t) ==> r.body["error"] == Text(Some("Internal Server Error"))
    ensures "errorCode" in r.body ==> r.body["errorCode"] == Text(t.e.errorCode)
  {
    match t
    case Graph(pkg, e) =>
      if pkg != PackageOf(a) then Response(500, ErrorBody(500, "Internal Server Error", Some(e.message), None, now))
      else
        (match e
         case Unauthorized(m) => Response(401, ErrorBody(401, "Unauthorized", Some(m), None, now))
         case Forbidden(m) => Response(403, ErrorBody(403, "Forbidden", Some(m), None, now))
         case GraphApi(m, code, errorCode) =>
           Response(HttpStatusFor(code), ErrorBody(code, "Graph API Error", Some(m), errorCode, now)))
    case Runtime(m) => Response(500, ErrorBody(500, "Internal Server Error", m, None, now))
    case Checked(_) => Response(500, ErrorBody(500, "Internal Server Error", Some(UnknownError), None, now))
  }

  /** The HTTP status and the body's "status" differ exactly for a recognised Graph
      exception whose code is neither dedicated nor 500. */
  lemma StatusMismatchIff(a: Advice, t: Thrown, now: int)
    ensures var r := Advise(a, t, now);
            r.body["status"] != Num(r.httpStatus) <==>
              Recognized(a, t) && !Dedicated(StatusOf(t.e)) && StatusOf(t.e) != 500
  {
  }

  /** An ODataError handled by the older handler and answered by the older advice: the
      HTTP status follows the Graph status and the body keeps the Graph status. */
  lemma LegacyPipelineStatus(e: ODataError, operation: string, now: int)
    requires e.error.Some? && e.status.Some?
    ensures var r := Advise(LegacyAdvice, Graph(LegacyPackage, LegacyHandleODataError(e, operation)), now);
            r.httpStatus == HttpStatusFor(e.status.value) && r.body["status"] == Num(e.status.value)
  {
  }

  /** An ApiException handled by the newer handler and answered by the newer advice; the
      parsed error code reaches the body whenever the status is not 401 or 403. */
  lemma SharedPipelineStatus(e: ApiError, operation: string, readValue: string -> Option<ErrorResponse>, now: int)
    ensures var r := Advise(SharedAdvice, Graph(SharedPackage, MsHandleApiException(e, operation, readValue)), now);
            r.httpStatus == HttpStatusFor(e.status) && r.body["status"] == Num(e.status)
            && ("errorCode" in r.body <==> e.status != 401 && e.status != 403 && MsErrorCode(e, readValue).Some?)
  {
  }

  /** The newer package's exceptions reaching the older advice are generic 500s: a 402 or
      a 401 loses its status. */
  lemma ForeignGraphExceptionIs500(e: Raised, now: int)
    ensures Advise(LegacyAdvice, Graph(SharedPackage, e), now).httpStatus == 500
    ensures Advise(SharedAdvice, Graph(LegacyPackage, e), now).httpStatus == 500
  {
  }

  /** The newer advice never sees exceptions from a plain `@Controller`; the older one does. */
  lemma AdviceScope()
    ensures Applies(LegacyAdvice, false) && !Applies(SharedAdvice, false)
    ensures Applies(SharedAdvice, true)
  {
  }
}

=== FILE: form_encoding.dfy ===
/**
  `java.net.URLEncoder.encode(s, "UTF-8")` (the application/x-www-form-urlencoded
  encoding of the HTML specification): ASCII letters, digits and `. - * _` are kept,
  a space becomes `+`, and every other character is replaced by the `%XY` escapes of
  its UTF-8 bytes (RFC 3629), with upper-case hexadecimal digits.
*/
module FormEncoding {
  import opened JavaText

  /** Characters URLEncoder leaves untouched. */
  predicate IsUnreserved(c: char) {
    ('a' <= c <= 'z') || ('A' <= c <= 'Z') || ('0' <= c <= '9')
    || c == '.' || c == '-' || c == '*' || c == '_'
  }

  /** The UTF-8 bytes of one Unicode scalar value. */
  function Utf8(c: char): (r: seq<Byte>)
    ensures 1 <= |r| <= 4
  {
    var cp := c as int;
    if cp < 0x80 then [cp]
    else if cp < 0x800 then [0xC0 + cp / 64, 0x80 + cp % 64]
    else if cp < 0x10000 then [0xE0 + cp / 4096, 0x80 + (cp / 64) % 64, 0x80 + cp % 64]
    else [0xF0 + cp / 262144, 0x80 + (cp / 4096) % 64, 0x80 + (cp / 64) % 64, 0x80 + cp % 64]
  }

  function Utf8Encode(s: string): seq<Byte> {
    if s == [] then [] else Utf8(s[0]) + Utf8Encode(s[1..])
  }

  function HexDigit(n: nat): (c: char)
    requires n < 16
    ensures IsUnreserved(c)
  {
    if n < 10 then ('0' as int + n) as char else ('A' as int + n - 10) as char
  }

  function HexValue(c: char): nat {
    if '0' <= c <= '9' then c as int - '0' as int
    else if 'A' <= c <= 'F' then c as int - 'A' as int + 10
    else if 'a' <= c <= 'f' then c as int - 'a' as int + 10
    else 0
  }

  lemma HexRoundTrip(n: nat)
    requires n < 16
    ensures HexValue(HexDigit(n)) == n
  {
  }

  /** `%XY`: one byte as two upper-case hex digits. */
  function Escape(b: Byte): string {
    ['%', HexDigit(b / 16), HexDigit(b % 16)]
  }

  function PercentEscapes(bytes: seq<Byte>): string {
    if bytes == [] then ""
    else Escape(bytes[0]) + PercentEscapes(bytes[1..])
  }

  function EncodeChar(c: char): string {
    if IsUnreserved(c) then [c]
    else if c == ' ' then "+"
    else PercentEscapes(Utf8(c))
  }

  /** `URLEncoder.encode(s, "UTF-8")`. */
  function FormEncode(s: string): string {
    if s == [] then "" else EncodeChar(s[0]) + FormEncode(s[1..])
  }

  /** The alphabet of encoded text. None of the URL delimiters `& = ? # /` belongs to it. */
  predicate IsEncodedChar(c: char) {
    IsUnreserved(c) || c == '+' || c == '%'
  }

  predicate IsEncodedText(s: string) {
    forall k :: 0 <= k < |s| ==> IsEncodedChar(s[k])
  }

  lemma {:induction false} PercentEscapesAlphabet(bytes: seq<Byte>)
    ensures IsEncodedText(PercentEscapes(bytes))
  {
    if bytes != [] {
      PercentEscapesAlphabet(bytes[1..]);
    }
  }

  lemma EncodedConcat(a: string, b: string)
    requires IsEncodedText(a) && IsEncodedText(b)
    ensures IsEncodedText(a + b)
  {
    forall k | 0 <= k < |a + b|
      ensures IsEncodedChar((a + b)[k])
    {
      if k >= |a| {
        assert (a + b)[k] == b[k - |a|];
      }
    }
  }

  lemma {:induction false} FormEncodeText(s: string)
    ensures IsEncodedText(FormEncode(s))
  {
    if s != [] {
      FormEncodeText(s[1..]);
      if !IsUnreserved(s[0]) && s[0] != ' ' {
        PercentEscapesAlphabet(Utf8(s[0]));
      }
      EncodedConcat(EncodeChar(s[0]), FormEncode(s[1..]));
    }
  }

  /** Encoded text never contains a query or path delimiter, whatever the input. */
  lemma FormEncodeAlphabet(s: string)
    ensures IsEncodedText(FormEncode(s))
    ensures '&' !in FormEncode(s) && '=' !in FormEncode(s) && '?' !in FormEncode(s)
    ensures '#' !in FormEncode(s) && '/' !in FormEncode(s)
  {
    FormEncodeText(s);
  }

  /** Text made only of unreserved characters is passed through unchanged. */
  lemma {:induction false} FormEncodeUnreserved(s: string)
    requires forall k :: 0 <= k < |s| ==> IsUnreserved(s[k])
    ensures FormEncode(s) == s
  {
    if s != [] {
      FormEncodeUnreserved(s[1..]);
      assert s == [s[0]] + s[1..];
    }
  }

  /** Reading form-encoded text back into bytes: `%XY` is one byte, `+` is a space and any
      other character stands for its own (ASCII) code. */
  function DecodeBytes(r: string): seq<int>
    decreases |r|
  {
    if r == [] then []
    else if r[0] == '%' && |r| >= 3 then [HexValue(r[1]) * 16 + HexValue(r[2])] + DecodeBytes(r[3..])
    else if r[0] == '+' then [32] + DecodeBytes(r[1..])
    else [r[0] as int] + DecodeBytes(r[1..])
  }

  /** One escape: `%XY` written for byte b reads back as b. */
  lemma DecodeEscape(b: Byte, tail: string)
    ensures DecodeBytes(Escape(b) + tail) == [b] + DecodeBytes(tail)
  {
    var r := Escape(b) + tail;
    HexRoundTrip(b / 16);
    HexRoundTrip(b % 16);
    assert r[0] == '%' && r[1] == HexDigit(b / 16) && r[2] == HexDigit(b % 16);
    assert r[3..] == tail;
  }

  /** Peeling the first escape off an escaped byte string. */
  lemma PercentEscapesCons(bytes: seq<Byte>, rest: string)
    requires bytes != []
    ensures PercentEscapes(bytes) + rest == Escape(bytes[0]) + (PercentEscapes(bytes[1..]) + rest)
  {
  }

  lemma {:induction false} DecodePercentEscapes(bytes: seq<Byte>, rest: string)
    ensures DecodeBytes(PercentEscapes(bytes) + rest) == bytes + DecodeBytes(rest)
    decreases |bytes|
  {
    if bytes == [] {
      assert PercentEscapes(bytes) + rest == rest;
    } else {
      var tail := PercentEscapes(bytes[1..]) + rest;
      calc {
        DecodeBytes(PercentEscapes(bytes) + rest);
        == { PercentEscapesCons(bytes, rest); }
        DecodeBytes(Escape(bytes[0]) + tail);
        == { DecodeEscape(bytes[0], tail); }
        [bytes[0]] + DecodeBytes(tail);
        == { DecodePercentEscapes(bytes[1..], rest); }
        [bytes[0]] + (bytes[1..] + DecodeBytes(rest));
        == { assert bytes == [bytes[0]] + bytes[1..]; }
        bytes + DecodeBytes(rest);
      }
    }
  }

  /** Partner of FormEncode: decoding the encoded text yields exactly the UTF-8 bytes of the
      input, so no two different strings share an encoding. */
  lemma {:induction false} DecodeFormEncode(s: string)
    ensures DecodeBytes(FormEncode(s)) == Utf8Encode(s)
  {
    if s != [] {
      var c := s[0];
      DecodeFormEncode(s[1..]);
      var tail := FormEncode(s[1..]);
      assert FormEncode(s) == EncodeChar(c) + tail;
      if IsUnreserved(c) {
        assert ([c] + tail)[1..] == tail;
      } else if c == ' ' {
        assert ("+" + tail)[1..] == tail;
      } else {
        DecodePercentEscapes(Utf8(c), tail);
      }
    }
  }

  lemma FormEncodeExamples()
    ensures FormEncode("a b") == "a+b"
    ensures FormEncode("/") == "%2F"
  {
    assert FormEncode("") == "";
    assert FormEncode("b") == "b";
    assert FormEncode(" b") == "+b";
    assert Utf8('/') == [47];
  }
}

=== FILE: graph_client.dfy ===
/**
  The singleton Graph client cache: `GraphClientService` in the `ms` package (plain-token
  and on-behalf-of clients) and its older single-token version in the `service` package.
  Building the Graph SDK client is opaque; the model keeps which credential it was built from.
*/
module GraphClientCache {
  import opened Wrappers

  /** The credential a GraphServiceClient was built with. A plain-token credential can be
      built around a null token. */
  datatype Client = TokenClient(token: Option<string>) | OboClient(assertion: string)

  /** `ms.service.GraphClientService`: graphClient, currentAccessToken, currentSsoToken. */
  datatype MsCache = MsCache(client: Option<Client>, currentAccessToken: Option<string>, currentSsoToken: Option<string>)

  const Empty := MsCache(None, None, None)

  const NotInitialized := "Graph Client가 초기화되지 않았습니다. 먼저 initializeGraphClient()를 호출하세요."
  const InitFailed := "Graph Client 초기화 실패"
  const OboInitFailed := "Graph Client 초기화 실패 (OBO 방식)"

  predicate IsInitialized(c: MsCache) {
    c.client.Some?
  }

  /** `getGraphClient()`: the client, or a RuntimeException when there is none. */
  function GetGraphClient(c: MsCache): (r: Result<Client, string>)
    ensures r.Ok? <==> IsInitialized(c)
    ensures r.Ok? ==> Some(r.value) == c.client
    ensures r.Err? ==> r.error == NotInitialized
  {
    match c.client
    case Some(client) => Ok(client)
    case None => Err(NotInitialized)
  }

  /** `initializeGraphClient(accessToken)`. With a client present the token is compared with
      `accessToken.equals(...)`, so a null token throws there (wrapped as a RuntimeException);
      with no client present a null token is accepted. currentSsoToken is left as it was. */
  function InitToken(c: MsCache, token: Option<string>): (r: Result<MsCache, string>)
    ensures c.client.Some? && token.None? ==> r == Err(InitFailed)
    ensures c.client.Some? && token.Some? && token == c.currentAccessToken ==> r == Ok(c)
    ensures r.Ok? && r.value != c ==>
      r.value == MsCache(Some(TokenClient(token)), token, c.currentSsoToken)
    ensures c.client.None? ==> r.Ok? && IsInitialized(r.value)
    ensures c.client.None? || (token.Some? && token != c.currentAccessToken) ==>
      r == Ok(MsCache(Some(TokenClient(token)), token, c.currentSsoToken))
  {
    if c.client.Some? && token.None? then Err(InitFailed)
    else if c.client.Some? && token == c.currentAccessToken then Ok(c)
    else Ok(MsCache(Some(TokenClient(token)), token, c.currentSsoToken))
  }

  /** `initializeGraphClientWithSSO(ssoToken)`: skipped when a client is present and the
      same SSO token was used last; otherwise an on-behalf-of client replaces whatever was
      there and currentAccessToken is cleared. `credentialBuilds` is false when the
      OnBehalfOfCredential builder rejects the configured client id, secret or tenant. */
  function InitSso(c: MsCache, ssoToken: string, credentialBuilds: bool): (r: Result<MsCache, string>)
    ensures c.client.Some? && c.currentSsoToken == Some(ssoToken) ==> r == Ok(c)
    ensures r.Err? <==> !credentialBuilds && !(c.client.Some? && c.currentSsoToken == Some(ssoToken))
    ensures r.Err? ==> r.error == OboInitFailed
    ensures r.Ok? && r.value != c ==> r.value == MsCache(Some(OboClient(ssoToken)), None, Some(ssoToken))
    ensures credentialBuilds && !(c.client.Some? && c.currentSsoToken == Some(ssoToken)) ==>
      r == Ok(MsCache(Some(OboClient(ssoToken)), None, Some(ssoToken)))
  {
    if c.client.Some? && c.currentSsoToken == Some(ssoToken) then Ok(c)
    else if !credentialBuilds then Err(OboInitFailed)
    else Ok(MsCache(Some(OboClient(ssoToken)), None, Some(ssoToken)))
  }

  /** `reset()`. */
  function Reset(c: MsCache): (r: MsCache)
    ensures !IsInitialized(r) && r.currentAccessToken.None? && r.currentSsoToken.None?
  {
    Empty
  }

  /** What every reachable cache satisfies: no tokens without a client, a plain-token client
      matches currentAccessToken, an on-behalf-of client matches currentSsoToken and leaves
      currentAccessToken null. */
  predicate Consistent(c: MsCache) {
    match c.client
    case None => c.currentAccessToken.None? && c.currentSsoToken.None?
    case Some(TokenClient(t)) => c.currentAccessToken == t
    case Some(OboClient(a)) => c.currentSsoToken == Some(a) && c.currentAccessToken.None?
  }

  lemma ConsistentPreserved(c: MsCache, token: Option<string>, ssoToken: string, builds: bool)
    requires Consistent(c)
    ensures Consistent(Empty)
    ensures InitToken(c, token).Ok? ==> Consistent(InitToken(c, token).value)
    ensures InitSso(c, ssoToken, builds).Ok? ==> Consistent(InitSso(c, ssoToken, builds).value)
    ensures Consistent(Reset(c))
  {
  }

  /** Initialising twice with the same non-null token is the same as once. */
  lemma InitTokenIdempotent(c: MsCache, token: string)
    requires Consistent(c)
    ensures InitToken(c, Some(token)).Ok?
    ensures InitToken(InitToken(c, Some(token)).value, Some(token)) == InitToken(c, Some(token))
  {
  }

  lemma InitSsoIdempotent(c: MsCache, ssoToken: string)
    ensures InitSso(c, ssoToken, true).Ok?
    ensures InitSso(InitSso(c, ssoToken, true).value, ssoToken, true) == InitSso(c, ssoToken, true)
  {
  }

  /** A null token is accepted on an empty cache and then breaks the next call with null:
      the first call installs a client, the second reaches `accessToken.equals`. */
  lemma NullTokenTwice()
    ensures InitToken(Empty, None).Ok?
    ensures InitToken(InitToken(Empty, None).value, None) == Err(InitFailed)
  {
  }

  /** After an SSO login, a plain-token initialisation keeps currentSsoToken, so repeating
      the SSO initialisation with the same token is skipped and the plain-token client stays. */
  lemma StaleSsoTokenKeepsPlainClient(ssoToken: string, accessToken: string)
    ensures InitSso(Empty, ssoToken, true).Ok?
    ensures InitToken(InitSso(Empty, ssoToken, true).value, Some(accessToken)).Ok?
    ensures
      var afterToken := InitToken(InitSso(Empty, ssoToken, true).value, Some(accessToken)).value;
      InitSso(afterToken, ssoToken, true) == Ok(afterToken)
      && afterToken.client == Some(TokenClient(Some(accessToken)))
  {
  }

  // ---------------------------------------------------------------- service package

  /** `service.GraphClientService`: graphClient and currentAccessToken only. */
  datatype LegacyCache = LegacyCache(client: Option<Client>, currentAccessToken: Option<string>)

  function LegacyGetGraphClient(c: LegacyCache): (r: Result<Client, string>)
    ensures r.Ok? <==> c.client.Some?
    ensures r.Ok? ==> Some(r.value) == c.client
  {
    match c.client
    case Some(client) => Ok(client)
    case None => Err(NotInitialized)
  }

  function LegacyInitToken(c: LegacyCache, token: Option<string>): (r: Result<LegacyCache, string>)
    ensures c.client.Some? && token.None? ==> r == Err(InitFailed)
    ensures c.client.Some? && token.Some? && token == c.currentAccessToken ==> r == Ok(c)
    ensures r.Ok? && r.value != c ==> r.value == LegacyCache(Some(TokenClient(token)), token)
    ensures c.client.None? || (token.Some? && token != c.currentAccessToken) ==>
      r == Ok(LegacyCache(Some(TokenClient(token)), token))
  {
    if c.client.Some? && token.None? then Err(InitFailed)
    else if c.client.Some? && token == c.currentAccessToken then Ok(c)
    else Ok(LegacyCache(Some(TokenClient(token)), token))
  }

  function LegacyReset(c: LegacyCache): (r: LegacyCache)
    ensures r.client.None? && r.currentAccessToken.None?
  {
    LegacyCache(None, None)
  }

  /** The older cache is the newer one with the SSO field dropped. */
  function Project(c: MsCache): LegacyCache {
    LegacyCache(c.client, c.currentAccessToken)
  }

  /** Partner of LegacyInitToken and LegacyReset: on plain tokens the two services behave
      alike, step for step. */
  lemma LegacyRefinesMs(c: MsCache, token: Option<string>)
    ensures LegacyInitToken(Project(c), token).Ok? == InitToken(c, token).Ok?
    ensures InitToken(c, token).Ok? ==> LegacyInitToken(Project(c), token).value == Project(InitToken(c, token).value)
    ensures LegacyReset(Project(c)) == Project(Reset(c))
    ensures LegacyGetGraphClient(Project(c)) == GetGraphClient(c)
  {
  }
}

=== FILE: graph_errors.dfy ===
/**
  Classification of Microsoft Graph failures into the application's exceptions: the two
  `GraphApiErrorHandler` components (the older `util` one and the newer `ms.util` one) and
  the `GraphApiException` record they raise. Every handler either raises one exception or,
  in the newer ODataError case, returns normally.
*/
module GraphErrors {
  import opened Wrappers
  import opened JavaText

  /** The exceptions the handlers raise. A GraphApiException carries an HTTP-like status
      code and an optional Graph error code. The cause is kept by Java but read by nobody. */
  datatype Raised =
    | Unauthorized(message: string)
    | Forbidden(message: string)
    | GraphApi(message: string, statusCode: int, errorCode: Option<string>)

  // ---------------------------------------------------------------------
  // GraphApiException

  /** `new GraphApiException(message, statusCode)` and `(message, statusCode, cause)`. */
  function NewGraphApiException(message: string, statusCode: int): (r: Raised)
    ensures r.GraphApi? && GetMessage(r) == message
    ensures GetStatusCode(r) == statusCode && GetErrorCode(r).None?
  {
    GraphApi(message, statusCode, None)
  }

  /** `new GraphApiException(message, statusCode, errorCode)` and
      `(message, statusCode, errorCode, cause)`. */
  function NewGraphApiExceptionWithCode(message: string, statusCode: int, errorCode: Option<string>): (r: Raised)
    ensures r.GraphApi? && GetMessage(r) == message
    ensures GetStatusCode(r) == statusCode && GetErrorCode(r) == errorCode
  {
    GraphApi(message, statusCode, errorCode)
  }

  function GetMessage(e: Raised): string {
    e.message
  }

  function GetStatusCode(e: Raised): int
    requires e.GraphApi?
  {
    e.statusCode
  }

  function GetErrorCode(e: Raised): Option<string>
    requires e.GraphApi?
  {
    e.errorCode
  }

  /** The status an exception stands for: 401 and 403 for the two dedicated kinds. */
  function StatusOf(e: Raised): int {
    match e
    case Unauthorized(_) => 401
    case Forbidden(_) => 403
    case GraphApi(_, s, _) => s
  }

  // ---------------------------------------------------------------------
  // What the Graph SDK throws

  /** The `error` object of an OData error body. */
  datatype MainError = MainError(code: Option<string>, message: Option<string>)

  /** An `ODataError`: its own message, the parsed error object and the response status. */
  datatype ODataError = ODataError(message: Option<string>, error: Option<MainError>, status: Option<int>)

  /** A Kiota `ApiException`: status, message and the message of its cause, if any. */
  datatype ApiError = ApiError(status: int, message: Option<string>, causeMessage: Option<string>)

  /** The three shapes `handle` tells apart. */
  datatype GraphFailure = OData(odata: ODataError) | Api(api: ApiError) | Other(otherMessage: Option<string>)

  const Failed := " 실패: "
  const AuthFailed := "인증 실패 (401): "
  const AccessDenied := "접근 거부 (403): "
  const NotProvisioned := "Teams 미프로비저닝: "
  const PaymentRequired := "결제 필요 (402): "
  const AuthFailedFixed := "인증 실패 (401): 토큰이 유효하지 않거나 필요한 권한이 없습니다."
  const AccessDeniedFixed := "접근 거부 (403): 권한은 있지만 리소스에 접근할 수 없습니다. 라이선스를 확인하세요."
  const PaymentRequiredFixed := "결제 필요 (402): API 사용을 위한 구독이 필요합니다."

  /** The dedicated status codes; every other one stays a GraphApiException. */
  predicate Dedicated(status: int) {
    status == 401 || status == 402 || status == 403
  }

  /** The 403 message test: Teams not provisioned or no subscription. The error code is
      compared only when the message is non-null. */
  predicate NotProvisionedSignal(errorMessage: Option<string>, errorCode: Option<string>) {
    errorMessage.Some?
    && (Contains(errorMessage.value, "provisioned") || Contains(errorMessage.value, "subscription")
        || errorCode == Some("Forbidden"))
  }

  // ---------------------------------------------------------------------
  // util.GraphApiErrorHandler

  /** `handleODataError(e, operation)`: always raises. */
  function LegacyHandleODataError(e: ODataError, operation: string): (r: Raised)
    ensures e.error.None? ==> r == GraphApi(operation + Failed + Show(e.message), 500, None)
    ensures e.error.Some? && e.status.None? ==> r.GraphApi? && r.statusCode == 500 && r.errorCode == e.error.value.code
    ensures r.Unauthorized? <==> e.error.Some? && e.status == Some(401)
    ensures r.Forbidden? <==> e.error.Some? && e.status == Some(403)
    ensures r.Forbidden? ==>
              r.message == (if NotProvisionedSignal(e.error.value.message, e.error.value.code) then NotProvisioned
                            else AccessDenied) + Show(e.error.value.message)
    ensures e.error.Some? && e.status.Some? ==> StatusOf(r) == e.status.value
    ensures r.GraphApi? && e.error.Some? ==> r.errorCode == e.error.value.code
    ensures r.Unauthorized? ==> r.message == AuthFailed + Show(e.error.value.message)
    ensures e.error.Some? && e.status == Some(402) ==>
              r == GraphApi(PaymentRequired + Show(e.error.value.message), 402, e.error.value.code)
    ensures e.error.Some? && (e.status.None? || !Dedicated(e.status.value)) ==>
              r.message == operation + Failed + Show(e.error.value.message)
  {
    match e.error
    case None => GraphApi(operation + Failed + Show(e.message), 500, None)
    case Some(err) =>
      match e.status
      case None => GraphApi(operation + Failed + Show(err.message), 500, err.code)
      case Some(status) =>
        if status == 401 then Unauthorized(AuthFailed + Show(err.message))
        else if status == 403 then
          if NotProvisionedSignal(err.message, err.code) then Forbidden(NotProvisioned + Show(err.message))
          else Forbidden(AccessDenied + Show(err.message))
        else if status == 402 then GraphApi(PaymentRequired + Show(err.message), 402, err.code)
        else GraphApi(operation + Failed + Show(err.message), status, err.code)
  }

  /** A null error message with the code "Forbidden" is not read as a provisioning problem:
      the code is only compared after the null test. */
  lemma ForbiddenCodeNeedsMessage(operation: string, code: Option<string>)
    ensures LegacyHandleODataError(ODataError(None, Some(MainError(code, None)), Some(403)), operation)
            == Forbidden(AccessDenied + "null")
    ensures LegacyHandleODataError(ODataError(None, Some(MainError(Some("Forbidden"), Some(""))), Some(403)), operation)
            == Forbidden(NotProvisioned)
  {
  }

  /** `handleApiException(e, operation)`: fixed messages for the dedicated codes, and never
      an error code. */
  function LegacyHandleApiException(e: ApiError, operation: string): (r: Raised)
    ensures StatusOf(r) == e.status
    ensures r.Unauthorized? <==> e.status == 401
    ensures r.Forbidden? <==> e.status == 403
    ensures r.GraphApi? ==> r.errorCode.None?
    ensures Dedicated(e.status) ==> r.message in {AuthFailedFixed, AccessDeniedFixed, PaymentRequiredFixed}
    ensures e.status == 401 ==> r == Unauthorized(AuthFailedFixed)
    ensures e.status == 403 ==> r == Forbidden(AccessDeniedFixed)
    ensures e.status == 402 ==> r == GraphApi(PaymentRequiredFixed, 402, None)
    ensures !Dedicated(e.status) ==>
              r.message == operation + " 실패 (상태 코드: " + IntToString(e.status) + "): " + Show(e.message)
  {
    if e.status == 401 then Unauthorized(AuthFailedFixed)
    else if e.status == 403 then Forbidden(AccessDeniedFixed)
    else if e.status == 402 then NewGraphApiException(PaymentRequiredFixed, 402)
    else NewGraphApiException(operation + " 실패 (상태 코드: " + IntToString(e.status) + "): " + Show(e.message), e.status)
  }

  /** `handleException(e, operation)`: any other exception is a 500. */
  function HandleOther(message: Option<string>, operation: string): (r: Raised)
    ensures r.GraphApi? && r.statusCode == 500 && r.errorCode.None?
    ensures StartsWith(r.message, operation)
    ensures r.message == operation + Failed + Show(message)
  {
    var m := operation + Failed + Show(message);
    assert m[..|operation|] == operation;
    NewGraphApiException(m, 500)
  }

  /** `handle(e, operation)`: ODataError first (it is itself an ApiException), then
      ApiException, then anything else. Every path raises. */
  function LegacyHandle(f: GraphFailure, operation: string): (r: Raised)
    ensures f.Other? ==> StatusOf(r) == 500 && r.GraphApi?
    ensures f.Api? ==> StatusOf(r) == f.api.status
    ensures f.OData? && f.odata.error.Some? && f.odata.status.Some? ==> StatusOf(r) == f.odata.status.value
    ensures r.Unauthorized? ==> f.OData? || f.Api?
  {
    match f
    case OData(e) => LegacyHandleODataError(e, operation)
    case Api(e) => LegacyHandleApiException(e, operation)
    case Other(m) => HandleOther(m, operation)
  }

  // ---------------------------------------------------------------------
  // ms.util.GraphApiErrorHandler

  /** The parsed `GraphErrorResponse`: an optional `error` with code and message. */
  datatype ErrorResponse = ErrorResponse(error: Option<MainError>)

  /** `handleODataError(e, operation)`: raises only when the error object is missing;
      otherwise it returns normally and the caller carries on. */
  function MsHandleODataError(e: ODataError, operation: string): (r: Option<Raised>)
    ensures r.None? <==> e.error.Some?
    ensures r.Some? ==> r.value.GraphApi? && r.value.statusCode == 500 && r.value.errorCode.None?
    ensures r.Some? ==> r.value.message == operation + Failed + Show(e.message)
  {
    if e.error.None? then Some(NewGraphApiException(operation + Failed + Show(e.message), 500)) else None
  }

  /** Trimmed text that opens with '{' and closes with '}'. */
  predicate LooksLikeJson(s: string) {
    StartsWith(Trim(s), "{") && EndsWith(Trim(s), "}")
  }

  /** `getResponseBody(e)` without the reflective probes: the cause's message if it looks
      like JSON, else the exception's own message if it does, else nothing. */
  function ResponseBody(e: ApiError): (r: Option<string>)
    ensures r.Some? ==> LooksLikeJson(r.value)
    ensures r.Some? ==> r == e.causeMessage || r == e.message
    ensures r.None? <==> !(e.causeMessage.Some? && LooksLikeJson(e.causeMessage.value))
                         && !(e.message.Some? && LooksLikeJson(e.message.value))
    ensures e.causeMessage.Some? && LooksLikeJson(e.causeMessage.value) ==> r == e.causeMessage
  {
    if e.causeMessage.Some? && LooksLikeJson(e.causeMessage.value) then e.causeMessage
    else if e.message.Some? && LooksLikeJson(e.message.value) then e.message
    else None
  }

  /** A JSON-looking text is never empty, so the emptiness test after it never fires. */
  lemma JsonLookingIsNonEmpty(s: string)
    requires LooksLikeJson(s)
    ensures s != ""
  {
  }

  /** `parseErrorResponse(e)`: the body read by the (foreign) Jackson mapper, which
      answers None when it throws. */
  function ParseErrorResponse(e: ApiError, readValue: string -> Option<ErrorResponse>): (r: Option<ErrorResponse>)
    ensures ResponseBody(e).None? ==> r.None?
    ensures ResponseBody(e).Some? ==> r == readValue(ResponseBody(e).value)
  {
    match ResponseBody(e)
    case None => None
    case Some(body) => if body == "" then None else readValue(body)
  }

  /** The error code and message taken from the parsed body, if any. */
  function ParsedError(e: ApiError, readValue: string -> Option<ErrorResponse>): Option<MainError> {
    match ParseErrorResponse(e, readValue)
    case Some(ErrorResponse(Some(err))) => Some(err)
    case _ => None
  }

  /** The message used: the body's `error.message` if non-empty, else `e.getMessage()`. */
  function MsErrorMessage(e: ApiError, readValue: string -> Option<ErrorResponse>): (r: Option<string>)
    ensures ParsedError(e, readValue).Some? && NonEmpty(ParsedError(e, readValue).value.message) ==>
              r == ParsedError(e, readValue).value.message
    ensures !(ParsedError(e, readValue).Some? && NonEmpty(ParsedError(e, readValue).value.message)) ==> r == e.message
  {
    var parsed := ParsedError(e, readValue);
    if parsed.Some? && NonEmpty(parsed.value.message) then parsed.value.message else e.message
  }

  function MsErrorCode(e: ApiError, readValue: string -> Option<ErrorResponse>): Option<string> {
    match ParsedError(e, readValue)
    case Some(err) => err.code
    case None => None
  }

  /** `handleApiException(e, operation)` in the newer handler: the message comes from the
      parsed body when possible, and 402 and the default keep the parsed error code. */
  function MsHandleApiException(e: ApiError, operation: string, readValue: string -> Option<ErrorResponse>): (r: Raised)
    ensures StatusOf(r) == e.status
    ensures r.Unauthorized? <==> e.status == 401
    ensures r.Forbidden? <==> e.status == 403
    ensures r.GraphApi? ==> r.errorCode == MsErrorCode(e, readValue)
    ensures r.Unauthorized? ==> r.message == AuthFailed + Show(MsErrorMessage(e, readValue))
    ensures r.Forbidden? ==> r.message == AccessDenied + Show(MsErrorMessage(e, readValue))
    ensures e.status == 402 ==> r.message == PaymentRequired + Show(MsErrorMessage(e, readValue))
    ensures !Dedicated(e.status) ==> r.message == operation + Failed + Show(MsErrorMessage(e, readValue))
  {
    var message := Show(MsErrorMessage(e, readValue));
    var code := MsErrorCode(e, readValue);
    if e.status == 401 then Unauthorized(AuthFailed + message)
    else if e.status == 403 then Forbidden(AccessDenied + message)
    else if e.status == 402 then NewGraphApiExceptionWithCode(PaymentRequired + message, 402, code)
    else NewGraphApiExceptionWithCode(operation + Failed + message, e.status, code)
  }

  /** With no JSON-looking text anywhere, nothing is parsed: the exception's own message
      and no error code are used. */
  lemma UnparsableBodyUsesMessage(e: ApiError, readValue: string -> Option<ErrorResponse>)
    requires ResponseBody(e).None?
    ensures MsErrorMessage(e, readValue) == e.message
    ensures MsErrorCode(e, readValue).None?
  {
  }

  /** `handle(e, operation)` in the newer handler; None when it returns normally. */
  function MsHandle(f: GraphFailure, operation: string, readValue: string -> Option<ErrorResponse>): (r: Option<Raised>)
    ensures r.None? <==> f.OData? && f.odata.error.Some?
    ensures f.Other? ==> r.Some? && StatusOf(r.value) == 500
    ensures f.Api? ==> r.Some? && StatusOf(r.value) == f.api.status
  {
    match f
    case OData(e) => MsHandleODataError(e, operation)
    case Api(e) => Some(MsHandleApiException(e, operation, readValue))
    case Other(m) => Some(HandleOther(m, operation))
  }

  /** The two handlers agree on the kind and status of every ApiException; only the newer
      one can carry an error code. */
  lemma HandlersAgreeOnApiExceptions(e: ApiError, operation: string, readValue: string -> Option<ErrorResponse>)
    ensures var a := LegacyHandleApiException(e, operation);
            var b := MsHandleApiException(e, operation, readValue);
            a.Unauthorized? == b.Unauthorized? && a.Forbidden? == b.Forbidden? && a.GraphApi? == b.GraphApi?
            && StatusOf(a) == StatusOf(b)
  {
  }

  /** An ODataError with an error object raises in the older handler and falls through in
      the newer one. */
  lemma ODataWithErrorFallsThrough(e: ODataError, operation: string)
    requires e.error.Some?
    ensures MsHandleODataError(e, operation).None?
    ensures e.status.Some? ==> StatusOf(LegacyHandleODataError(e, operation)) == e.status.value
  {
  }
}

=== FILE: java_text.dfy ===
/**
  The java.lang.String operations the repository relies on, written out:
  `contains`, `startsWith`/`endsWith`, `trim`, `isBlank`, `replaceAll("\\s+", "")`,
  `toLowerCase` on ASCII letters, string concatenation with `null`, and
  `split` on a single literal character with Java's trailing-empty-string rule.
*/
module JavaText {
  import opened Wrappers

  /** An octet, as held in a Java byte array (read unsigned). */
  type Byte = b: int | 0 <= b < 256

  predicate StartsWith(s: string, prefix: string) {
    |prefix| <= |s| && s[..|prefix|] == prefix
  }

  predicate EndsWith(s: string, suffix: string) {
    |suffix| <= |s| && s[|s| - |suffix|..] == suffix
  }

  /** A concatenation starts with its left part and ends with its right part. */
  lemma ConcatEnds(a: string, b: string)
    ensures StartsWith(a + b, a) && EndsWith(a + b, b)
  {
    assert (a + b)[..|a|] == a;
    assert (a + b)[|a + b| - |b|..] == b;
  }

  /** t occurs in s starting at index i. */
  predicate OccursAt(s: string, t: string, i: int) {
    0 <= i && i + |t| <= |s| && s[i..i + |t|] == t
  }

  /** `s.contains(t)`: t occurs in s as a contiguous block. */
  predicate Contains(s: string, t: string) {
    exists i :: 0 <= i <= |s| && OccursAt(s, t, i)
  }

  lemma ContainsEmpty(s: string)
    ensures Contains(s, "")
  {
    assert OccursAt(s, "", 0);
  }

  /** A block placed anywhere in a concatenation is contained in it. */
  lemma ContainsMiddle(a: string, t: string, b: string)
    ensures Contains(a + t + b, t)
  {
    var s := a + t + b;
    assert s[|a|..|a| + |t|] == t;
    assert OccursAt(s, t, |a|);
  }

  /** `s.contains(String.valueOf(c))` is membership of the character. */
  lemma ContainsChar(s: string, c: char)
    ensures Contains(s, [c]) <==> c in s
  {
    if c in s {
      var i :| 0 <= i < |s| && s[i] == c;
      assert s[i..i + 1] == [c];
      assert OccursAt(s, [c], i);
    }
    if Contains(s, [c]) {
      var i :| 0 <= i <= |s| && OccursAt(s, [c], i);
      assert s[i..i + 1][0] == s[i];
    }
  }

  /** If t occurs in s, every block of t occurs in s too. */
  lemma ContainsTransitive(s: string, t: string, u: string)
    requires Contains(s, t) && Contains(t, u)
    ensures Contains(s, u)
  {
    var i :| 0 <= i <= |s| && OccursAt(s, t, i);
    var j :| 0 <= j <= |t| && OccursAt(t, u, j);
    assert i + |t| <= |s| && s[i..i + |t|] == t;
    assert j + |u| <= |t| && t[j..j + |u|] == u;
    forall k | 0 <= k < |u|
      ensures s[i + j + k] == u[k]
    {
      assert u[k] == t[j + k];
      assert t[j + k] == s[i + (j + k)];
    }
    assert s[i + j..i + j + |u|] == u;
    assert OccursAt(s, u, i + j);
  }

  /** A needle whose first character never occurs in s is not contained in s. */
  lemma NotContainsMissingChar(s: string, t: string)
    requires |t| > 0 && t[0] !in s
    ensures !Contains(s, t)
  {
    forall i | 0 <= i <= |s|
      ensures !OccursAt(s, t, i)
    {
      if i + |t| <= |s| {
        assert s[i..i + |t|][0] == s[i];
      }
    }
  }

  /** Java's rendering of a possibly-null String in `+` concatenation and `String.format("%s")`. */
  function Show(s: Option<string>): string {
    match s
    case None => "null"
    case Some(v) => v
  }

  /** `s != null && !s.isEmpty()`. */
  predicate NonEmpty(s: Option<string>) {
    s.Some? && s.value != ""
  }

  function DigitChar(d: nat): char
    requires d < 10
  {
    "0123456789"[d]
  }

  /** `Integer.toString(n)`: decimal digits, with a leading '-' for negative values. */
  function IntToString(n: int): (r: string)
    ensures |r| > 0
    decreases if n < 0 then 1 - n else n
  {
    if n < 0 then "-" + NatToString(-n)
    else NatToString(n)
  }

  function NatToString(n: nat): (r: string)
    ensures |r| > 0
    ensures forall k :: 0 <= k < |r| ==> '0' <= r[k] <= '9'
  {
    if n < 10 then [DigitChar(n)]
    else NatToString(n / 10) + [DigitChar(n % 10)]
  }

  // ---------------------------------------------------------------------
  // trim / isBlank / \s removal: three different notions of white space

  /** `String.trim` removes every character whose code is at most U+0020. */
  predicate IsTrimmable(c: char) {
    c <= ' '
  }

  function TrimStart(s: string): (r: string)
    ensures |r| <= |s| && r == s[|s| - |r|..]
    ensures forall k :: 0 <= k < |s| - |r| ==> IsTrimmable(s[k])
    ensures |r| == 0 || !IsTrimmable(r[0])
  {
    if |s| > 0 && IsTrimmable(s[0]) then TrimStart(s[1..]) else s
  }

  function TrimEnd(s: string): (r: string)
    ensures |r| <= |s| && r == s[..|r|]
    ensures forall k :: |r| <= k < |s| ==> IsTrimmable(s[k])
    ensures |r| == 0 || !IsTrimmable(r[|r| - 1])
  {
    if |s| > 0 && IsTrimmable(s[|s| - 1]) then TrimEnd(s[..|s| - 1]) else s
  }

  /** `s.trim()`: the slice of s left after the trimmable characters at both ends. */
  function Trim(s: string): (r: string)
    ensures |r| <= |s|
    ensures |r| == 0 || (!IsTrimmable(r[0]) && !IsTrimmable(r[|r| - 1]))
    ensures exists i, j :: 0 <= i <= j <= |s| && r == s[i..j]
                           && (forall k :: 0 <= k < i ==> IsTrimmable(s[k]))
                           && (forall k :: j <= k < |s| ==> IsTrimmable(s[k]))
  {
    var t := TrimStart(s);
    var r := TrimEnd(t);
    var i := |s| - |t|;
    assert r == s[i..i + |r|];
    r
  }

  /** `Character.isWhitespace`: the separators of Unicode categories Zs, Zl and Zp other than the
      no-break spaces, plus U+0009..U+000D and U+001C..U+001F. */
  predicate IsJavaWhitespace(c: char) {
    || ('\t' <= c <= '\r')
    || ('\U{1C}' <= c <= '\U{1F}')
    || c == ' '
    || c == '\U{1680}'
    || ('\U{2000}' <= c <= '\U{2006}')
    || ('\U{2008}' <= c <= '\U{200A}')
    || c == '\U{2028}' || c == '\U{2029}'
    || c == '\U{205F}' || c == '\U{3000}'
  }

  /** `s.isBlank()`: empty or white space only. */
  predicate IsBlank(s: string) {
    forall k :: 0 <= k < |s| ==> IsJavaWhitespace(s[k])
  }

  /** `s != null && !s.isBlank()`. */
  predicate NonBlank(s: Option<string>) {
    s.Some? && !IsBlank(s.value)
  }

  /** The characters of the regular-expression class `\s`: [ \t\n\x0B\f\r]. */
  predicate IsRegexSpace(c: char) {
    c == ' ' || ('\t' <= c <= '\r')
  }

  /** `s.replaceAll("\\s+", "")`. */
  function RemoveRegexSpace(s: string): (r: string)
    ensures |r| <= |s|
    ensures forall k :: 0 <= k < |r| ==> !IsRegexSpace(r[k])
    ensures forall c :: c in r <==> c in s && !IsRegexSpace(c)
  {
    if s == [] then []
    else if IsRegexSpace(s[0]) then RemoveRegexSpace(s[1..])
    else [s[0]] + RemoveRegexSpace(s[1..])
  }

  /** The removal filters piecewise: it distributes over concatenation... */
  lemma {:induction false} RemoveRegexSpaceConcat(a: string, b: string)
    ensures RemoveRegexSpace(a + b) == RemoveRegexSpace(a) + RemoveRegexSpace(b)
    decreases |a|
  {
    if a != [] {
      assert (a + b)[0] == a[0] && (a + b)[1..] == a[1..] + b;
      RemoveRegexSpaceConcat(a[1..], b);
    } else {
      assert a + b == b;
    }
  }

  /** ...and on one character it drops exactly the `\s` characters, so the result is
      the input's non-space characters in their original order. */
  lemma RemoveRegexSpaceChar(c: char)
    ensures IsRegexSpace(c) ==> RemoveRegexSpace([c]) == ""
    ensures !IsRegexSpace(c) ==> RemoveRegexSpace([c]) == [c]
  {
  }

  /** `s.toLowerCase()` restricted to the ASCII letters A..Z. */
  function ToLowerAscii(s: string): (r: string)
    ensures |r| == |s|
    ensures forall k :: 0 <= k < |s| ==> r[k] == (if 'A' <= s[k] <= 'Z' then (s[k] as int + 32) as char else s[k])
  {
    seq(|s|, k requires 0 <= k < |s| => if 'A' <= s[k] <= 'Z' then (s[k] as int + 32) as char else s[k])
  }

  // ---------------------------------------------------------------------
  // Splitting on one separator character

  /** The blocks of s between occurrences of sep, empty ones included: a string with n
      separators has n + 1 segments. */
  function Segments(s: string, sep: char): (r: seq<string>)
    ensures |r| >= 1
    decreases |s|
  {
    if |s| == 0 then [""] else Push(s[0], Segments(s[1..], sep), sep)
  }

  /** Segments of c + t from those of t: a separator opens a new empty segment, any other
      character joins the first one. */
  function Push(c: char, rest: seq<string>, sep: char): (r: seq<string>)
    requires |rest| >= 1
    ensures |r| >= 1
  {
    if c == sep then [""] + rest else [[c] + rest[0]] + rest[1..]
  }

  /** The segments glued back together with sep. */
  function Join(parts: seq<string>, sep: char): string
    requires |parts| >= 1
  {
    if |parts| == 1 then parts[0]
    else parts[0] + [sep] + Join(parts[1..], sep)
  }

  predicate NoSeparator(parts: seq<string>, sep: char) {
    forall i :: 0 <= i < |parts| ==> sep !in parts[i]
  }

  /** No segment contains the separator. */
  lemma {:induction false} SegmentsNoSeparator(s: string, sep: char)
    ensures NoSeparator(Segments(s, sep), sep)
    decreases |s|
  {
    if |s| > 0 {
      SegmentsNoSeparator(s[1..], sep);
      var rest := Segments(s[1..], sep);
      if s[0] != sep {
        assert sep !in [s[0]] + rest[0];
        assert forall i :: 1 <= i < |rest| ==> sep !in rest[i];
      }
    }
  }

  /** Gluing the segments restores the string. */
  lemma {:induction false} JoinSegments(s: string, sep: char)
    ensures Join(Segments(s, sep), sep) == s
    decreases |s|
  {
    if |s| > 0 {
      var rest := Segments(s[1..], sep);
      JoinSegments(s[1..], sep);
      if s[0] == sep {
        assert Segments(s, sep) == [""] + rest;
        assert ([""] + rest)[1..] == rest;
        assert s == [s[0]] + s[1..];
      } else {
        var r := Segments(s, sep);
        assert r == [[s[0]] + rest[0]] + rest[1..];
        if |rest| == 1 {
          assert Join(r, sep) == [s[0]] + rest[0];
        } else {
          assert r[1..] == rest[1..];
          assert Join(rest, sep) == rest[0] + [sep] + Join(rest[1..], sep);
          assert Join(r, sep) == [s[0]] + rest[0] + [sep] + Join(rest[1..], sep);
        }
        assert s == [s[0]] + s[1..];
      }
    }
  }

  /** A block free of sep is one segment. */
  lemma {:induction false} SegmentsOfPlain(a: string, sep: char)
    requires sep !in a
    ensures Segments(a, sep) == [a]
    decreases |a|
  {
    if |a| > 0 {
      SegmentsOfPlain(a[1..], sep);
      assert a == [a[0]] + a[1..];
    }
  }

  /** A leading sep-free block followed by sep is split off as the first segment. */
  lemma {:induction false} SegmentsOfPrefix(a: string, b: string, sep: char)
    requires sep !in a
    ensures Segments(a + [sep] + b, sep) == [a] + Segments(b, sep)
    decreases |a|
  {
    var s := a + [sep] + b;
    if |a| == 0 {
      assert s == [sep] + b;
      assert s[1..] == b;
    } else {
      assert s[1..] == a[1..] + [sep] + b;
      SegmentsOfPrefix(a[1..], b, sep);
      assert [a[0]] + a[1..] == a;
    }
  }

  lemma SegmentsCons(c: char, t: string, sep: char)
    ensures Segments([c] + t, sep) == Push(c, Segments(t, sep), sep)
  {
    assert ([c] + t)[1..] == t;
  }

  lemma PushAppend(c: char, u: seq<string>, v: seq<string>, sep: char)
    requires |u| >= 1
    ensures Push(c, u + v, sep) == Push(c, u, sep) + v
  {
    if c != sep {
      assert (u + v)[0] == u[0];
      assert (u + v)[1..] == u[1..] + v;
    }
  }

  /** Splitting at a sep placed between two blocks splits each block on its own. */
  lemma {:induction false} SegmentsConcat(a: string, b: string, sep: char)
    ensures Segments(a + [sep] + b, sep) == Segments(a, sep) + Segments(b, sep)
    decreases |a|
  {
    if |a| == 0 {
      assert a + [sep] + b == [sep] + b;
      SegmentsCons(sep, b, sep);
      assert Segments(a, sep) == [""];
    } else {
      var t := a[1..] + [sep] + b;
      assert a + [sep] + b == [a[0]] + t;
      assert a == [a[0]] + a[1..];
      SegmentsConcat(a[1..], b, sep);
      SegmentsCons(a[0], t, sep);
      SegmentsCons(a[0], a[1..], sep);
      PushAppend(a[0], Segments(a[1..], sep), Segments(b, sep), sep);
    }
  }

  /** Splitting a join of sep-free parts gives the parts back. */
  lemma {:induction false} SegmentsOfJoin(parts: seq<string>, sep: char)
    requires |parts| >= 1 && NoSeparator(parts, sep)
    ensures Segments(Join(parts, sep), sep) == parts
    decreases |parts|
  {
    if |parts| == 1 {
      SegmentsOfPlain(parts[0], sep);
    } else {
      SegmentsOfJoin(parts[1..], sep);
      SegmentsOfPrefix(parts[0], Join(parts[1..], sep), sep);
      assert [parts[0]] + parts[1..] == parts;
    }
  }

  /** The longest prefix of parts that does not end in an empty string. */
  function DropTrailingEmpty(parts: seq<string>): (r: seq<string>)
    ensures |r| <= |parts| && r == parts[..|r|]
    ensures |r| == 0 || r[|r| - 1] != ""
    ensures forall i :: |r| <= i < |parts| ==> parts[i] == ""
  {
    if |parts| > 0 && parts[|parts| - 1] == "" then DropTrailingEmpty(parts[..|parts| - 1])
    else parts
  }

  /** `s.split(regex)` where the regex matches exactly the one character sep (for the
      repository, `"\\."`): a string without sep is returned whole, even when empty;
      otherwise the segments are kept with trailing empty strings removed. */
  function JavaSplit(s: string, sep: char): (r: seq<string>)
    ensures NoSeparator(r, sep)
    ensures sep !in s ==> r == [s]
    ensures sep in s ==> r == DropTrailingEmpty(Segments(s, sep))
  {
    SegmentsNoSeparator(s, sep);
    if sep !in s then
      SegmentsOfPlain(s, sep);
      [s]
    else DropTrailingEmpty(Segments(s, sep))
  }

  /** Partner of JavaSplit: sep-free parts whose last part is non-empty (or that are a single
      part) survive a join followed by a split unchanged. */
  lemma JavaSplitOfJoin(parts: seq<string>, sep: char)
    requires |parts| >= 1 && NoSeparator(parts, sep)
    requires |parts| == 1 || parts[|parts| - 1] != ""
    ensures JavaSplit(Join(parts, sep), sep) == parts
  {
    SegmentsOfJoin(parts, sep);
    if |parts| == 1 {
      assert Join(parts, sep) == parts[0];
    } else {
      var s := Join(parts, sep);
      assert s == parts[0] + [sep] + Join(parts[1..], sep);
      assert s[|parts[0]|] == sep;
    }
  }

  /** Java's trailing-empty rule: "a.b." has two parts, "a..b" three, "" one (itself) and
      "..." none. */
  lemma JavaSplitExamples()
    ensures JavaSplit("a.b.", '.') == ["a", "b"]
    ensures JavaSplit("a..b", '.') == ["a", "", "b"]
    ensures JavaSplit("", '.') == [""]
    ensures JavaSplit("...", '.') == []
  {
    SplitTrailingSeparator();
    SplitDoubleSeparator();
    SplitOnlySeparators();
  }

  lemma SplitTrailingSeparator()
    ensures JavaSplit("a.b.", '.') == ["a", "b"]
  {
    SegmentsOfPlain("", '.');
    SegmentsOfPrefix("b", "", '.');
    assert "b." == "b" + ['.'] + "";
    SegmentsOfPrefix("a", "b.", '.');
    assert "a.b." == "a" + ['.'] + "b.";
    assert Segments("a.b.", '.') == ["a", "b", ""];
    assert "a.b."[1] == '.';
  }

  lemma SplitDoubleSeparator()
    ensures JavaSplit("a..b", '.') == ["a", "", "b"]
  {
    SegmentsOfPlain("b", '.');
    SegmentsOfPrefix("", "b", '.');
    assert ".b" == "" + ['.'] + "b";
    SegmentsOfPrefix("a", ".b", '.');
    assert "a..b" == "a" + ['.'] + ".b";
    assert Segments("a..b", '.') == ["a", "", "b"];
    assert "a..b"[1] == '.';
  }

  lemma SplitOnlySeparators()
    ensures JavaSplit("...", '.') == []
  {
    SegmentsOfPlain("", '.');
    SegmentsOfPrefix("", "", '.');
    assert "." == "" + ['.'] + "";
    SegmentsOfPrefix("", ".", '.');
    assert ".." == "" + ['.'] + ".";
    SegmentsOfPrefix("", "..", '.');
    assert "..." == "" + ['.'] + "..";
    assert Segments("...", '.') == ["", "", "", ""];
    assert "..."[0] == '.';
  }

  /** The first segment of a string cut at the first sep (the whole string when there is none). */
  function TakeUntil(s: string, sep: char): (r: string)
    ensures sep !in r
    ensures StartsWith(s, r)
  {
    if |s| == 0 || s[0] == sep then ""
    else [s[0]] + TakeUntil(s[1..], sep)
  }

  /** Everything after the first sep, or "" when there is none. */
  function AfterFirst(s: string, sep: char): string
  {
    if |s| == 0 then ""
    else if s[0] == sep then s[1..]
    else AfterFirst(s[1..], sep)
  }

  /** Text appended after the first sep stays after it. */
  lemma {:induction false} AfterFirstAppend(s: string, t: string, sep: char)
    requires sep in s
    ensures AfterFirst(s + t, sep) == AfterFirst(s, sep) + t
    decreases |s|
  {
    assert (s + t)[0] == s[0];
    if s[0] == sep {
      assert (s + t)[1..] == s[1..] + t;
    } else {
      assert (s + t)[1..] == s[1..] + t;
      assert sep in s[1..];
      AfterFirstAppend(s[1..], t, sep);
    }
  }

  /** Reading up to the separator recovers a sep-free leading block. */
  lemma {:induction false} TakeUntilOfPrefix(a: string, b: string, sep: char)
    requires sep !in a
    ensures TakeUntil(a + [sep] + b, sep) == a
    ensures AfterFirst(a + [sep] + b, sep) == b
    decreases |a|
  {
    var s := a + [sep] + b;
    if |a| == 0 {
      assert s == [sep] + b;
    } else {
      assert s[1..] == a[1..] + [sep] + b;
      TakeUntilOfPrefix(a[1..], b, sep);
      assert [a[0]] + a[1..] == a;
    }
  }
}

=== FILE: json_claims.dfy ===
/**
  Bearer-token payloads. A token is read as a JWS Compact Serialization
  (section 7.1 of RFC 7515): `split("\\.")` must give exactly three parts, the middle one
  is base64url-decoded (section 5 of RFC 4648), read as UTF-8 and parsed by org.json into a
  claim set. Decoding, UTF-8 reading, parsing and org.json's `toString` are foreign and are
  passed in as a Codec.
*/
module Json {
  import opened Wrappers
  import opened JavaText

  /** A claim value as a Java program sees it after parsing. JSON arrays come in two
      run-time classes: org.json's `JSONArray` (JArray), which is NOT a `java.util.List`,
      and a `java.util.List` (JList), which org.json itself never produces. */
  datatype JsonValue =
    | JNull
    | JBool(b: bool)
    | JNumber(literal: string)
    | JString(s: string)
    | JArray(items: seq<JsonValue>)
    | JList(items: seq<JsonValue>)
    | JObject(keys: seq<string>, values: seq<JsonValue>)

  /** A parsed `JSONObject`: `has(k)` is `k in claims`, also when the value is JSON null. */
  type Claims = map<string, JsonValue>

  datatype Codec = Codec(
    base64UrlDecode: string -> Result<seq<Byte>, string>,
    utf8Decode: seq<Byte> -> string,
    parseObject: string -> Result<Claims, string>,
    render: JsonValue -> string)

  /** `Object.toString()` of a claim value: a string renders as itself. */
  function ToJavaString(v: JsonValue, codec: Codec): (r: string)
    ensures v.JString? ==> r == v.s
  {
    if v.JString? then v.s else codec.render(v)
  }

  /** `JSONObject.optString(key, default)`: the default for a missing key or JSON null,
      otherwise the value's string form. */
  function OptString(claims: Claims, key: string, default: string, codec: Codec): (r: string)
    ensures key !in claims || claims[key] == JNull ==> r == default
    ensures key in claims && claims[key].JString? ==> r == claims[key].s
  {
    if key !in claims || claims[key] == JNull then default else ToJavaString(claims[key], codec)
  }

  /** `JSONObject.getString(key)`: throws unless the value is a string. */
  function GetString(claims: Claims, key: string): (r: Result<string, string>)
    ensures r.Ok? <==> key in claims && claims[key].JString?
    ensures r.Ok? ==> r.value == claims[key].s
  {
    if key !in claims then Err("JSONObject[\"" + key + "\"] not found.")
    else if claims[key].JString? then Ok(claims[key].s)
    else Err("JSONObject[\"" + key + "\"] is not a string.")
  }

  /** No `java.util.List` anywhere inside the value. */
  predicate NoList(v: JsonValue) {
    match v
    case JList(_) => false
    case JArray(items) => forall i :: 0 <= i < |items| ==> NoList(items[i])
    case JObject(_, values) => forall i :: 0 <= i < |values| ==> NoList(values[i])
    case _ => true
  }

  predicate ClaimsNoList(claims: Claims) {
    forall k :: k in claims ==> NoList(claims[k])
  }

  /** The codec parses like org.json: every array is a `JSONArray`. */
  ghost predicate OrgJsonShaped(codec: Codec) {
    forall text :: codec.parseObject(text).Ok? ==> ClaimsNoList(codec.parseObject(text).value)
  }

  /** The token's segments glued as `header.payload.signature`. */
  function Compact(header: string, payload: string, signature: string): string {
    header + "." + payload + "." + signature
  }

  datatype PayloadError = MalformedToken | PayloadFailure(message: string)

  /** Base64url-decode a segment, read it as UTF-8 and parse the JSON object. */
  function ReadClaims(segment: string, codec: Codec): (r: Result<Claims, string>)
    ensures r.Ok? ==> codec.base64UrlDecode(segment).Ok?
  {
    var bytes :- codec.base64UrlDecode(segment);
    codec.parseObject(codec.utf8Decode(bytes))
  }

  /** The payload claims of a token, or why they cannot be read. */
  function DecodePayload(token: string, codec: Codec): (r: Result<Claims, PayloadError>)
    ensures r == Err(MalformedToken) <==> |JavaSplit(token, '.')| != 3
    ensures r.Ok? ==> ReadClaims(JavaSplit(token, '.')[1], codec) == Ok(r.value)
  {
    var parts := JavaSplit(token, '.');
    if |parts| != 3 then Err(MalformedToken)
    else
      match ReadClaims(parts[1], codec)
      case Ok(claims) => Ok(claims)
      case Err(message) => Err(PayloadFailure(message))
  }

  lemma CompactIsJoin(h: string, p: string, s: string)
    ensures Compact(h, p, s) == Join([h, p, s], '.')
  {
    assert [h, p, s][1..] == [p, s];
    assert [p, s][1..] == [s];
    assert Join([p, s], '.') == p + "." + s;
    assert h + "." + (p + "." + s) == h + "." + p + "." + s;
  }

  /** A signed compact token splits back into its three segments. */
  lemma CompactSplit(h: string, p: string, s: string)
    requires '.' !in h && '.' !in p && '.' !in s
    requires s != ""
    ensures JavaSplit(Compact(h, p, s), '.') == [h, p, s]
  {
    CompactIsJoin(h, p, s);
    JavaSplitOfJoin([h, p, s], '.');
  }

  /** Partner of DecodePayload: the claims of a signed compact token are the claims read from
      its payload segment, and the payload error is the reader's error. */
  lemma DecodeCompact(h: string, p: string, s: string, codec: Codec)
    requires '.' !in h && '.' !in p && '.' !in s
    requires s != ""
    ensures ReadClaims(p, codec).Ok? ==> DecodePayload(Compact(h, p, s), codec) == Ok(ReadClaims(p, codec).value)
    ensures ReadClaims(p, codec).Err? ==> DecodePayload(Compact(h, p, s), codec) == Err(PayloadFailure(ReadClaims(p, codec).error))
  {
    CompactSplit(h, p, s);
  }

  /** An unsecured JWS (empty signature, section 6 of RFC 7515) loses its trailing empty
      segment to `split` and is rejected as malformed. */
  lemma UnsecuredIsMalformed(h: string, p: string, codec: Codec)
    requires '.' !in h && '.' !in p
    ensures DecodePayload(Compact(h, p, ""), codec) == Err(MalformedToken)
  {
    var t := Compact(h, p, "");
    CompactIsJoin(h, p, "");
    SegmentsOfJoin([h, p, ""], '.');
    assert t[|h|] == '.';
    var r := JavaSplit(t, '.');
    assert r == DropTrailingEmpty([h, p, ""]);
  }
}

=== FILE: pem.dfy ===
/**
  PEM reading in `SamlService` (`loadCertificate`, `loadPrivateKey`, `loadCredential`): a line
  scanner that collects the trimmed, non-empty lines between a BEGIN line and the first END
  line (the textual encoding of section 2 of RFC 7468, read leniently), then white-space
  removal, Base64 decoding and parsing. The decoder and the X.509 / PKCS#8 parsers are
  parameters; the file is given as the lines `Scanner.nextLine` yields.
*/
module Pem {
  import opened Wrappers
  import opened JavaText

  datatype PemKind = CertificatePem | PrivateKeyPem

  /** The opening test: a BEGIN marker anywhere in the trimmed line. */
  predicate IsBegin(kind: PemKind, line: string) {
    match kind
    case CertificatePem => Contains(line, "BEGIN CERTIFICATE")
    case PrivateKeyPem => Contains(line, "BEGIN PRIVATE KEY") || Contains(line, "BEGIN RSA PRIVATE KEY")
  }

  /** The closing test, made only when the opening test failed. */
  predicate IsEnd(kind: PemKind, line: string) {
    match kind
    case CertificatePem => Contains(line, "END CERTIFICATE")
    case PrivateKeyPem => Contains(line, "END PRIVATE KEY") || Contains(line, "END RSA PRIVATE KEY")
  }

  /** The line trimming and the two line tests of one scanner, kept as values so that the
      scan can be reasoned about without unfolding `trim()` or the marker texts. */
  datatype Markers = Markers(trim: string -> string, opens: string -> bool, closes: string -> bool)

  function MarkersOf(kind: PemKind): (m: Markers)
    ensures forall line :: m.trim(line) == Trim(line)
    ensures forall line :: m.opens(line) == IsBegin(kind, line) && m.closes(line) == IsEnd(kind, line)
  {
    Markers((line: string) => Trim(line), (line: string) => IsBegin(kind, line), (line: string) => IsEnd(kind, line))
  }

  /** The scanner trims as `String.trim()` does. */
  ghost predicate TrimsLikeJava(m: Markers) {
    forall line :: m.trim(line) == Trim(line)
  }

  /** A line that neither opens nor closes the block. */
  predicate Plain(m: Markers, line: string) {
    !m.opens(m.trim(line)) && !m.closes(m.trim(line))
  }

  /** The text the scanner appends from `lines` on, given whether the block is open. A
      BEGIN line (re)opens the block, an END line stops the scan. */
  function Collect(m: Markers, lines: seq<string>, inBlock: bool): string
    decreases |lines|
  {
    if |lines| == 0 then ""
    else
      var line := m.trim(lines[0]);
      if m.opens(line) then Collect(m, lines[1..], true)
      else if m.closes(line) then ""
      else (if inBlock && line != "" then line else "") + Collect(m, lines[1..], inBlock)
  }

  /** One step of the scan: the first line decides, the rest is scanned on. */
  lemma CollectStep(m: Markers, lines: seq<string>, i: nat, inBlock: bool)
    requires i < |lines|
    ensures m.opens(m.trim(lines[i])) ==> Collect(m, lines[i..], inBlock) == Collect(m, lines[i + 1..], true)
    ensures !m.opens(m.trim(lines[i])) && m.closes(m.trim(lines[i])) ==> Collect(m, lines[i..], inBlock) == ""
    ensures !m.opens(m.trim(lines[i])) && !m.closes(m.trim(lines[i])) ==>
              Collect(m, lines[i..], inBlock)
              == (if inBlock && m.trim(lines[i]) != "" then m.trim(lines[i]) else "") + Collect(m, lines[i + 1..], inBlock)
  {
    assert lines[i..][0] == lines[i] && lines[i..][1..] == lines[i + 1..];
  }

  /** The `while (scanner.hasNextLine())` loop of `loadCertificate` and `loadPrivateKey`. */
  method ScanBody(m: Markers, lines: seq<string>) returns (content: string)
    ensures content == Collect(m, lines, false)
  {
    content := "";
    var inBlock := false;
    var i := 0;
    while i < |lines|
      invariant 0 <= i <= |lines|
      invariant content + Collect(m, lines[i..], inBlock) == Collect(m, lines, false)
    {
      CollectStep(m, lines, i, inBlock);
      var line := m.trim(lines[i]);
      if m.opens(line) {
        inBlock := true;
        i := i + 1;
        continue;
      }
      if m.closes(line) {
        break;
      }
      var piece := if inBlock && line != "" then line else "";
      content := content + piece;
      i := i + 1;
    }
    if i == |lines| {
      assert lines[i..] == [];
    }
  }

  /** The non-empty trimmed lines, concatenated. */
  function JoinLines(m: Markers, lines: seq<string>): string {
    if |lines| == 0 then "" else (if m.trim(lines[0]) != "" then m.trim(lines[0]) else "") + JoinLines(m, lines[1..])
  }

  lemma {:induction false} SkipPlain(m: Markers, pre: seq<string>, rest: seq<string>)
    requires forall i :: 0 <= i < |pre| ==> Plain(m, pre[i])
    ensures Collect(m, pre + rest, false) == Collect(m, rest, false)
  {
    if |pre| > 0 {
      var all := pre + rest;
      assert all[0] == pre[0];
      assert all[1..] == pre[1..] + rest;
      assert Plain(m, pre[0]);
      assert forall i :: 0 <= i < |pre[1..]| ==> Plain(m, pre[1..][i]) by {
        forall i | 0 <= i < |pre[1..]| ensures Plain(m, pre[1..][i]) {
          assert pre[1..][i] == pre[i + 1];
        }
      }
      SkipPlain(m, pre[1..], rest);
      assert Collect(m, all, false) == Collect(m, all[1..], false);
    } else {
      assert pre + rest == rest;
    }
  }

  lemma {:induction false} TakePlain(m: Markers, mid: seq<string>, rest: seq<string>)
    requires forall i :: 0 <= i < |mid| ==> Plain(m, mid[i])
    ensures Collect(m, mid + rest, true) == JoinLines(m, mid) + Collect(m, rest, true)
  {
    if |mid| > 0 {
      assert (mid + rest)[1..] == mid[1..] + rest;
      TakePlain(m, mid[1..], rest);
    } else {
      assert mid + rest == rest;
    }
  }

  /** Partner of Collect: for a file shaped `pre, BEGIN, mid, END, post` with no markers in
      `pre` or `mid`, the body is exactly the non-empty trimmed lines of `mid`. */
  lemma BodyBetweenMarkers(m: Markers, pre: seq<string>, begin: string, mid: seq<string>, end: string, post: seq<string>)
    requires forall i :: 0 <= i < |pre| ==> Plain(m, pre[i])
    requires m.opens(m.trim(begin))
    requires forall i :: 0 <= i < |mid| ==> Plain(m, mid[i])
    requires !m.opens(m.trim(end)) && m.closes(m.trim(end))
    ensures Collect(m, pre + [begin] + mid + [end] + post, false) == JoinLines(m, mid)
  {
    var tail := [begin] + mid + [end] + post;
    assert pre + [begin] + mid + [end] + post == pre + tail;
    SkipPlain(m, pre, tail);
    assert tail[0] == begin;
    var rest := [end] + post;
    assert tail[1..] == mid + rest;
    assert Collect(m, tail, false) == Collect(m, mid + rest, true);
    TakePlain(m, mid, rest);
    assert rest[0] == end;
    assert Collect(m, rest, true) == "";
    assert JoinLines(m, mid) + "" == JoinLines(m, mid);
  }

  /** An END line before any BEGIN line yields an empty body. */
  lemma EndBeforeBegin(m: Markers, pre: seq<string>, end: string, post: seq<string>)
    requires forall i :: 0 <= i < |pre| ==> Plain(m, pre[i])
    requires !m.opens(m.trim(end)) && m.closes(m.trim(end))
    ensures Collect(m, pre + [end] + post, false) == ""
  {
    var tail := [end] + post;
    assert pre + [end] + post == pre + tail;
    SkipPlain(m, pre, tail);
    assert tail[0] == end;
  }

  /** Every collected character comes from a trimmed, non-empty line, so some character
      survives white-space removal whenever anything was collected. */
  lemma {:induction false} CollectHasVisibleChar(m: Markers, lines: seq<string>, inBlock: bool)
    requires TrimsLikeJava(m)
    requires Collect(m, lines, inBlock) != ""
    ensures exists c :: c in Collect(m, lines, inBlock) && !IsRegexSpace(c)
    decreases |lines|
  {
    var line := m.trim(lines[0]);
    if m.opens(line) {
      CollectHasVisibleChar(m, lines[1..], true);
    } else if inBlock && line != "" {
      assert line == Trim(lines[0]);
      assert line[0] in Collect(m, lines, inBlock);
    } else {
      CollectHasVisibleChar(m, lines[1..], inBlock);
      var c :| c in Collect(m, lines[1..], inBlock) && !IsRegexSpace(c);
      assert c in Collect(m, lines, inBlock);
    }
  }

  /** The white-space check after the scan fires exactly when nothing was collected. */
  lemma EmptyAfterRemovalIff(m: Markers, lines: seq<string>)
    requires TrimsLikeJava(m)
    ensures RemoveRegexSpace(Collect(m, lines, false)) == "" <==> Collect(m, lines, false) == ""
  {
    if Collect(m, lines, false) != "" {
      CollectHasVisibleChar(m, lines, false);
      var c :| c in Collect(m, lines, false) && !IsRegexSpace(c);
      assert c in RemoveRegexSpace(Collect(m, lines, false));
    }
  }

  /** Why loading failed. InvalidBase64 and Unparsable certificates carry a foreign message. */
  datatype PemError = EmptyContent(kind: PemKind) | InvalidBase64 | EmptyDecoded(kind: PemKind) | Unparsable(kind: PemKind)

  /** The fixed texts of the service's own exceptions; None where the library's text is used. */
  function ErrorMessage(e: PemError): Option<string> {
    match e
    case EmptyContent(CertificatePem) => Some("인증서 내용이 비어있습니다. PEM 파일 형식을 확인하세요.")
    case EmptyContent(PrivateKeyPem) => Some("개인 키 내용이 비어있습니다. PEM 파일 형식을 확인하세요.")
    case EmptyDecoded(CertificatePem) => Some("인증서 디코딩 실패: Base64 디코딩 결과가 비어있습니다.")
    case EmptyDecoded(PrivateKeyPem) => Some("개인 키 디코딩 실패: Base64 디코딩 결과가 비어있습니다.")
    case Unparsable(PrivateKeyPem) => Some("개인 키 로드 실패: 지원하지 않는 형식일 수 있습니다.")
    case _ => None
  }

  /** The collected block with every `\s` removed: the text handed to the Base64 decoder. */
  function PemBody(kind: PemKind, lines: seq<string>): string {
    RemoveRegexSpace(Collect(MarkersOf(kind), lines, false))
  }

  /** `loadCertificate` / `loadPrivateKey` after the scan: strip `\s`, refuse an empty body,
      decode, refuse empty bytes, parse. The key parser accepts PKCS#8 only; there is no
      PKCS#1 fallback, whatever the BEGIN line said. */
  function LoadPem<T>(kind: PemKind, lines: seq<string>, decode: string -> Option<seq<Byte>>,
                      parse: seq<Byte> -> Option<T>): (r: Result<T, PemError>)
    ensures r == Err(EmptyContent(kind)) <==> Collect(MarkersOf(kind), lines, false) == ""
    ensures r.Ok? <==> (Collect(MarkersOf(kind), lines, false) != ""
                        && decode(PemBody(kind, lines)).Some?
                        && |decode(PemBody(kind, lines)).value| > 0
                        && parse(decode(PemBody(kind, lines)).value).Some?)
    ensures r.Ok? ==> Some(r.value) == parse(decode(PemBody(kind, lines)).value)
    ensures r.Err? ==> r.error.InvalidBase64? || r.error.kind == kind
    ensures Collect(MarkersOf(kind), lines, false) != "" && decode(PemBody(kind, lines)).None? ==>
              r == Err(InvalidBase64)
    ensures (Collect(MarkersOf(kind), lines, false) != "" && decode(PemBody(kind, lines)).Some?
             && |decode(PemBody(kind, lines)).value| == 0) ==> r == Err(EmptyDecoded(kind))
    ensures (Collect(MarkersOf(kind), lines, false) != "" && decode(PemBody(kind, lines)).Some?
             && |decode(PemBody(kind, lines)).value| > 0 && parse(decode(PemBody(kind, lines)).value).None?) ==>
              r == Err(Unparsable(kind))
  {
    var body := PemBody(kind, lines);
    EmptyAfterRemovalIff(MarkersOf(kind), lines);
    if body == "" then Err(EmptyContent(kind))
    else
      match decode(body)
      case None => Err(InvalidBase64)
      case Some(bytes) =>
        if |bytes| == 0 then Err(EmptyDecoded(kind))
        else
          match parse(bytes)
          case None => Err(Unparsable(kind))
          case Some(v) => Ok(v)
  }

  /** A PKCS#1 body ("BEGIN RSA PRIVATE KEY") opens the block, but bytes the PKCS#8 parser
      rejects are an error. */
  lemma NoPkcs1Fallback<K>(lines: seq<string>, decode: string -> Option<seq<Byte>>, parsePkcs8: seq<Byte> -> Option<K>)
    requires Collect(MarkersOf(PrivateKeyPem), lines, false) != ""
    requires decode(RemoveRegexSpace(Collect(MarkersOf(PrivateKeyPem), lines, false))).Some?
    requires |decode(RemoveRegexSpace(Collect(MarkersOf(PrivateKeyPem), lines, false))).value| > 0
    requires parsePkcs8(decode(RemoveRegexSpace(Collect(MarkersOf(PrivateKeyPem), lines, false))).value).None?
    ensures LoadPem(PrivateKeyPem, lines, decode, parsePkcs8) == Err(Unparsable(PrivateKeyPem))
    ensures ErrorMessage(LoadPem(PrivateKeyPem, lines, decode, parsePkcs8).error).Some?
  {
  }

  /** The resources: None when `resource.exists()` is false. */
  datatype PemFiles = PemFiles(certificate: Option<seq<string>>, privateKey: Option<seq<string>>)

  /** `loadCredential()`: None (Java null) when either file is missing; the certificate is
      loaded, and may fail, before the key file is even looked up. */
  function LoadCredential<C, K>(files: PemFiles, decode: string -> Option<seq<Byte>>,
                               parseX509: seq<Byte> -> Option<C>, parsePkcs8: seq<Byte> -> Option<K>)
    : (r: Result<Option<(C, K)>, PemError>)
    ensures files.certificate.None? ==> r == Ok(None)
    ensures files.certificate.Some? && LoadPem(CertificatePem, files.certificate.value, decode, parseX509).Err? ==>
              r == Err(LoadPem(CertificatePem, files.certificate.value, decode, parseX509).error)
    ensures r.Ok? && r.value.Some? ==>
              files.certificate.Some? && files.privateKey.Some?
              && LoadPem(CertificatePem, files.certificate.value, decode, parseX509) == Ok(r.value.value.0)
              && LoadPem(PrivateKeyPem, files.privateKey.value, decode, parsePkcs8) == Ok(r.value.value.1)
    ensures r == Ok(None) <==>
              files.certificate.None?
              || (LoadPem(CertificatePem, files.certificate.value, decode, parseX509).Ok? && files.privateKey.None?)
  {
    match files.certificate
    case None => Ok(None)
    case Some(certLines) =>
      match LoadPem(CertificatePem, certLines, decode, parseX509)
      case Err(e) => Err(e)
      case Ok(cert) =>
        match files.privateKey
        case None => Ok(None)
        case Some(keyLines) =>
          match LoadPem(PrivateKeyPem, keyLines, decode, parsePkcs8)
          case Err(e) => Err(e)
          case Ok(key) => Ok(Some((cert, key)))
  }
}

=== FILE: saml.dfy ===
/**
  `SamlService` acting as a SAML 2.0 identity provider: the `<Response>` of section 3.3.3 of
  the OASIS SAML 2.0 Core specification with one `<Assertion>`, its bearer
  `<SubjectConfirmationData>` (section 2.4.1.2) and `<AttributeStatement>` (section 2.7.3),
  the best-effort signing step, the serialisation to Base64, and the metadata document.

  OpenSAML marshalling, the XML signer, the X.509 and PKCS#8 parsers and Base64 are
  parameters; so are the four clock readings and the two random UUIDs.
*/
module Saml {
  import opened Wrappers
  import opened JavaText
  import opened FormEncoding
  import opened Pem

  /** The getters of the configuration the service reads (its class is not part of this
      model); the certificate and key files are passed as `PemFiles`. */
  datatype SamlConfig = SamlConfig(entityId: Option<string>, acsUrl: Option<string>, nameIdFormat: Option<string>,
                                   assertionValiditySeconds: int, ssoUrl: Option<string>)

  /** A five-minute assertion validity, in seconds. */
  const FiveMinutes := 300

  const Version20 := "2.0"
  const StatusSuccess := "urn:oasis:names:tc:SAML:2.0:status:Success"
  const BearerMethod := "urn:oasis:names:tc:SAML:2.0:cm:bearer"
  const PasswordProtectedTransport := "urn:oasis:names:tc:SAML:2.0:ac:classes:PasswordProtectedTransport"
  const EmailAddressClaim := "http://schemas.xmlsoap.org/ws/2005/05/identity/claims/emailaddress"
  const NameClaim := "http://schemas.xmlsoap.org/ws/2005/05/identity/claims/name"
  const UriNameFormat := "urn:oasis:names:tc:SAML:2.0:attrname-format:uri"
  const RsaSha256 := "http://www.w3.org/2001/04/xmldsig-more#rsa-sha256"
  const ExclusiveC14n := "http://www.w3.org/2001/10/xml-exc-c14n#"

  /** The four `DateTime.now(DateTimeZone.UTC)` readings, in milliseconds: the Response's
      IssueInstant, the Assertion's IssueInstant, the base of NotOnOrAfter and the
      AuthnInstant. They are separate readings and need not be equal. */
  datatype Clock = Clock(responseIssue: int, assertionIssue: int, confirmationBase: int, authn: int)

  /** The two `UUID.randomUUID()` values, for the Response and the Assertion. */
  datatype Uuids = Uuids(response: string, assertion: string)

  datatype NameId = NameId(value: Option<string>, format: Option<string>)

  datatype ConfirmationData = ConfirmationData(recipient: Option<string>, notOnOrAfter: int, inResponseTo: Option<string>)

  datatype SubjectConfirmation = SubjectConfirmation(confirmationMethod: string, data: ConfirmationData)

  datatype Subject = Subject(nameId: NameId, confirmations: seq<SubjectConfirmation>)

  datatype AuthnStatement = AuthnStatement(authnInstant: int, classRef: string)

  /** An attribute with its `xs:string` values (a null value stays null). */
  datatype Attribute = Attribute(name: string, nameFormat: string, values: seq<Option<string>>)

  /** An enveloped signature; `computed` is false when it was attached but signing failed
      before its value was computed. */
  datatype Signature = Signature(algorithm: string, canonicalization: string, computed: bool)

  datatype Assertion = Assertion(id: string, issueInstant: int, issuer: Option<string>, subject: Subject,
                                 authnStatements: seq<AuthnStatement>, attributeStatements: seq<seq<Attribute>>,
                                 signature: Option<Signature>)

  datatype Response = Response(id: string, version: string, issueInstant: int, destination: Option<string>,
                               inResponseTo: Option<string>, issuer: Option<string>, statusCode: string,
                               assertions: seq<Assertion>)

  /** `"_" + UUID.randomUUID()`: an xs:ID must not start with a digit. */
  function SamlId(uuid: string): (r: string)
    ensures |r| == |uuid| + 1 && r[0] == '_' && r[1..] == uuid
  {
    "_" + uuid
  }

  /** `now.plusSeconds(seconds)` on a millisecond instant. */
  function PlusSeconds(instant: int, seconds: int): (r: int)
    ensures seconds > 0 ==> r > instant
    ensures seconds <= 0 ==> r <= instant
    ensures r - instant == 1000 * seconds
  {
    instant + 1000 * seconds
  }

  // ---------------------------------------------------------------------
  // createAssertion

  /** The two attributes Entra ID reads: the e-mail address claim, then the name claim. */
  function UserAttributes(email: Option<string>, name: Option<string>): (r: seq<Attribute>)
    ensures |r| == 2
    ensures r[0].name == EmailAddressClaim && r[1].name == NameClaim
    ensures forall i :: 0 <= i < 2 ==> r[i].nameFormat == UriNameFormat
    ensures r[0].values == [email] && r[1].values == [name]
  {
    [Attribute(EmailAddressClaim, UriNameFormat, [email]), Attribute(NameClaim, UriNameFormat, [name])]
  }

  /** `createAssertion(userId, email, name, inResponseTo)`; the user id plays no part. */
  function CreateAssertion(config: SamlConfig, email: Option<string>, name: Option<string>,
                           inResponseTo: Option<string>, uuid: string, clock: Clock): (a: Assertion)
    ensures a.id == SamlId(uuid) && a.issuer == config.entityId && a.issueInstant == clock.assertionIssue
    ensures a.subject.nameId == NameId(email, config.nameIdFormat)
    ensures |a.subject.confirmations| == 1
    ensures a.subject.confirmations[0].confirmationMethod == BearerMethod
    ensures a.subject.confirmations[0].data.recipient == config.acsUrl
    ensures a.subject.confirmations[0].data.inResponseTo == inResponseTo
    ensures a.subject.confirmations[0].data.notOnOrAfter
            == PlusSeconds(clock.confirmationBase, config.assertionValiditySeconds)
    ensures a.authnStatements == [AuthnStatement(clock.authn, PasswordProtectedTransport)]
    ensures a.attributeStatements == [UserAttributes(email, name)]
    ensures a.signature.None?
  {
    var data := ConfirmationData(config.acsUrl, PlusSeconds(clock.confirmationBase, config.assertionValiditySeconds),
                                 inResponseTo);
    var subject := Subject(NameId(email, config.nameIdFormat), [SubjectConfirmation(BearerMethod, data)]);
    Assertion(SamlId(uuid), clock.assertionIssue, config.entityId, subject,
              [AuthnStatement(clock.authn, PasswordProtectedTransport)], [UserAttributes(email, name)], None)
  }

  // ---------------------------------------------------------------------
  // What a service provider reads from an assertion: the partners of createAssertion

  /** A bearer confirmation a service provider accepts at `now` for a response to its request
      `requestId` delivered to `acs`: method bearer, matching Recipient and InResponseTo, and
      `now` strictly before NotOnOrAfter. */
  predicate ConfirmsAt(c: SubjectConfirmation, acs: Option<string>, requestId: Option<string>, now: int) {
    c.confirmationMethod == BearerMethod && c.data.recipient == acs && c.data.inResponseTo == requestId
    && now < c.data.notOnOrAfter
  }

  predicate BearerConfirmed(a: Assertion, acs: Option<string>, requestId: Option<string>, now: int) {
    exists i :: 0 <= i < |a.subject.confirmations| && ConfirmsAt(a.subject.confirmations[i], acs, requestId, now)
  }

  /** The values of every attribute called `attrName`, statement by statement. */
  function AttributeValues(statements: seq<seq<Attribute>>, attrName: string): seq<Option<string>>
  {
    if |statements| == 0 then [] else ValuesIn(statements[0], attrName) + AttributeValues(statements[1..], attrName)
  }

  function ValuesIn(attributes: seq<Attribute>, attrName: string): seq<Option<string>>
  {
    if |attributes| == 0 then []
    else (if attributes[0].name == attrName then attributes[0].values else []) + ValuesIn(attributes[1..], attrName)
  }

  /** The assertion is accepted by the service provider that sent the request, at the ACS
      URL, exactly until NotOnOrAfter: the confirmation base plus the validity. */
  lemma AssertionConfirmedIff(config: SamlConfig, email: Option<string>, name: Option<string>,
                              inResponseTo: Option<string>, uuid: string, clock: Clock, now: int)
    ensures BearerConfirmed(CreateAssertion(config, email, name, inResponseTo, uuid, clock), config.acsUrl, inResponseTo, now)
            <==> now < clock.confirmationBase + 1000 * config.assertionValiditySeconds
  {
    var a := CreateAssertion(config, email, name, inResponseTo, uuid, clock);
    if now < clock.confirmationBase + 1000 * config.assertionValiditySeconds {
      assert ConfirmsAt(a.subject.confirmations[0], config.acsUrl, inResponseTo, now);
    }
  }

  /** Another request's id, or another recipient, is never confirmed. */
  lemma AssertionBoundToRequest(config: SamlConfig, email: Option<string>, name: Option<string>,
                                inResponseTo: Option<string>, uuid: string, clock: Clock,
                                acs: Option<string>, requestId: Option<string>, now: int)
    requires acs != config.acsUrl || requestId != inResponseTo
    ensures !BearerConfirmed(CreateAssertion(config, email, name, inResponseTo, uuid, clock), acs, requestId, now)
  {
  }

  /** With a validity of zero seconds or less the assertion is already unusable at the
      instant its NotOnOrAfter was computed from. */
  lemma NonPositiveValidityExpired(config: SamlConfig, email: Option<string>, name: Option<string>,
                                   inResponseTo: Option<string>, uuid: string, clock: Clock)
    requires config.assertionValiditySeconds <= 0
    ensures !BearerConfirmed(CreateAssertion(config, email, name, inResponseTo, uuid, clock), config.acsUrl, inResponseTo,
                             clock.confirmationBase)
  {
    AssertionConfirmedIff(config, email, name, inResponseTo, uuid, clock, clock.confirmationBase);
  }

  /** With a validity of 300 seconds the window is 300 000 ms wide. */
  lemma FiveMinuteConfirmationWindow(config: SamlConfig, email: Option<string>, name: Option<string>,
                                  inResponseTo: Option<string>, uuid: string, clock: Clock)
    requires config.assertionValiditySeconds == FiveMinutes
    ensures var a := CreateAssertion(config, email, name, inResponseTo, uuid, clock);
            BearerConfirmed(a, config.acsUrl, inResponseTo, clock.confirmationBase + 299999)
            && !BearerConfirmed(a, config.acsUrl, inResponseTo, clock.confirmationBase + 300000)
  {
    AssertionConfirmedIff(config, email, name, inResponseTo, uuid, clock, clock.confirmationBase + 299999);
    AssertionConfirmedIff(config, email, name, inResponseTo, uuid, clock, clock.confirmationBase + 300000);
  }

  /** A reader of the attribute statement finds the e-mail under the e-mail address claim
      and the name under the name claim, each exactly once. */
  lemma AttributesReadBack(config: SamlConfig, email: Option<string>, name: Option<string>,
                           inResponseTo: Option<string>, uuid: string, clock: Clock)
    ensures var a := CreateAssertion(config, email, name, inResponseTo, uuid, clock);
            AttributeValues(a.attributeStatements, EmailAddressClaim) == [email]
            && AttributeValues(a.attributeStatements, NameClaim) == [name]
  {
    var attrs := UserAttributes(email, name);
    ClaimNamesDiffer();
    var last := attrs[1..];
    assert |last[1..]| == 0;
    assert ValuesIn(last, EmailAddressClaim) == [];
    assert ValuesIn(last, NameClaim) == [name];
    assert ValuesIn(attrs, EmailAddressClaim) == [email] + ValuesIn(last, EmailAddressClaim);
    assert ValuesIn(attrs, NameClaim) == [] + ValuesIn(last, NameClaim);
    var statements: seq<seq<Attribute>> := [attrs];
    assert |statements[1..]| == 0;
    assert AttributeValues(statements, EmailAddressClaim) == ValuesIn(attrs, EmailAddressClaim) + [];
    assert AttributeValues(statements, NameClaim) == ValuesIn(attrs, NameClaim) + [];
  }

  lemma ClaimNamesDiffer()
    ensures EmailAddressClaim != NameClaim
  {
    assert |EmailAddressClaim| != |NameClaim|;
  }

  // ---------------------------------------------------------------------
  // signAssertion

  /** Why signing gave up; the exception is logged and swallowed by the caller. */
  datatype SignError = CredentialFailed(cause: PemError) | NoCredential | SigningFailed

  /** The assertion after the signing attempt, and the error if there was one. */
  datatype SignAttempt = SignAttempt(assertion: Assertion, error: Option<SignError>)

  /** `signAssertion(assertion)`. The credential is loaded first; a failure or a missing file
      leaves the assertion untouched. Otherwise the signature (RSA-SHA256, exclusive
      canonicalisation) is attached before marshalling and `Signer.signObject`, so when
      either of those fails (`marshalsAndSigns` false) the attached signature has no value. */
  function SignAssertion<C, K>(a: Assertion, credential: Result<Option<(C, K)>, PemError>, marshalsAndSigns: bool)
    : (r: SignAttempt)
    ensures r.error.None? <==> credential.Ok? && credential.value.Some? && marshalsAndSigns
    ensures r.assertion == a.(signature := r.assertion.signature)
    ensures credential.Err? ==> r.assertion == a && r.error == Some(CredentialFailed(credential.error))
    ensures credential == Ok(None) ==> r.assertion == a && r.error == Some(NoCredential)
    ensures credential.Ok? && credential.value.Some? ==>
              r.assertion.signature == Some(Signature(RsaSha256, ExclusiveC14n, marshalsAndSigns))
  {
    match credential
    case Err(e) => SignAttempt(a, Some(CredentialFailed(e)))
    case Ok(None) => SignAttempt(a, Some(NoCredential))
    case Ok(Some(_)) =>
      var attached := a.(signature := Some(Signature(RsaSha256, ExclusiveC14n, false)));
      if marshalsAndSigns then SignAttempt(attached.(signature := Some(Signature(RsaSha256, ExclusiveC14n, true))), None)
      else SignAttempt(attached, Some(SigningFailed))
  }

  // ---------------------------------------------------------------------
  // createSamlResponse

  /** The Response object `createSamlResponse` builds before marshalling; the outcome of
      signing is logged and otherwise ignored. */
  function SamlResponse<C, K>(config: SamlConfig, email: Option<string>, name: Option<string>, inResponseTo: Option<string>,
                              uuids: Uuids, clock: Clock, credential: Result<Option<(C, K)>, PemError>,
                              marshalsAndSigns: bool): (r: Response)
    ensures r.id == SamlId(uuids.response) && r.version == Version20 && r.issueInstant == clock.responseIssue
    ensures r.destination == config.acsUrl && r.inResponseTo == inResponseTo && r.issuer == config.entityId
    ensures r.statusCode == StatusSuccess && |r.assertions| == 1
    ensures r.assertions[0] == SignAssertion(CreateAssertion(config, email, name, inResponseTo, uuids.assertion, clock),
                                             credential, marshalsAndSigns).assertion
  {
    var assertion := CreateAssertion(config, email, name, inResponseTo, uuids.assertion, clock);
    var signed := SignAssertion(assertion, credential, marshalsAndSigns).assertion;
    Response(SamlId(uuids.response), Version20, clock.responseIssue, config.acsUrl, inResponseTo, config.entityId,
             StatusSuccess, [signed])
  }

  /** Both IDs start with "_", both Issuers are the entity id, and InResponseTo and the ACS
      URL appear in the Response and in the bearer confirmation alike. */
  lemma ResponseConsistent<C, K>(config: SamlConfig, email: Option<string>, name: Option<string>,
                                 inResponseTo: Option<string>, uuids: Uuids, clock: Clock,
                                 credential: Result<Option<(C, K)>, PemError>, marshalsAndSigns: bool)
    ensures var r := SamlResponse(config, email, name, inResponseTo, uuids, clock, credential, marshalsAndSigns);
            var a := r.assertions[0];
            r.id[0] == '_' && a.id[0] == '_' && r.issuer == a.issuer == config.entityId
            && r.inResponseTo == a.subject.confirmations[0].data.inResponseTo == inResponseTo
            && r.destination == a.subject.confirmations[0].data.recipient == config.acsUrl
  {
  }

  /** A signing failure of any kind is swallowed: the Response still reports Success with its
      one assertion, which differs from the unsigned one at most in an uncomputed signature. */
  lemma SigningFailureSwallowed<C, K>(config: SamlConfig, email: Option<string>, name: Option<string>,
                                      inResponseTo: Option<string>, uuids: Uuids, clock: Clock,
                                      credential: Result<Option<(C, K)>, PemError>, marshalsAndSigns: bool)
    requires SignAssertion(CreateAssertion(config, email, name, inResponseTo, uuids.assertion, clock),
                           credential, marshalsAndSigns).error.Some?
    ensures var r := SamlResponse(config, email, name, inResponseTo, uuids, clock, credential, marshalsAndSigns);
            r.statusCode == StatusSuccess && |r.assertions| == 1
            && (r.assertions[0].signature.None? || !r.assertions[0].signature.value.computed)
            && r.assertions[0].(signature := None) == CreateAssertion(config, email, name, inResponseTo, uuids.assertion, clock)
  {
  }

  /** The assertion carries a computed signature exactly when both PEM files loaded and the
      signer succeeded. */
  lemma SignedIff<C, K>(config: SamlConfig, email: Option<string>, name: Option<string>,
                        inResponseTo: Option<string>, uuids: Uuids, clock: Clock,
                        credential: Result<Option<(C, K)>, PemError>, marshalsAndSigns: bool)
    ensures var a := SamlResponse(config, email, name, inResponseTo, uuids, clock, credential, marshalsAndSigns).assertions[0];
            (a.signature.Some? && a.signature.value.computed) <==> credential.Ok? && credential.value.Some? && marshalsAndSigns
  {
  }

  /** What OpenSAML and the DOM transformer produce for the Response: one of the service's
      own null checks failing, an exception with its (possibly null) message, or the text
      (possibly null) of the serialised element. */
  datatype Marshalled =
    | NoMarshallerFactory
    | NoMarshaller
    | NullElement
    | Threw(message: Option<string>)
    | Xml(text: Option<string>)

  const FailurePrefix := "SAML Response 생성 실패: "
  const NoFactoryMessage := "MarshallerFactory가 null입니다. OpenSAML이 제대로 초기화되지 않았을 수 있습니다."
  const NoMarshallerMessage := "Response에 대한 Marshaller를 찾을 수 없습니다. Response 타입: "
  const ResponseImplClass := "org.opensaml.saml.saml2.core.impl.ResponseImpl"
  const NullElementMessage := "Marshalling 결과가 null입니다."
  const EmptyXmlMessage := "생성된 SAML XML이 비어있습니다"

  /** The message of the RuntimeException `createSamlResponse` throws: every failure is
      caught and rethrown with the prefix and the cause's message. */
  function Failure(message: Option<string>): (r: string)
    ensures StartsWith(r, FailurePrefix)
    ensures r[|FailurePrefix|..] == Show(message)
  {
    var r := FailurePrefix + Show(message);
    assert r[..|FailurePrefix|] == FailurePrefix;
    r
  }

  /** The serialisation tail of `createSamlResponse`: the null checks, the blank-XML check
      and Base64 of the UTF-8 bytes. */
  function Serialize(m: Marshalled, base64: seq<Byte> -> string): (r: Result<string, string>)
    ensures r.Ok? <==> m.Xml? && m.text.Some? && Trim(m.text.value) != ""
    ensures r.Ok? ==> r.value == base64(Utf8Encode(m.text.value))
    ensures r.Err? ==> StartsWith(r.error, FailurePrefix)
    ensures m.Xml? && (m.text.None? || Trim(m.text.value) == "") ==> r == Err(Failure(Some(EmptyXmlMessage)))
    ensures m.Threw? ==> r == Err(Failure(m.message))
  {
    match m
    case NoMarshallerFactory => Err(Failure(Some(NoFactoryMessage)))
    case NoMarshaller => Err(Failure(Some(NoMarshallerMessage + ResponseImplClass)))
    case NullElement => Err(Failure(Some(NullElementMessage)))
    case Threw(message) => Err(Failure(message))
    case Xml(text) =>
      if text.None? || Trim(text.value) == "" then Err(Failure(Some(EmptyXmlMessage)))
      else Ok(base64(Utf8Encode(text.value)))
  }

  /** `createSamlResponse(userId, email, name, inResponseTo)`: build, sign on a best-effort
      basis, marshal, serialise. */
  function CreateSamlResponse<C, K>(config: SamlConfig, userId: Option<int>, email: Option<string>, name: Option<string>,
                                    inResponseTo: Option<string>, uuids: Uuids, clock: Clock,
                                    credential: Result<Option<(C, K)>, PemError>, marshalsAndSigns: bool,
                                    marshal: Response -> Marshalled, base64: seq<Byte> -> string)
    : (r: Result<string, string>)
    ensures var resp := SamlResponse(config, email, name, inResponseTo, uuids, clock, credential, marshalsAndSigns);
            r.Ok? <==> marshal(resp).Xml? && marshal(resp).text.Some? && Trim(marshal(resp).text.value) != ""
    ensures r.Err? ==> StartsWith(r.error, FailurePrefix)
  {
    Serialize(marshal(SamlResponse(config, email, name, inResponseTo, uuids, clock, credential, marshalsAndSigns)), base64)
  }

  /** The user id is accepted and ignored. */
  lemma UserIdIgnored<C, K>(config: SamlConfig, u1: Option<int>, u2: Option<int>, email: Option<string>,
                            name: Option<string>, inResponseTo: Option<string>, uuids: Uuids, clock: Clock,
                            credential: Result<Option<(C, K)>, PemError>, marshalsAndSigns: bool,
                            marshal: Response -> Marshalled, base64: seq<Byte> -> string)
    ensures CreateSamlResponse(config, u1, email, name, inResponseTo, uuids, clock, credential, marshalsAndSigns, marshal, base64)
            == CreateSamlResponse(config, u2, email, name, inResponseTo, uuids, clock, credential, marshalsAndSigns, marshal, base64)
  {
  }

  /** Partner of Serialize: with a Base64 decoder that inverts the encoder, the returned text
      decodes to the UTF-8 bytes of the marshalled XML. */
  lemma SerializedDecodes(m: Marshalled, base64: seq<Byte> -> string, unbase64: string -> Option<seq<Byte>>)
    requires forall bytes :: unbase64(base64(bytes)) == Some(bytes)
    requires Serialize(m, base64).Ok?
    ensures m.Xml? && m.text.Some?
    ensures unbase64(Serialize(m, base64).value) == Some(Utf8Encode(m.text.value))
  {
  }

  /** Signing with the credential `loadCredential()` yields succeeds only when both PEM files
      exist and load. */
  lemma SignedNeedsBothPemFiles<C, K>(a: Assertion, files: PemFiles, decode: string -> Option<seq<Byte>>,
                                      parseX509: seq<Byte> -> Option<C>, parsePkcs8: seq<Byte> -> Option<K>,
                                      marshalsAndSigns: bool)
    requires SignAssertion(a, LoadCredential(files, decode, parseX509, parsePkcs8), marshalsAndSigns).error.None?
    ensures files.certificate.Some? && LoadPem(CertificatePem, files.certificate.value, decode, parseX509).Ok?
    ensures files.privateKey.Some? && LoadPem(PrivateKeyPem, files.privateKey.value, decode, parsePkcs8).Ok?
  {
  }

  // ---------------------------------------------------------------------
  // generateMetadata

  const MetadataHead := "<?xml version=\"1.0\" encoding=\"UTF-8\"?>\n<EntityDescriptor xmlns=\"urn:oasis:names:tc:SAML:2.0:metadata\" entityID="
  const MetadataMiddle := ">\n  <IDPSSODescriptor protocolSupportEnumeration=\"urn:oasis:names:tc:SAML:2.0:protocol\">\n    <SingleSignOnService Binding=\"urn:oasis:names:tc:SAML:2.0:bindings:HTTP-Redirect\" Location="
  const MetadataTail := "/>\n  </IDPSSODescriptor>\n</EntityDescriptor>"

  /** An attribute value in double quotes. */
  function Quoted(value: string): string {
    ['"'] + value + ['"']
  }

  /** `generateMetadata()`: the entity id and the SSO URL spliced into a fixed document,
      without XML escaping (a null renders as "null"). */
  function GenerateMetadata(config: SamlConfig): string {
    MetadataHead + Quoted(Show(config.entityId)) + MetadataMiddle + Quoted(Show(config.ssoUrl)) + MetadataTail
  }

  /** A reader of the document: the value of the `entityID` attribute, from its opening
      quote up to its closing quote. */
  function MetadataEntityId(xml: string): Option<string> {
    var n := |MetadataHead| + 1;
    if |xml| >= n && xml[..n] == MetadataHead + ['"'] then Some(TakeUntil(xml[n..], '"')) else None
  }

  /** A reader of the document: the `Location` of the SSO service, found after the entity id. */
  function MetadataLocation(xml: string): Option<string> {
    var n := |MetadataHead| + 1;
    if |xml| >= n && xml[..n] == MetadataHead + ['"'] then
      var rest := AfterFirst(xml[n..], '"');
      var m := |MetadataMiddle| + 1;
      if |rest| >= m && rest[..m] == MetadataMiddle + ['"'] then Some(TakeUntil(rest[m..], '"')) else None
    else None
  }

  /** Reading two quoted values back out of `head "v1" mid "v2" tail`. */
  lemma ReadTwoValues(head: string, v1: string, mid: string, v2: string, tail: string)
    ensures var xml := head + Quoted(v1) + mid + Quoted(v2) + tail;
            var n := |head| + 1;
            |xml| >= n && xml[..n] == head + ['"'] && xml[n..] == v1 + ['"'] + (mid + Quoted(v2) + tail)
    ensures '"' !in v1 ==>
              TakeUntil(v1 + ['"'] + (mid + Quoted(v2) + tail), '"') == v1
              && AfterFirst(v1 + ['"'] + (mid + Quoted(v2) + tail), '"') == mid + Quoted(v2) + tail
    ensures var rest := mid + Quoted(v2) + tail;
            var m := |mid| + 1;
            |rest| >= m && rest[..m] == mid + ['"'] && rest[m..] == v2 + ['"'] + tail
    ensures '"' !in v2 ==> TakeUntil(v2 + ['"'] + tail, '"') == v2
  {
    var xml := head + Quoted(v1) + mid + Quoted(v2) + tail;
    assert xml == (head + ['"']) + (v1 + ['"'] + (mid + Quoted(v2) + tail));
    var rest := mid + Quoted(v2) + tail;
    assert rest == (mid + ['"']) + (v2 + ['"'] + tail);
    if '"' !in v1 {
      TakeUntilOfPrefix(v1, mid + Quoted(v2) + tail, '"');
    }
    if '"' !in v2 {
      TakeUntilOfPrefix(v2, tail, '"');
    }
  }

  /** Partner of GenerateMetadata: a reader finds the configured entity id exactly when it
      holds no double quote, and the SSO URL when neither value does. */
  lemma MetadataReadsBack(config: SamlConfig)
    ensures MetadataEntityId(GenerateMetadata(config)) == Some(Show(config.entityId)) <==> '"' !in Show(config.entityId)
    ensures '"' !in Show(config.entityId) && '"' !in Show(config.ssoUrl) ==>
              MetadataLocation(GenerateMetadata(config)) == Some(Show(config.ssoUrl))
  {
    ReadTwoValues(MetadataHead, Show(config.entityId), MetadataMiddle, Show(config.ssoUrl), MetadataTail);
  }
}

=== FILE: session.dfy ===
/**
  The servlet `HttpSession` as the controllers use it: named attributes holding a `Long`
  (userId) or a `String` (everything else), and invalidation.
*/
module HttpSession {
  import opened Wrappers

  datatype Attr = LongAttr(n: int) | TextAttr(s: string)

  /** A live session, or one that `invalidate()` has ended. */
  datatype Session = Live(attrs: map<string, Attr>) | Invalidated

  const UserIdKey := "userId"
  const AccessTokenKey := "accessToken"
  const LoginTypeKey := "loginType"
  const UserEmailKey := "userEmail"
  const UserNameKey := "userName"
  const SsoTokenKey := "ssoToken"
  const UserPrincipalNameKey := "userPrincipalName"
  const MicrosoftUserIdKey := "microsoftUserId"
  const TenantIdKey := "tenantId"

  /** `(String) session.getAttribute(key)`; like every attribute access it needs a live
      session (the servlet API throws IllegalStateException on an invalidated one). */
  function GetText(s: Session, key: string): (r: Option<string>)
    requires s.Live?
    ensures r.Some? <==> s.Live? && key in s.attrs && s.attrs[key].TextAttr?
    ensures r.Some? ==> s.attrs[key] == TextAttr(r.value)
  {
    if s.Live? && key in s.attrs && s.attrs[key].TextAttr? then Some(s.attrs[key].s) else None
  }

  /** `(Long) session.getAttribute(key)`. */
  function GetLong(s: Session, key: string): (r: Option<int>)
    requires s.Live?
    ensures r.Some? <==> s.Live? && key in s.attrs && s.attrs[key].LongAttr?
    ensures r.Some? ==> s.attrs[key] == LongAttr(r.value)
  {
    if s.Live? && key in s.attrs && s.attrs[key].LongAttr? then Some(s.attrs[key].n) else None
  }

  /** `setAttribute(key, value)`; a live session is required, as the servlet API throws
      IllegalStateException on an invalidated one. */
  function Set(s: Session, key: string, value: Attr): (r: Session)
    requires s.Live?
    ensures r.Live? && key in r.attrs && r.attrs[key] == value
    ensures forall k :: k != key ==> (k in r.attrs <==> k in s.attrs)
    ensures forall k :: k != key && k in s.attrs ==> r.attrs[k] == s.attrs[k]
  {
    Live(s.attrs[key := value])
  }

  function SetText(s: Session, key: string, value: string): (r: Session)
    requires s.Live?
    ensures r.Live?
    ensures GetText(r, key) == Some(value)
    ensures forall k :: k != key ==> GetText(r, k) == GetText(s, k) && GetLong(r, k) == GetLong(s, k)
  {
    Set(s, key, TextAttr(value))
  }

  /** `removeAttribute(key)`. */
  function Remove(s: Session, key: string): (r: Session)
    requires s.Live?
    ensures r.Live? && key !in r.attrs
    ensures forall k :: k != key ==> (k in r.attrs <==> k in s.attrs)
    ensures forall k :: k != key && k in s.attrs ==> r.attrs[k] == s.attrs[k]
  {
    Live(s.attrs - {key})
  }
}

=== FILE: session_guards.dfy ===
/**
  The session guards: both `checkAuthentication` versions, the shared `isOAuthLinked`,
  `CommonAuthController.clearMsAuthentication`/`logout`, and the page guards of
  `MainController`. A guard reads the session, may initialise the Graph client cache, and
  answers with a view name (and a flash message) or an exception.
*/
module SessionGuards {
  import opened Wrappers
  import opened JavaText
  import opened Json
  import opened HttpSession
  import opened GraphClientCache
  import ClaimAuthorizer

  /** Why a `checkAuthentication` call throws: UnauthorizedException, or the
      RuntimeException of a failed client initialisation. */
  datatype AuthFailure = Unauthorized(message: string) | InitError(message: string)

  const NotAuthenticated := "인증되지 않은 사용자입니다. 먼저 로그인해주세요."
  const NoOAuthToken := "OAuth 토큰이 없습니다. 다시 로그인해주세요."

  /** The login kinds the controllers write under "loginType". */
  datatype SessionLogin = AppLogin | OAuthLogin | BothLogin | SsoLogin | SamlIdpLogin

  function LoginName(l: SessionLogin): string {
    match l
    case AppLogin => "APP"
    case OAuthLogin => "OAUTH"
    case BothLogin => "BOTH"
    case SsoLogin => "SSO"
    case SamlIdpLogin => "SAML_IDP"
  }

  /** The shared `isOAuthLinked(session)`. */
  predicate IsOAuthLinked(s: Session)
    requires s.Live?
  {
    GetText(s, LoginTypeKey) == Some("OAUTH") || GetText(s, LoginTypeKey) == Some("BOTH")
  }

  /** Distinct login kinds are written as distinct names. */
  lemma LoginNameInjective(a: SessionLogin, b: SessionLogin)
    ensures LoginName(a) == LoginName(b) ==> a == b
  {
  }

  /** Partner of IsOAuthLinked: after a controller writes a login kind, the session counts as
      OAuth-linked exactly for the OAuth and combined logins, not for SSO or SAML. */
  lemma OAuthLinkedAfterLogin(s: Session, l: SessionLogin)
    requires s.Live?
    ensures IsOAuthLinked(SetText(s, LoginTypeKey, LoginName(l))) <==> l == OAuthLogin || l == BothLogin
  {
    assert GetText(SetText(s, LoginTypeKey, LoginName(l)), LoginTypeKey) == Some(LoginName(l));
  }

  /** `graphClientPort.initializeGraphClient(token)`, its failure surfaced as InitError. */
  function InitWith(c: MsCache, token: Option<string>): (r: Result<MsCache, AuthFailure>)
    ensures r.Ok? <==> InitToken(c, token).Ok?
    ensures r.Ok? ==> r.value == InitToken(c, token).value
    ensures r.Err? ==> r.error == InitError(InitToken(c, token).error)
  {
    match InitToken(c, token)
    case Ok(c2) => Ok(c2)
    case Err(m) => Err(InitError(m))
  }

  /** The shared `checkAuthentication(session)`: a token alone is enough; a user id alone is
      enough unless the session says OAuth, in which case the token is required too. */
  function CheckAuthentication(s: Session, c: MsCache): (r: Result<MsCache, AuthFailure>)
    requires s.Live?
    ensures r.Ok? <==> GetText(s, AccessTokenKey).Some? || (GetLong(s, UserIdKey).Some? && !IsOAuthLinked(s))
    ensures r.Err? ==> r.error == Unauthorized(if GetLong(s, UserIdKey).None? then NotAuthenticated else NoOAuthToken)
    ensures GetLong(s, UserIdKey).Some? && !IsOAuthLinked(s) ==> r == Ok(c)
    ensures r.Ok? && (GetLong(s, UserIdKey).None? || IsOAuthLinked(s)) ==>
              IsInitialized(r.value) && r.value.currentAccessToken == GetText(s, AccessTokenKey)
    ensures r.Ok? && Consistent(c) ==> Consistent(r.value)
  {
    var userId := GetLong(s, UserIdKey);
    var accessToken := GetText(s, AccessTokenKey);
    if userId.None? && accessToken.Some? then InitWith(c, accessToken)
    else if userId.None? then Err(Unauthorized(NotAuthenticated))
    else if IsOAuthLinked(s) then
      if accessToken.None? then Err(Unauthorized(NoOAuthToken)) else InitWith(c, accessToken)
    else Ok(c)
  }

  /** A Teams SSO session with a user id is not "OAuth" to the guard, so the stored SSO token
      is not used to (re)build the plain-token client. */
  lemma SsoSessionKeepsCache(s: Session, c: MsCache, userId: int)
    requires s.Live?
    ensures var s2 := Set(SetText(s, LoginTypeKey, LoginName(SsoLogin)), UserIdKey, LongAttr(userId));
            CheckAuthentication(s2, c) == Ok(c)
  {
    var s1 := SetText(s, LoginTypeKey, LoginName(SsoLogin));
    var s2 := Set(s1, UserIdKey, LongAttr(userId));
    assert GetText(s2, LoginTypeKey) == Some("SSO");
    assert GetLong(s2, UserIdKey) == Some(userId);
  }

  /** The older `checkAuthentication(session)`: the token is required, the user id ignored. */
  function LegacyCheckAuthentication(s: Session, c: LegacyCache): (r: Result<LegacyCache, AuthFailure>)
    requires s.Live?
    ensures r.Err? <==> GetText(s, AccessTokenKey).None?
    ensures r.Err? ==> r.error == Unauthorized(NotAuthenticated)
    ensures r.Ok? ==> r.value.client.Some? && r.value.currentAccessToken == GetText(s, AccessTokenKey)
  {
    match GetText(s, AccessTokenKey)
    case None => Err(Unauthorized(NotAuthenticated))
    case Some(token) =>
      match LegacyInitToken(c, Some(token))
      case Ok(c2) => Ok(c2)
      case Err(m) => Err(InitError(m))
  }

  /** The newer guard admits every session the older one admits, and on those it leaves the
      client built from the same token. It also admits app-only sessions without a token. */
  lemma SharedGuardAdmitsMore(s: Session, c: MsCache)
    requires s.Live?
    ensures LegacyCheckAuthentication(s, Project(c)).Ok? ==> CheckAuthentication(s, c).Ok?
    ensures LegacyCheckAuthentication(s, Project(c)).Ok? && (GetLong(s, UserIdKey).None? || IsOAuthLinked(s)) ==>
              Project(CheckAuthentication(s, c).value) == LegacyCheckAuthentication(s, Project(c)).value
    ensures GetText(s, AccessTokenKey).None? && GetLong(s, UserIdKey).Some? && !IsOAuthLinked(s) ==>
              CheckAuthentication(s, c).Ok? && LegacyCheckAuthentication(s, Project(c)).Err?
  {
    if LegacyCheckAuthentication(s, Project(c)).Ok? {
      LegacyRefinesMs(c, GetText(s, AccessTokenKey));
    }
  }

  // ---------------------------------------------------------------------
  // CommonAuthController

  /** `clearMsAuthentication(session, invalidateSession)`: the client is reset only if it
      was initialised; then the whole session is invalidated, or only the token removed. A
      controller always receives a live session. */
  function ClearMsAuthentication(s: Session, c: MsCache, invalidateSession: bool): (r: (Session, MsCache))
    requires s.Live?
    ensures !IsInitialized(c) ==> r.1 == c
    ensures IsInitialized(c) ==> r.1 == Empty
    ensures Consistent(c) ==> r.1 == Empty
    ensures invalidateSession <==> r.0.Invalidated?
    ensures !invalidateSession ==> r.0.Live? && GetText(r.0, AccessTokenKey).None?
    ensures !invalidateSession ==> r.0.Live? && forall k :: k != AccessTokenKey ==> GetText(r.0, k) == GetText(s, k) && GetLong(r.0, k) == GetLong(s, k)
  {
    var c2 := if IsInitialized(c) then Reset(c) else c;
    var s2 := if invalidateSession then Invalidated else Remove(s, AccessTokenKey);
    (s2, c2)
  }

  /** A view name plus the flash attribute set for the redirect target, if any. */
  datatype Page = Page(view: string, flash: Option<(string, string)>)

  const LoggedOut := "로그아웃 되었습니다"
  const LoginFirst := "먼저 로그인해주세요"
  const AdminRequired := "관리자 권한이 필요합니다"
  const LoadFailed := "페이지 로드 실패: "

  /** `logout(session, …)`: always invalidates and redirects home. */
  function Logout(s: Session, c: MsCache): (r: (Page, Session, MsCache))
    requires s.Live?
    ensures r.0 == Page("redirect:/", Some(("success", LoggedOut)))
    ensures r.1 == Invalidated
    ensures !IsInitialized(r.2) && (Consistent(c) ==> r.2 == Empty)
  {
    var (s2, c2) := ClearMsAuthentication(s, c, true);
    (Page("redirect:/", Some(("success", LoggedOut))), s2, c2)
  }

  // ---------------------------------------------------------------------
  // MainController

  /** `checkAuthAndReturnView(session, …, viewName)`: redirect to "/" unless a user id or a
      token is present; with a token the client is initialised first. */
  function CheckAuthAndReturnView(s: Session, c: MsCache, viewName: string): (r: (Page, MsCache))
    requires s.Live?
    ensures GetLong(s, UserIdKey).None? && GetText(s, AccessTokenKey).None? ==>
              r == (Page("redirect:/", Some(("error", LoginFirst))), c)
    ensures GetText(s, AccessTokenKey).None? && GetLong(s, UserIdKey).Some? ==> r == (Page(viewName, None), c)
    ensures GetText(s, AccessTokenKey).Some? && InitToken(c, GetText(s, AccessTokenKey)).Err? ==>
              r.0 == Page("redirect:/", Some(("error", LoadFailed + InitToken(c, GetText(s, AccessTokenKey)).error)))
    ensures r.0.flash.None? ==> r.0.view == viewName && (GetLong(s, UserIdKey).Some? || GetText(s, AccessTokenKey).Some?)
    ensures r.0.flash.None? && GetText(s, AccessTokenKey).Some? ==>
              IsInitialized(r.1) && r.1.currentAccessToken == GetText(s, AccessTokenKey)
  {
    var userId := GetLong(s, UserIdKey);
    var accessToken := GetText(s, AccessTokenKey);
    if userId.None? && accessToken.None? then (Page("redirect:/", Some(("error", LoginFirst))), c)
    else if accessToken.Some? then
      match InitToken(c, accessToken)
      case Err(m) => (Page("redirect:/", Some(("error", LoadFailed + m))), c)
      case Ok(c2) => (Page(viewName, None), c2)
    else (Page(viewName, None), c)
  }

  /** The load-failure redirect is never taken: the token passed in is non-null, and a
      non-null token always initialises. */
  lemma GuardNeverFailsToLoad(s: Session, c: MsCache, viewName: string)
    requires s.Live?
    requires GetLong(s, UserIdKey).Some? || GetText(s, AccessTokenKey).Some?
    ensures CheckAuthAndReturnView(s, c, viewName).0 == Page(viewName, None)
  {
  }

  /** `home(session, …)`: the guard, then the "isAdmin" model attribute, computed only when
      the guard let the request through. */
  function Home(s: Session, c: MsCache, codec: Codec): (r: (Page, MsCache, Option<bool>))
    requires s.Live?
    ensures StartsWith(r.0.view, "redirect:") <==> r.2.None?
    ensures r.2.Some? ==> r.0 == Page("home", None)
                          && r.2.value == ClaimAuthorizer.IsAdmin(GetText(s, AccessTokenKey), codec)
    ensures r.2.None? ==> r.0.view == "redirect:/"
  {
    var (page, c2) := CheckAuthAndReturnView(s, c, "home");
    assert !StartsWith("home", "redirect:");
    if StartsWith(page.view, "redirect:") then (page, c2, None)
    else (page, c2, Some(ClaimAuthorizer.IsAdmin(GetText(s, AccessTokenKey), codec)))
  }

  /** `admin(session, …)`: no token redirects home-page "/", a non-administrator goes to
      "/home", otherwise the client is initialised and the admin view shown. */
  function Admin(s: Session, c: MsCache, codec: Codec): (r: (Page, MsCache))
    requires s.Live?
    ensures GetText(s, AccessTokenKey).None? ==> r == (Page("redirect:/", Some(("error", LoginFirst))), c)
    ensures GetText(s, AccessTokenKey).Some? && !ClaimAuthorizer.IsAdmin(GetText(s, AccessTokenKey), codec) ==>
              r == (Page("redirect:/home", Some(("error", AdminRequired))), c)
    ensures r.0.view == "admin" <==> GetText(s, AccessTokenKey).Some? && ClaimAuthorizer.IsAdmin(GetText(s, AccessTokenKey), codec)
    ensures r.0.view == "admin" ==> IsInitialized(r.1) && r.1.currentAccessToken == GetText(s, AccessTokenKey)
  {
    var accessToken := GetText(s, AccessTokenKey);
    if accessToken.None? then (Page("redirect:/", Some(("error", LoginFirst))), c)
    else if !ClaimAuthorizer.IsAdmin(accessToken, codec) then (Page("redirect:/home", Some(("error", AdminRequired))), c)
    else
      match InitToken(c, accessToken)
      case Err(m) => (Page("redirect:/home", Some(("error", LoadFailed + m))), c)
      case Ok(c2) => (Page("admin", None), c2)
  }

  /** With claims parsed by org.json, the admin page is never reached and `home` always
      reports a non-administrator. */
  lemma AdminPageUnreachableOnOrgJson(s: Session, c: MsCache, codec: Codec)
    requires s.Live?
    requires OrgJsonShaped(codec)
    ensures Admin(s, c, codec).0.view != "admin"
    ensures Home(s, c, codec).2 != Some(true)
  {
    ClaimAuthorizer.IsAdminNeverOnOrgJson(GetText(s, AccessTokenKey), codec);
  }
}

=== FILE: teams_sso.dfy ===
/**
  The Teams single-sign-on endpoint (`AzureAuthController.teamsSSO`): the SSO token is
  checked for shape, its payload claims are read, audience and scope are checked for the
  log only, the on-behalf-of Graph client is initialised, the Graph profile may refine the
  claim values, the account store is asked for a linked user, and the session is written.
  The Graph profile request is a parameter (its outcome), as are the OBO credential
  builder's verdict, the clock readings and the payload codec.
*/
module TeamsSso {
  import opened Wrappers
  import opened JavaText
  import opened Json
  import opened GraphClientCache
  import opened Accounts
  import opened HttpSession

  /** The `oauth` settings the endpoint reads. */
  datatype SsoConfig = SsoConfig(appIdUri: Option<string>, clientId: Option<string>)

  /** The Graph `/me` fields selected: id, displayName, mail, userPrincipalName. */
  datatype GraphProfile = GraphProfile(id: Option<string>, displayName: Option<string>,
                                       mail: Option<string>, userPrincipalName: Option<string>)

  /** Warnings the endpoint logs; none of them changes the outcome. */
  datatype Diagnostic = AudienceMismatch | AudienceCheckSkipped | MissingAccessAsUser

  /** The JSON map returned to the browser. */
  datatype Reply =
    | Failure(error: string)
    | Linked(upn: string, userName: string, userId: int, userEmail: string)
    | Unlinked(upn: string, userName: string)

  const MissingToken := "SSO 토큰이 없습니다"
  const BadTokenShape := "잘못된 토큰 형식입니다"
  const ProcessingFailed := "토큰 처리 실패: "
  const LinkedMessage := "Teams SSO 로그인 및 사용자 연동 성공"
  const UnlinkedMessage := "Teams SSO 로그인 성공 (등록된 사용자가 아닙니다)"
  const UnlinkedWarning := "등록된 사용자가 아닙니다. 먼저 회원가입을 해주세요."

  predicate Succeeded(reply: Reply) {
    !reply.Failure?
  }

  /** The keys of the reply map. */
  function ReplyKeys(reply: Reply): (r: set<string>)
    ensures "success" in r
    ensures reply.Failure? <==> "error" in r
  {
    match reply
    case Failure(_) => {"success", "error"}
    case Linked(_, _, _, _) => {"success", "message", "userPrincipalName", "userName", "userId", "userEmail"}
    case Unlinked(_, _) => {"success", "message", "userPrincipalName", "userName", "warning"}
  }

  /** The audience check: only when an App ID URI is configured, and then a mismatch is
      logged unless the audience equals it or contains the client id (the empty string
      when none is configured). */
  function AudienceDiagnostics(config: SsoConfig, audience: string): (r: seq<Diagnostic>)
    ensures r == [AudienceCheckSkipped] <==> !NonEmpty(config.appIdUri)
    ensures AudienceMismatch in r ==> NonEmpty(config.appIdUri) && audience != config.appIdUri.value
  {
    if NonEmpty(config.appIdUri) then
      if audience != config.appIdUri.value && !Contains(audience, config.clientId.GetOr("")) then [AudienceMismatch]
      else []
    else [AudienceCheckSkipped]
  }

  /** Without a configured client id every audience "contains" it, so no mismatch is ever
      reported. */
  lemma NoClientIdNoMismatch(appIdUri: Option<string>, audience: string)
    ensures AudienceMismatch !in AudienceDiagnostics(SsoConfig(appIdUri, None), audience)
  {
    ContainsEmpty(audience);
  }

  function ScopeDiagnostics(scope: string): (r: seq<Diagnostic>)
    ensures r == [] <==> Contains(scope, "access_as_user")
  {
    if Contains(scope, "access_as_user") then [] else [MissingAccessAsUser]
  }

  /** The user values taken from the token. */
  datatype Identity = Identity(upn: string, name: string, oid: string, tid: string)

  /** preferred_username, else upn, else ""; name, oid and tid default to "". */
  function TokenIdentity(claims: Claims, codec: Codec): (r: Identity)
    ensures "preferred_username" in claims && claims["preferred_username"].JString?
            ==> r.upn == claims["preferred_username"].s
    ensures ("preferred_username" !in claims || claims["preferred_username"] == JNull)
            ==> r.upn == OptString(claims, "upn", "", codec)
    ensures (("preferred_username" !in claims || claims["preferred_username"] == JNull)
             && ("upn" !in claims || claims["upn"] == JNull)) ==> r.upn == ""
    ensures "name" !in claims ==> r.name == ""
    ensures "oid" !in claims ==> r.oid == ""
    ensures "tid" !in claims ==> r.tid == ""
    ensures r.name == OptString(claims, "name", "", codec)
    ensures r.oid == OptString(claims, "oid", "", codec)
    ensures r.tid == OptString(claims, "tid", "", codec)
  {
    Identity(OptString(claims, "preferred_username", OptString(claims, "upn", "", codec), codec),
             OptString(claims, "name", "", codec),
             OptString(claims, "oid", "", codec),
             OptString(claims, "tid", "", codec))
  }

  /** A Graph value replaces the token's only when non-null and non-empty. */
  function Prefer(graph: Option<string>, token: string): (r: string)
    ensures NonEmpty(graph) ==> r == graph.value
    ensures !NonEmpty(graph) ==> r == token
  {
    if NonEmpty(graph) then graph.value else token
  }

  function Refine(id: Identity, profile: GraphProfile): (r: Identity)
    ensures r.tid == id.tid
    ensures r.upn == Prefer(profile.userPrincipalName, id.upn)
    ensures r.name == Prefer(profile.displayName, id.name)
    ensures r.oid == Prefer(profile.id, id.oid)
  {
    Identity(Prefer(profile.userPrincipalName, id.upn), Prefer(profile.displayName, id.name),
             Prefer(profile.id, id.oid), id.tid)
  }

  /** What the endpoint leaves behind. */
  datatype Outcome = Outcome(reply: Reply, session: Session, cache: MsCache, users: Users, diagnostics: seq<Diagnostic>)

  /** The environment the OBO and Graph steps run in. */
  datatype GraphEnv = GraphEnv(credentialBuilds: bool, profile: Result<GraphProfile, string>, t1: Instant, t2: Instant)

  /** The e-mail the account store is searched with: Graph's `mail`, else the user
      principal name. */
  function LinkEmail(profile: GraphProfile, refined: Identity): string {
    if profile.mail.Some? then profile.mail.value else refined.upn
  }

  /** The account-store lookup made with the refined identity. */
  function LinkLookup(refined: Identity, profile: GraphProfile, users: Users, env: GraphEnv)
    : Result<(Users, User), AccountError>
    requires Valid(users)
  {
    FindOAuthUser(users, Some(refined.oid), Some(LinkEmail(profile, refined)), Some(refined.name),
                  Some(refined.upn), env.t1, env.t2)
  }

  /** The try block around the OBO client and the Graph lookup: any failure resets the
      client cache and leaves the token values; an unregistered user (Unauthorized) is only
      a warning, and any other account-store error reaches the outer handler. */
  function LinkAccount(id: Identity, ssoToken: string, cache: MsCache, users: Users, env: GraphEnv)
    : (r: (Identity, Option<User>, MsCache, Users))
    requires Valid(users)
    ensures Valid(r.3)
    ensures r.1.None? ==> r.3 == users
    ensures r.0.tid == id.tid
    ensures InitSso(cache, ssoToken, env.credentialBuilds).Err? || env.profile.Err? ==>
              r == (id, None, Reset(cache), users)
    ensures InitSso(cache, ssoToken, env.credentialBuilds).Ok? && env.profile.Ok? ==>
              var ready := InitSso(cache, ssoToken, env.credentialBuilds).value;
              var refined := Refine(id, env.profile.value);
              var found := LinkLookup(refined, env.profile.value, users, env);
              && r.0 == refined
              && (found.Ok? ==> r == (refined, Some(found.value.1), ready, found.value.0))
              && (found.Err? && found.error.Unauthorized? ==> r == (refined, None, ready, users))
              && (found.Err? && !found.error.Unauthorized? ==> r == (refined, None, Reset(cache), users))
  {
    match InitSso(cache, ssoToken, env.credentialBuilds)
    case Err(_) => (id, None, Reset(cache), users)
    case Ok(ready) =>
      match env.profile
      case Err(_) => (id, None, Reset(cache), users)
      case Ok(profile) =>
        var refined := Refine(id, profile);
        match LinkLookup(refined, profile, users, env)
        case Ok((after, user)) => (refined, Some(user), ready, after)
        case Err(Unauthorized(_)) => (refined, None, ready, users)
        case Err(_) => (refined, None, Reset(cache), users)
  }

  /** The linked user's attributes: userId, userEmail, userName and loginType. */
  function WriteUser(s: Session, user: User): (r: Session)
    requires s.Live?
    ensures r.Live? && r.attrs.Keys == s.attrs.Keys + {UserIdKey, UserEmailKey, UserNameKey, LoginTypeKey}
    ensures GetLong(r, UserIdKey) == Some(user.id) && GetText(r, UserEmailKey) == Some(user.email)
  {
    Live(s.attrs[UserIdKey := LongAttr(user.id)][UserEmailKey := TextAttr(user.email)]
                [UserNameKey := TextAttr(user.name)][LoginTypeKey := TextAttr("SSO")])
  }

  /** The SSO attributes, written after the user's (so userName and loginType are
      overwritten); userId and userEmail are not touched. */
  function WriteSso(s: Session, ssoToken: string, id: Identity): (r: Session)
    requires s.Live?
    ensures r.Live?
    ensures GetText(r, AccessTokenKey) == Some(ssoToken) && GetText(r, SsoTokenKey) == Some(ssoToken)
    ensures GetText(r, LoginTypeKey) == Some("SSO")
    ensures GetText(r, UserPrincipalNameKey) == Some(id.upn) && GetText(r, UserNameKey) == Some(id.name)
    ensures GetText(r, MicrosoftUserIdKey) == Some(id.oid) && GetText(r, TenantIdKey) == Some(id.tid)
    ensures GetLong(r, UserIdKey) == GetLong(s, UserIdKey) && GetText(r, UserEmailKey) == GetText(s, UserEmailKey)
  {
    Live(s.attrs[AccessTokenKey := TextAttr(ssoToken)][SsoTokenKey := TextAttr(ssoToken)]
                [UserPrincipalNameKey := TextAttr(id.upn)][UserNameKey := TextAttr(id.name)]
                [MicrosoftUserIdKey := TextAttr(id.oid)][TenantIdKey := TextAttr(id.tid)]
                [LoginTypeKey := TextAttr("SSO")])
  }

  /** The session writes, in source order. */
  function WriteSession(s: Session, ssoToken: string, id: Identity, user: Option<User>): (r: Session)
    requires s.Live?
    ensures r.Live?
    ensures GetText(r, AccessTokenKey) == Some(ssoToken) && GetText(r, SsoTokenKey) == Some(ssoToken)
    ensures GetText(r, LoginTypeKey) == Some("SSO")
    ensures GetText(r, UserPrincipalNameKey) == Some(id.upn) && GetText(r, UserNameKey) == Some(id.name)
    ensures GetText(r, MicrosoftUserIdKey) == Some(id.oid) && GetText(r, TenantIdKey) == Some(id.tid)
    ensures user.Some? ==> GetLong(r, UserIdKey) == Some(user.value.id) && GetText(r, UserEmailKey) == Some(user.value.email)
    ensures user.None? ==> GetLong(r, UserIdKey) == GetLong(s, UserIdKey) && GetText(r, UserEmailKey) == GetText(s, UserEmailKey)
  {
    WriteSso(if user.Some? then WriteUser(s, user.value) else s, ssoToken, id)
  }

  /** `teamsSSO(request, session)`, given `request.get("ssoToken")`. */
  function TeamsSso(ssoToken: Option<string>, session: Session, cache: MsCache, users: Users,
                    config: SsoConfig, codec: Codec, env: GraphEnv): (r: Outcome)
    requires session.Live? && Valid(users)
    ensures !NonEmpty(ssoToken) ==> r == Outcome(Failure(MissingToken), session, cache, users, [])
    ensures NonEmpty(ssoToken) && |JavaSplit(ssoToken.value, '.')| != 3 ==>
              r == Outcome(Failure(BadTokenShape), session, cache, users, [])
    ensures NonEmpty(ssoToken) && DecodePayload(ssoToken.value, codec).Err?
              && DecodePayload(ssoToken.value, codec).error.PayloadFailure? ==>
              r == Outcome(Failure(ProcessingFailed + DecodePayload(ssoToken.value, codec).error.message),
                           session, cache, users, [])
    ensures Succeeded(r.reply) <==> NonEmpty(ssoToken) && DecodePayload(ssoToken.value, codec).Ok?
    ensures r.session.Live?
    ensures Succeeded(r.reply) ==>
              GetText(r.session, AccessTokenKey) == ssoToken && GetText(r.session, LoginTypeKey) == Some("SSO")
    ensures Valid(r.users)
    ensures NonEmpty(ssoToken) && DecodePayload(ssoToken.value, codec).Ok? ==>
              var link := LinkAccount(TokenIdentity(DecodePayload(ssoToken.value, codec).value, codec),
                                      ssoToken.value, cache, users, env);
              && r.session == WriteSession(session, ssoToken.value, link.0, link.1)
              && r.reply == (if link.1.Some? then Linked(link.0.upn, link.0.name, link.1.value.id, link.1.value.email)
                             else Unlinked(link.0.upn, link.0.name))
              && r.cache == link.2 && r.users == link.3
  {
    if !NonEmpty(ssoToken) then Outcome(Failure(MissingToken), session, cache, users, [])
    else
      var token := ssoToken.value;
      match DecodePayload(token, codec)
      case Err(MalformedToken) => Outcome(Failure(BadTokenShape), session, cache, users, [])
      case Err(PayloadFailure(message)) => Outcome(Failure(ProcessingFailed + message), session, cache, users, [])
      case Ok(claims) =>
        var diagnostics := AudienceDiagnostics(config, OptString(claims, "aud", "", codec))
                           + ScopeDiagnostics(OptString(claims, "scp", "", codec));
        var (id, user, cache', users') := LinkAccount(TokenIdentity(claims, codec), token, cache, users, env);
        var session' := WriteSession(session, token, id, user);
        var reply := match user
          case Some(u) => Linked(id.upn, id.name, u.id, u.email)
          case None => Unlinked(id.upn, id.name);
        Outcome(reply, session', cache', users', diagnostics)
  }

  /** The audience and scope checks only log: the reply, the session, the client cache and
      the store do not depend on the configured App ID URI or client id. */
  lemma ChecksOnlyLog(ssoToken: Option<string>, session: Session, cache: MsCache, users: Users,
                      c1: SsoConfig, c2: SsoConfig, codec: Codec, env: GraphEnv)
    requires session.Live? && Valid(users)
    ensures var a := TeamsSso(ssoToken, session, cache, users, c1, codec, env);
            var b := TeamsSso(ssoToken, session, cache, users, c2, codec, env);
            a.reply == b.reply && a.session == b.session && a.cache == b.cache && a.users == b.users
  {
  }

  /** When the Graph step fails (OBO credential or profile request), the session carries
      the token's own identity, the client cache is reset and the reply still succeeds
      without a linked user. */
  lemma GraphFailureKeepsTokenIdentity(token: string, session: Session, cache: MsCache, users: Users,
                                       config: SsoConfig, codec: Codec, env: GraphEnv)
    requires session.Live? && Valid(users)
    requires token != "" && DecodePayload(token, codec).Ok?
    requires InitSso(cache, token, env.credentialBuilds).Err? || env.profile.Err?
    ensures var r := TeamsSso(Some(token), session, cache, users, config, codec, env);
            var id := TokenIdentity(DecodePayload(token, codec).value, codec);
            r.reply == Unlinked(id.upn, id.name) && r.cache == Empty && r.users == users
            && GetText(r.session, UserPrincipalNameKey) == Some(id.upn)
            && GetText(r.session, MicrosoftUserIdKey) == Some(id.oid)
  {
  }

  /** The session's userName is the SSO name even when an account was linked: the later
      write overwrites the account's name. */
  lemma SessionNameIsSsoName(token: string, session: Session, cache: MsCache, users: Users,
                             config: SsoConfig, codec: Codec, env: GraphEnv)
    requires session.Live? && Valid(users)
    requires token != "" && DecodePayload(token, codec).Ok?
    ensures var r := TeamsSso(Some(token), session, cache, users, config, codec, env);
            GetText(r.session, UserNameKey) == Some(r.reply.userName)
  {
  }

  /** End to end: when the OBO client builds, Graph answers and the store finds (or links)
      an account for the refined identity, the reply and the session carry that account,
      the Graph values override the token's, the store is the lookup's and the initialised
      client stays. */
  lemma SsoLinksFoundUser(token: string, session: Session, cache: MsCache, users: Users,
                          config: SsoConfig, codec: Codec, env: GraphEnv)
    requires session.Live? && Valid(users)
    requires token != "" && DecodePayload(token, codec).Ok?
    requires InitSso(cache, token, env.credentialBuilds).Ok? && env.profile.Ok?
    requires LinkLookup(Refine(TokenIdentity(DecodePayload(token, codec).value, codec), env.profile.value),
                        env.profile.value, users, env).Ok?
    ensures var r := TeamsSso(Some(token), session, cache, users, config, codec, env);
            var refined := Refine(TokenIdentity(DecodePayload(token, codec).value, codec), env.profile.value);
            var found := LinkLookup(refined, env.profile.value, users, env).value;
            && r.reply == Linked(refined.upn, refined.name, found.1.id, found.1.email)
            && GetLong(r.session, UserIdKey) == Some(found.1.id)
            && GetText(r.session, UserEmailKey) == Some(found.1.email)
            && GetText(r.session, MicrosoftUserIdKey) == Some(refined.oid)
            && r.users == found.0
            && r.cache == InitSso(cache, token, env.credentialBuilds).value
  {
    var claims := DecodePayload(token, codec).value;
    var link := LinkAccount(TokenIdentity(claims, codec), token, cache, users, env);
    assert link.1.Some?;
  }

  /** End to end: an unregistered user (Unauthorized from the store) still gets a reply
      without an account, and the OBO client and the store are kept. */
  lemma SsoUnregisteredKeepsClient(token: string, session: Session, cache: MsCache, users: Users,
                                   config: SsoConfig, codec: Codec, env: GraphEnv)
    requires session.Live? && Valid(users)
    requires token != "" && DecodePayload(token, codec).Ok?
    requires InitSso(cache, token, env.credentialBuilds).Ok? && env.profile.Ok?
    requires var found := LinkLookup(Refine(TokenIdentity(DecodePayload(token, codec).value, codec),
                                            env.profile.value), env.profile.value, users, env);
             found.Err? && found.error.Unauthorized?
    ensures var r := TeamsSso(Some(token), session, cache, users, config, codec, env);
            var refined := Refine(TokenIdentity(DecodePayload(token, codec).value, codec), env.profile.value);
            && r.reply == Unlinked(refined.upn, refined.name)
            && r.users == users
            && r.cache == InitSso(cache, token, env.credentialBuilds).value
            && GetLong(r.session, UserIdKey) == GetLong(session, UserIdKey)
  {
  }
}

=== FILE: wrappers.dfy ===
/** Option and Result types used across the model in place of Java's null and exceptions. */
module Wrappers {

  /** A Java reference that may be null: `None` is null. */
  datatype Option<+T> = None | Some(value: T) {

    /** The value, or `default` when null. */
    function GetOr(default: T): T {
      match this
      case Some(v) => v
      case None => default
    }
  }

  /** The outcome of a Java call that either returns a value or throws. */
  datatype Result<+T, +E> = Ok(value: T) | Err(error: E) {

    predicate IsFailure() {
      Err?
    }

    function PropagateFailure<U>(): Result<U, E>
      requires Err?
    {
      Err(error)
    }

    function Extract(): T
      requires Ok?
    {
      value
    }
  }
}
